=== FILE: README.md ===
# Catalog import: a Dafny model

This project models the catalog-import engine of a security dashboard, together with the verified properties of that model. The engine takes catalog entries (assets and domains with name-based identifiers, attributes and typed relations) and turns them into shard files plus a run manifest. A harvester later picks the manifest up. It uploads every shard to the data catalog's JSON import endpoint, polls each import job until it reaches a final state, and writes the job results next to the manifest. While it works, the manifest is renamed to `.lock`, and afterwards to `.done`.

Modules, leaves first:

| module | file | models |
|---|---|---|
| `Opt` | opt.dfy | `Option` and `Result` |
| `Text` | text.dfy | decimal rendering and parsing of integers, `startswith`/`endswith`, `count`, `split`, ASCII `upper` |
| `Dicts` | dicts.dfy | Python's insertion-ordered `dict`, as a list of pairs: lookup, assignment, `update` |
| `Json` | json.dfy | decoded JSON values, subscripting (`v[k]`, which can fail), `.get`, f-string rendering |
| `Files` | files.dfy | the file system as a map from path to content; `json.load`, `json.dump`, `os.rename` |
| `Models` | models.dfy | the value types of models.py and how they are written to shards and the manifest |
| `Services` | services.dfy | `ImportService`: the entry factories, `add_attributes`, `add_relations` and `save` |
| `Harvester` | harvester.dfy | `DoImport`, `DoShape`, `doPipeline`, `doResults`, `doRequest` and `run` |
| `Handoff` | handoff.dfy | where `save` and the harvester meet: rebuilt shard paths, the manifest the glob finds, the step keys |
| `Dashboard` | dashboard.dfy | the pure helpers of app.py: token parameters, external ids, once-per-key entry tracking, directory entries, the import configuration |
| `Similarity` | similarity.dfy | the table-name filter and split, names per database, and Jaccard cardinalities from similarity.py |

How Python's behaviour is represented:

- **Exceptions.** An exception that the code catches becomes an ordinary value: a `Result`/`Option` error, or `job = null`. One that ends the process (`exit(-1)`, or an uncaught `KeyError`/`TypeError`) becomes the `Aborted`/`Crash` outcome. An import job that never reaches a final state becomes the `Stuck`/`Hang` outcome. It is modelled, not assumed away.
- **Division.** `//` is written out as floor division (`FloorDiv`). A zero divisor is the `ZeroDivision` error, not a precondition.
- **Files.** A file holds a sequence of JSON documents: one per line for Beam's text sink, exactly one for `json.dump`. It can also hold bytes that do not parse. `json.load` succeeds only on exactly one document.
- **The catalog.** The catalog is a parameter: a function from the uploaded path to the reply to the upload plus the finite sequence of replies to the status requests.

## Model

| member | source | states |
|---|---|---|
| Services.NewService | services.py:12-17 | a fresh service keeps the run id and both limits and has no steps yet |
| Services.GetDomain | services.py:18-34 | a Domain entry: identifier with community and no domain, no display name, empty attribute and relation maps |
| Services.GetAsset | services.py:36-57 | an Asset entry: domain-scoped identifier (the domain names the community), no community of its own, the given display name, empty maps |
| Services.AddAttributes | services.py:59-70 | the list under the name exists afterwards. It gains the value as-is for "string", the dumped value for "array", the formatted date for "date", and nothing for any other kind. `int()` failing on a date is reported. No other key and no other field changes |
| Services.AddRelations | services.py:72-89 | exactly one identifier, domain with community, is appended at the end of the list under "type:direction"; that list is created when missing; every other key and field is unchanged |
| Services.CeilDiv | services.py:100 | `-(-n // m)` is the ceiling of n/m; it fails exactly when m is 0 |
| Services.PlannedFiles | services.py:95-98 | without splitting one file is planned. With splitting, planning fails exactly when the maximum of entries is zero; otherwise it plans the least count, no fewer than the maximum of jobs, whose files hold every entry at the maximum each |
| Services.PerFileBounds | services.py:100 | with a positive file count, the per-file share is non-negative and is zero only for an empty list |
| Services.PartitionProperties | services.py:95-130 | with valid limits, the slices concatenate back to the input. There is at least one slice and never more than the planned files. With splitting, at least maxJobs files are planned and no slice exceeds maxEntries. Without splitting, the input is the single slice |
| Services.ChunksFlatten | services.py:113-130 | concatenating the slices in part order gives the input back: nothing lost, nothing repeated, order kept |
| Services.ChunkSizes | services.py:100-130 | every slice but the last holds exactly `per` entries; the last holds 1 to `per`; an empty list gives one empty slice |
| Services.ChunkAt | services.py:113-127 | slice k is the window of entries k·per up to (k+1)·per, clipped at the end |
| Services.ChunkCount | services.py:104-130 | the slice count is the least count whose windows cover the list |
| Services.ChunksFitFiles | services.py:100-130 | with ceil(n/files) entries per slice, there are never more slices than planned files |
| Services.ChunkStop | services.py:127-130 | the loop stops after j slices exactly when j·per reaches the list's length |
| Services.PerWithinMaxEntries | services.py:95-100 | planning at least ceil(n/maxEntries) files keeps each file at or below maxEntries |
| Services.WorkedExamples | services.py:95-130 | 7 entries with limits (1 job, 3 entries) give sizes [3,3,1]; with 4 jobs, [2,2,2,1]; 5 entries with 4 jobs give [2,2,1], fewer shards than planned |
| Services.ShardPathInjective | services.py:115 | two parts of one step share a shard path exactly when their part numbers are equal |
| Services.ManifestIsNotShard | services.py:115-132 | the manifest path is never one of its run's shard paths |
| Services.ShardPathsDistinct | services.py:105-115 | the shard paths of a step are pairwise distinct |
| Services.WriteShardsContent | services.py:113-118 | shard k holds slice k dumped as one document, and every path that is not a shard of this step is unchanged |
| Services.NextChunk | services.py:113-130 | the loop's slice `entries[from:min(from+per, n)]` is the next reference slice; the loop stops exactly when only that slice was left |
| Services.AdvanceChunk | services.py:113-130 | one loop turn appends the next reference slice and moves on by `per`, stopping exactly when the end is reached |
| Services.AppendDescriptor | services.py:120-125 | appending descriptor i after descriptors 0..i-1 equals appending descriptors 0..i at once |
| Services.ExtendKeyed | services.py:120-125 | appending descriptors of step k under key k keeps every list keyed by its own step number |
| Services.Save | services.py:94-135 | fails exactly when the partition does (a zero divisor). Otherwise: (1) the written slices are the reference partition; (2) descriptors 0..k-1 are appended after those already under the step number, and every other key is unchanged; (3) the file system is the input plus one shard per slice plus the rewritten manifest; (4) run id and limits are kept |
| Services.WriteParts | services.py:104-130 | the loop writes exactly the reference slices, shard i holding slice i, and records one descriptor per shard |
| Models.StepDictRoundTrip | models.py:63-68 | the manifest form of a Step has the four snake_case keys, not the camelCase ones, and reads back to the same Step |
| Models.StepDictLookups | models.py:65-68 | each snake_case key of the manifest form answers with its own field, `null` when absent |
| Models.EncodeEntryKeys | services.py:117-118 | a shard entry has a key exactly when the entry's field is truthy: a non-empty string, a present object or a non-empty map |
| Models.DefaultEntryEncodesEmpty | models.py:47-54 | an entry with every field at its default is written as `{}` |
| Models.EntryRoundTrip | services.py:117-118 | reading a written entry back gives the entry, except that empty strings come back absent |
| Models.NormalStr | services.py:118 | the hook keeps a string field exactly when it is present and non-empty, and then unchanged |
| Models.IdentifierRoundTrip | models.py:26-30 | an identifier reads back from its shard form, empty names absent |
| Models.DomainRoundTrip | models.py:14-17 | a domain and its community read back from their shard form |
| Models.AttributesRoundTrip | models.py:53 | an attribute map reads back unchanged, empty strings inside its lists included |
| Models.RelationsRoundTrip | models.py:54 | a relation map reads back key by key, each target identifier read back in order |
| Models.EncodeShard | services.py:117-118 | a shard document is a JSON array with one encoded entry per entry, in order |
| Files.Load | harvester.py:151-157 | `json.load` succeeds exactly on a file holding one document, and the file is that document dumped |
| Files.Rename | harvester.py:143-148 | a rename fails exactly when the source is missing. Otherwise the destination holds the source's content, the source is gone, and every other path is unchanged |
| Files.WriteAllContent | services.py:104-118 | writing distinct paths in turn leaves each path holding what was written to it and every other path unchanged |
| Dicts.UpdateGet | harvester.py:127 | after `update`, a key holds the merged object's value when that object has the key (later keys win), and its old value otherwise |
| Dicts.UpdateKeepsKeys | harvester.py:127 | `update` removes no key and keeps the key order |
| Harvester.Poll | harvester.py:56-66 | polling answers only with a reply whose state is final, and that reply is the upload's or one of the status replies. It never ends exactly when no state is final and every status reply carries a state |
| Harvester.PollStopsAtFirstFinal | harvester.py:61-66 | polling stops at the first status reply with a final state, whatever follows it |
| Harvester.ImportJob | harvester.py:31-73 | the job is `null` when a configuration key, a step field or the shard file is missing. A non-null job is `{id, result}` from an upload that answered. No job at all means the upload answered and polling never ends |
| Harvester.ImportSucceeds | harvester.py:54-69 | when the k-th status reply is the first final one and has a result, the job is the upload's id with that result |
| Harvester.ImportOne | harvester.py:28-75 | an object element gains its job under "job". A non-object element crashes the handler. A job that never ends hangs |
| Harvester.ImportKeepsFields | harvester.py:69-73 | the import changes no field of the element but "job" |
| Harvester.ImportAll | harvester.py:111-112 | the import step ends exactly when every element's import ends, yielding one output per input, in order |
| Harvester.GroupByCorrect | harvester.py:113 | grouping fails exactly when an element has no step number. Otherwise each key appears once, every element's key is present, and each group holds exactly the elements of its key, in order |
| Harvester.GroupBySingle | harvester.py:113 | elements that all carry one step number form exactly one group holding all of them |
| Harvester.MixedStepNumbers | harvester.py:113-127 | two different step numbers give at least two groups |
| Harvester.Pipeline | harvester.py:99-117 | a finished pipeline has written its step file, every line of which is a JSON object, and no path outside the manifest's step files changes |
| Harvester.Collect | harvester.py:121-135 | collecting fails exactly when the step file is missing. Otherwise the step file is removed, even when it does not parse, and no result key is lost. When the step file holds one object, the keys afterwards are exactly the earlier keys and the object's keys |
| Harvester.PipelineCollected | harvester.py:99-135 | a step with exactly one group adds that group under its rendered key; an empty step, or one with several groups, adds nothing; the step file is removed either way |
| Harvester.OneStepCollected | harvester.py:108-133 | a non-empty step whose elements all carry step number k is filed under str(k), imported elements in order, and its step file leaves no trace |
| Harvester.CollectOne | harvester.py:124-127 | a step file holding one one-key object adds that key and value to the results |
| Harvester.NotStepFiles | harvester.py:160-173 | the manifest, its lock, done and results paths are never step files, so the pipelines leave them alone |
| Harvester.RunPipelines | harvester.py:160 | running the pipelines in turn changes nothing outside the manifest's step files |
| Harvester.CollectAll | harvester.py:173 | collecting every step changes nothing outside the step files and, when it gets through, leaves none of the listed step files. No earlier result key is lost. Every collected key was there before or is a key of a listed step file's object, and when it gets through every such key is collected |
| Harvester.RequestLifecycle | harvester.py:139-183 | with the manifest missing, the request aborts and changes nothing. Otherwise the manifest's own name is free afterwards. A completed request: content under `.done`, no lock, a results file with the manifest's run id and, under "steps", exactly the object collected from the step files the pipelines wrote, no step file left. Any other ending: content under `.lock`, done path unchanged |
| Harvester.ProcessLifecycle | harvester.py:150-177 | from a locked manifest, completion needs a loadable manifest with steps and a run id and ends completed, with the results collected after the pipelines ran; any other ending stays locked |
| Harvester.FinishLifecycle | harvester.py:168-183 | removing old results, collecting, writing results and unlocking either completes the request, with the collected results under "steps", or leaves it locked; it never hangs |
| Harvester.AfterPipelinesLifecycle | harvester.py:160-183 | after the pipelines, a run id read successfully leads to completion with the results collected from the file system they left; a hang, crash or missing run id leaves the manifest locked |
| Harvester.DoRequestFrame | harvester.py:139-183 | a request changes only the manifest and paths "<manifest>.<anything>" |
| Harvester.ProcessFrame | harvester.py:150-177 | processing a locked manifest changes only the manifest's own companion paths |
| Harvester.FinishFrame | harvester.py:168-183 | finishing changes only the manifest's companion paths |
| Harvester.CompanionPathsDiffer | harvester.py:143-181 | the manifest and its lock, done and results paths are four different paths |
| Harvester.StepFileIsNotCompanion | harvester.py:169-176 | no step file is the results or the done path |
| Harvester.CompanionsNotMatched | harvester.py:188 | the lock, done and results paths never match `*.json`, so a later run skips them |
| Harvester.RunMovesAll | harvester.py:187-190 | for a duplicate-free listing in which no name is another listed name followed by "." and more, a run that gets through has moved every listed manifest to its done path, content unchanged, and freed its name |
| Harvester.RunKeeps | harvester.py:187-190 | a run leaves the name and done path of a manifest as they were when it is outside the listing and neither it nor any listed name is the other followed by "." and more |
| Harvester.RunEmptiesDirectory | harvester.py:187-190 | for a glob listing in which no name is another listed name followed by "." and more, a run that gets through leaves no matching manifest under its own name; each sits under its done path, and none of its companions match |
| Harvester.DoneCollision | harvester.py:124 | the step file of step "x.json.done" of "in/a.json" is the done path of "in/a.json.step.x.json", a listing that is not separate |
| Handoff.JoinIsSlash | services.py:105 | `os.path.join(location, runId)` is "location/runId" exactly when the location is non-empty, does not end in "/", and the run id is not absolute |
| Handoff.DescriptorFields | services.py:120 | the manifest form of a recorded descriptor answers each key with the joined run directory, the step, the label and the part |
| Handoff.UploadedPath | harvester.py:47 | the harvester uploads the joined run directory followed by "step.label.part.json" |
| Handoff.RebuiltPath | services.py:105-115 | the uploaded path is the shard `save` wrote exactly when the join adds a single "/" |
| Handoff.SameShardName | harvester.py:47 | two directories followed by the same shard name give the same path only when the directories are equal |
| Handoff.ManifestFound | harvester.py:188 | the glob finds the manifest `save` wrote exactly when the run id is non-empty, not hidden, and has no "/" |
| Handoff.ShardNotFound | harvester.py:188 | the glob never takes a shard for a manifest |
| Handoff.ManifestRead | services.py:132-135 | the manifest read back gives the run id and, in first-filed order, one step per step number, named by its decimal string and listing its descriptors |
| Handoff.StepsJsonPairs | services.py:135 | the manifest's steps object keeps the service's step order, keys rendered as decimal strings |
| Handoff.StepListCollected | harvester.py:160-173 | a non-empty step list of step k, once imported, is filed under the decimal string of k, imported descriptors in order, and its step file is removed |
| Handoff.StepCollected | harvester.py:160-173 | end to end: each non-empty step of a manifest `save` wrote is filed under the name the manifest gives it |
| Dashboard.AuthenticationParams | app.py:334-352 | the two Auth0 URLs give "beyond-api" and the two Cognito URLs "wiz-api". Any other URL raises. A missing key raises, and the first missing one is named: with a known URL and no client id, the id is named before the secret. The grant type is always client_credentials, and the id and secret are copied from the configuration |
| Dashboard.ProvidersDisjoint | app.py:38-39 | no URL is in both the Auth0 list and the Cognito list |
| Dashboard.Auth0Audience | app.py:335-341 | for any configuration with an Auth0 URL, a client id and a secret, the parameters are client_credentials, "beyond-api", and that id and secret |
| Dashboard.CognitoAudience | app.py:343-349 | for any configuration with a Cognito URL, a client id and a secret, the parameters are client_credentials, "wiz-api", and that id and secret: the Auth0 branch never catches a Cognito URL |
| Dashboard.CognitoExample | app.py:343-349 | a concrete configuration holding the second Cognito URL gets the "wiz-api" audience |
| Dashboard.ExternalId | app.py:611-620 | the nested `properties.externalId` when it can be read, else the top-level one, else None |
| Dashboard.ExternalIdPrecedence | app.py:611-620 | the nested id wins over the top-level one, and a non-object "properties" falls back to the top level |
| Dashboard.Track | app.py:1058-1071 | the entry for a key is created only on its first sight. The target and the attribute end up recorded. An existing entry changes only in its relations, and other keys are untouched |
| Dashboard.TrackInStep | app.py:1066-1072 | target bookkeeping and the entry's relation list stay in lockstep without duplicates; attribute values are recorded once each; the entry's attributes stay empty |
| Dashboard.TrackRecords | app.py:1066-1071 | target and attribute are appended to the bookkeeping only when not already recorded |
| Dashboard.DoClassifier | app.py:1058-1072 | a "Data Concept" asset in the business data models, created once per classifier, related to its category, with the severity recorded. An entry already tracked is reused, with only its relations changed. Entries whose relations and targets are in step stay in step under this tracker's relation type, and every other key is untouched |
| Dashboard.DoFileStorage | app.py:1076-1090 | an "S3 File System" asset per bucket, related to its system, with the region recorded. An entry already tracked is reused, with only its relations changed. Entries whose relations and targets are in step stay in step under this tracker's relation type, and every other key is untouched |
| Dashboard.DoStorageContainer | app.py:1094-1108 | an "S3 Bucket" asset per bucket, related to its system, with the region recorded. An entry already tracked is reused, with only its relations changed. Entries whose relations and targets are in step stay in step under this tracker's relation type, and every other key is untouched |
| Dashboard.DoDirectory | app.py:1112-1126 | a "Directory" asset displayed as "/" per bucket, related to its system, with the region recorded. An entry already tracked is reused, with only its relations changed. Entries whose relations and targets are in step stay in step under this tracker's relation type, and every other key is untouched |
| Dashboard.DropLast | app.py:1226 | `s[:-1]` followed by the last character gives `s` back; the empty string stays empty |
| Dashboard.DirectoryEntry | app.py:1224-1226 | the entry of bucket B, named "s3://B/", gets exactly one relation of the directory type, whose target is "s3://B" in its own domain |
| Dashboard.DashboardService | app.py:1161 | the dashboard saves with one job and 150000 entries per shard |
| Dashboard.DashboardOneShard | app.py:1161 | with that configuration, a list is saved as exactly one shard holding all of it exactly when it has at most 150000 entries |
| Similarity.AllTableNames | similarity.py:118 | exactly the tables whose name holds three '>' are kept, each split as "domainId>name" |
| Similarity.ConventionalParts | similarity.py:118 | a kept name under a domain id without '>' splits into five parts, the domain id first |
| Similarity.ConventionalPartsCount | similarity.py:118 | a kept name splits into five parts plus one per '>' in the domain id, so never fewer than five |
| Similarity.NamesPerDatabase | similarity.py:81-93 | fails exactly for fewer than four parts. Otherwise the key "part0>part1" is added when new and other keys are untouched. Its list keeps what it had and gains the upper-cased third and fourth parts, and nothing else |
| Similarity.AddIfAbsent | similarity.py:87-91 | the old list is kept as a prefix and is returned unchanged when it already holds the name. Otherwise the name is in the list afterwards, nothing else is added, and a duplicate-free list stays duplicate-free |
| Similarity.NamesStayDistinct | similarity.py:87-91 | gathering keeps every list free of duplicates |
| Similarity.GatherAll | similarity.py:122 | gathering all names fails exactly when some split name has fewer than four parts |
| Similarity.GatherAllProperties | similarity.py:120-122 | with enough parts, gathering succeeds, loses no key, lists every database key, adds no other key and keeps the lists duplicate-free |
| Similarity.GatheredKeys | similarity.py:120-125 | every key after gathering was there before or is the database key of a gathered name: the matrix is sized by the database keys alone |
| Similarity.TablesGather | similarity.py:118-122 | the kept tables always gather, whatever their domain ids, with duplicate-free lists |
| Similarity.Jaccard | similarity.py:97-103 | the cardinalities fail (division by zero) exactly when both strings are empty |
| Similarity.JaccardBounds | similarity.py:97-103 | the intersection never exceeds the union, and both are symmetric in the two strings |
| Similarity.JaccardOne | similarity.py:97-103 | the similarity is 1 exactly when both strings use the same characters |
| Similarity.KeysCompare | similarity.py:131-133 | two database keys always compare, since each holds a '>', and a key compared with itself scores 1 |
| Text.ParseIntToString | services.py:64 | `int(str(i)) == i` for every integer |
| Text.ParseIntLeadingZero | services.py:64 | `int` reads "0" followed by the digits of n as n, and "-0" as zero |

## Left out

- The Beam runner (`DirectRunner`, 8 worker threads, `WriteToText`) is modelled as a sequential pass: import each element in list order, group, shape, and write the step file. The grouping keeps the groups in the order their keys first occur. The runner fixes no order, so this is one admissible order. The order of the elements inside each group is also the model's sequential choice: the runner does not fix it either.
- Harvester.RunMovesAll, Harvester.RunKeeps, Harvester.RunEmptiesDirectory: proved only for listings in which no name is another listed name followed by "." and more. `glob` can list such names ("in/a.json" and "in/a.json.b.json" both match `*.json`), and `run` processes both. Some such condition is needed: as Harvester.DoneCollision shows, one request can write and then delete another listed manifest's done path.
- Harvester.ImportAll: when one element crashes and another hangs, the first in list order decides. The parallel runner may meet either first.
- A "steps" value in a manifest that is a non-empty list or a non-empty string makes the request abort before any pipeline runs. For a string this is what Python does: `data["steps"][step]` with a character as `step` raises `TypeError` at once (harvester.py:111). For a list it is not. Python iterates the list's items, and each integer item indexes the list itself. The pipelines of such items run (uploading, writing `<file>.step.<item>`, possibly hanging) until the first non-integer or out-of-range item raises. A list made only of such items even completes the request. The model runs none of these pipelines. No manifest written by `save` has a list or a string there: its steps are an object (services.py:132-135).
- Harvester.Collect, Harvester.CollectAll: only a step file holding one JSON object is merged; any other document is skipped. Python's `dict.update` at harvester.py:127 also merges an array of pairs (2-item arrays, 2-character strings, 2-key objects), keeping the pairs before the first bad item. Inside a request this cannot happen: every step file read there was just written by Harvester.Pipeline, whose lines are all objects.
- An empty step makes `WriteToText` write an empty file. It is modelled as a file with no document, which `json.load` rejects, so the step adds nothing.
- The catalog's HTTP API, basic authentication, sessions, `time.sleep` and logging are out. The catalog is a parameter giving the replies for each uploaded path. A failing request is a `Failure` reply.
- The `glob` listing's order is left open: any duplicate-free listing of the matches is allowed. Glob magic characters inside the input directory are out, and so are symbolic links.
- Paths are plain strings: "a//b" and "a/b" count as different paths. No normalisation is modelled.
- Harvester.MixedStepNumbers: a step whose elements carry different step numbers writes several lines. `json.load` rejects them, so that step's results are dropped. The model shows this outcome rather than stating a stronger promise.
- `f"{v}"` of a list or a dict is rendered as the fixed markers "[...]" and "{...}". Only scalar step keys matter for the properties.
- `os.makedirs` and its already-exists race are out. Directories are implicit in paths.
- File writes cannot fail: the shard writes (`open` and `json.dump`, services.py:115-118) and the manifest write (services.py:134-135) never raise `OSError` in the model.
- A JSON object may carry a key twice in the model, which `json.load` never yields. There Python keeps the last value while `Json.Lookup` takes the first. The two agree whenever the keys are distinct.
- Services.Save appends a step's descriptors in one step. The source appends one per loop turn; `AppendDescriptor` proves the two give the same lists.
- `get_date_as_string` (locale and time zone) and `json.dumps(value, indent=4)` are parameters of `AddAttributes`, not modelled functions.
- Dashboard.DoFileStorage, Dashboard.DoStorageContainer and Dashboard.DoDirectory take no creation date: the source accepts `cdate` and never uses it.
- The entries `do_directory` accumulates in the dashboard are discarded by the dashboard itself. The directory entries it saves are built separately, as `DirectoryEntry` models.
- Similarity.NamesPerDatabase: a name with fewer than four parts gives None, because the `IndexError` ends the script. The source may already have changed the dict before raising: it can have created the key's empty list, and with three parts it can have added the third name. That partial change is not kept in the model.
- Severity and region are plain strings, and classifier, bucket and system names are plain strings. Rows are not modelled as dataframes.
- The floating-point Jaccard value and the numpy matrix are out. The model keeps the integer pair (intersection, union).
- Streamlit, Altair, pandas, the report download and every other network I/O of the dashboard are out.
- `int(value)` for the "date" kind accepts an optional "-" then ASCII digits, leading zeros and "-0" included, as Python does. Python's other spellings (surrounding spaces, "+", "_" between digits, non-ASCII digits) are read as failures.
- JSON floats are not part of the value type: no document in the pipeline holds one.
- `str.upper` is modelled on the ASCII letters only.

=== FILE: dashboard.dfy ===
/**
 * The pure helpers of the dashboard in app.py: the token request's
 * parameters, the external id of a scanned resource, the once-per-key
 * bookkeeping that turns finding rows into catalog entries, the directory
 * entries, and the import configuration the dashboard saves with.
 */
module Dashboard {
  import opened Opt
  import opened Dicts
  import opened Json
  import opened Models
  import opened Services

  // ---------------------------------------------------------------------
  // Authentication parameters.
  // ---------------------------------------------------------------------

  const Auth0Urls: seq<string> := ["https://auth.wiz.io/oauth/token", "https://auth0.gov.wiz.io/oauth/token"]
  const CognitoUrls: seq<string> := ["https://auth.app.wiz.io/oauth/token", "https://auth.gov.wiz.io/oauth/token"]

  /** A missing configuration key (`KeyError`) or a token URL of neither
      provider. */
  datatype AuthError = MissingKey(key: string) | WrongTokenUrl

  /** The form posted for a token. */
  datatype AuthParams = AuthParams(grantType: string, audience: string, clientId: Value, clientSecret: Value)

  /** The configured token URL is one of `urls`. */
  predicate TokenUrlIn(config: Value, urls: seq<string>) {
    match Lookup(config, "wizio_token_url")
    case Some(Str(u)) => u in urls
    case _ => false
  }

  /** `generate_authentication_params`: the audience follows the provider
      of the token URL; the client id and secret are copied from the
      configuration. The URL is read first, then the id, then the
      secret, and the first missing key raises. */
  function AuthenticationParams(config: Value): (r: Result<AuthParams, AuthError>)
    ensures Lookup(config, "wizio_token_url").None? ==> r == Err(MissingKey("wizio_token_url"))
    ensures r == Err(WrongTokenUrl)
            <==> Lookup(config, "wizio_token_url").Some? && !TokenUrlIn(config, Auth0Urls) && !TokenUrlIn(config, CognitoUrls)
    ensures r.Err? && r.error.MissingKey? ==> Lookup(config, r.error.key).None?
    ensures (TokenUrlIn(config, Auth0Urls) || TokenUrlIn(config, CognitoUrls)) && Lookup(config, "wizio_client_id").None?
            ==> r == Err(MissingKey("wizio_client_id"))
    ensures (TokenUrlIn(config, Auth0Urls) || TokenUrlIn(config, CognitoUrls))
            && Lookup(config, "wizio_client_id").Some? && Lookup(config, "wizio_client_secret").Some?
            ==> r.Ok?
    ensures r.Ok? ==> r.value.grantType == "client_credentials"
    ensures r.Ok? ==> Lookup(config, "wizio_client_id") == Some(r.value.clientId)
                      && Lookup(config, "wizio_client_secret") == Some(r.value.clientSecret)
    ensures r.Ok? ==> (r.value.audience == "beyond-api" <==> TokenUrlIn(config, Auth0Urls))
    ensures r.Ok? ==> (r.value.audience == "wiz-api" <==> TokenUrlIn(config, CognitoUrls))
  {
    match Lookup(config, "wizio_token_url")
    case None => Err(MissingKey("wizio_token_url"))
    case Some(url) =>
      if !TokenUrlIn(config, Auth0Urls) && !TokenUrlIn(config, CognitoUrls) then Err(WrongTokenUrl)
      else
        var audience := if TokenUrlIn(config, Auth0Urls) then "beyond-api" else "wiz-api";
        match Lookup(config, "wizio_client_id")
        case None => Err(MissingKey("wizio_client_id"))
        case Some(id) =>
          match Lookup(config, "wizio_client_secret")
          case None => Err(MissingKey("wizio_client_secret"))
          case Some(secret) => Ok(AuthParams("client_credentials", audience, id, secret))
  }

  /** The two providers' URL lists share no URL. */
  lemma ProvidersDisjoint()
    ensures forall u :: u in CognitoUrls ==> u !in Auth0Urls
    ensures forall u :: u in Auth0Urls ==> u !in CognitoUrls
  {
    assert CognitoUrls[0] != Auth0Urls[0] && CognitoUrls[0] != Auth0Urls[1];
    assert CognitoUrls[1] != Auth0Urls[0] && CognitoUrls[1] != Auth0Urls[1];
  }

  /** Either Cognito URL, with the id and the secret present, selects the
      "wiz-api" audience and copies the id and the secret. */
  lemma CognitoAudience(config: Value)
    requires TokenUrlIn(config, CognitoUrls)
    requires Lookup(config, "wizio_client_id").Some? && Lookup(config, "wizio_client_secret").Some?
    ensures AuthenticationParams(config)
            == Ok(AuthParams("client_credentials", "wiz-api",
                             Lookup(config, "wizio_client_id").value, Lookup(config, "wizio_client_secret").value))
  {
    ProvidersDisjoint();
  }

  /** Either Auth0 URL, with the id and the secret present, selects the
      "beyond-api" audience and copies the id and the secret. */
  lemma Auth0Audience(config: Value)
    requires TokenUrlIn(config, Auth0Urls)
    requires Lookup(config, "wizio_client_id").Some? && Lookup(config, "wizio_client_secret").Some?
    ensures AuthenticationParams(config)
            == Ok(AuthParams("client_credentials", "beyond-api",
                             Lookup(config, "wizio_client_id").value, Lookup(config, "wizio_client_secret").value))
  {
  }

  /** A concrete configuration naming the second Cognito URL. */
  lemma CognitoExample(id: Value, secret: Value)
    ensures var config := Object([("wizio_token_url", Str(CognitoUrls[1])),
                                  ("wizio_client_id", id), ("wizio_client_secret", secret)]);
            AuthenticationParams(config) == Ok(AuthParams("client_credentials", "wiz-api", id, secret))
  {
    var config := Object([("wizio_token_url", Str(CognitoUrls[1])),
                          ("wizio_client_id", id), ("wizio_client_secret", secret)]);
    assert Keys(config.fields) == ["wizio_token_url", "wizio_client_id", "wizio_client_secret"];
    GetAt(config.fields, 0);
    GetAt(config.fields, 1);
    GetAt(config.fields, 2);
    CognitoAudience(config);
  }

  // ---------------------------------------------------------------------
  // External ids.
  // ---------------------------------------------------------------------

  /** `x['properties']['externalId']`, where any failure of either
      subscript (a missing key, a value that is not an object) counts as
      absent. */
  function NestedId(x: Value): Option<Value> {
    match Lookup(x, "properties")
    case Some(p) => Lookup(p, "externalId")
    case None => None
  }

  /** `get_external_id`: the nested id when it can be read, else the
      top-level one, else None (`Null`). */
  function ExternalId(x: Value): (r: Value)
    ensures NestedId(x).Some? ==> r == NestedId(x).value
    ensures NestedId(x).None? ==> r == Lookup(x, "externalId").GetOr(Null)
    ensures r != Null ==> x.Obj?
  {
    match NestedId(x)
    case Some(id) => id
    case None =>
      match Lookup(x, "externalId")
      case Some(id) => id
      case None => Null
  }

  /** The nested id wins over a top-level one, and a "properties" value
      that is not an object falls back to the top level. */
  lemma ExternalIdPrecedence(nested: Value, top: Value, other: Value)
    requires !other.Obj?
    ensures ExternalId(Object([("externalId", top), ("properties", Object([("externalId", nested)]))])) == nested
    ensures ExternalId(Object([("externalId", top), ("properties", other)])) == top
  {
    var x := Object([("externalId", top), ("properties", Object([("externalId", nested)]))]);
    assert Keys(x.fields) == ["externalId", "properties"];
    GetAt(x.fields, 1);
    var y := Object([("externalId", top), ("properties", other)]);
    assert Keys(y.fields) == ["externalId", "properties"];
    GetAt(y.fields, 1);
  }

  // ---------------------------------------------------------------------
  // Once-per-key entry bookkeeping.
  // ---------------------------------------------------------------------

  /** One tracked catalog entry with the relation targets and the
      attribute values already recorded for it. */
  datatype Tracked = Tracked(entry: Entry, relations: seq<string>, attributes: seq<string>)

  /** What distinguishes the four trackers: the asset built on first sight
      of a key and the relation recorded for each new target. */
  datatype Kind = Kind(community: string, domain: string, assetType: string, displayName: Option<string>,
                       relationType: string, targetDomain: string, targetCommunity: string)

  const Source: string := "SOURCE"

  /** The shared body of the four `do_*` functions: create the entry for
      `key` on its first sight, add a relation to `target` unless already
      recorded, and record `attribute` unless already recorded. The
      attribute is never written into the entry itself. */
  function Track(entries: Dict<string, Tracked>, key: string, kind: Kind, target: string, attribute: string)
    : (r: Dict<string, Tracked>)
    ensures HasKey(r, key)
    ensures Keys(r) == if HasKey(entries, key) then Keys(entries) else Keys(entries) + [key]
    ensures forall k :: k != key ==> Get(r, k) == Get(entries, k)
    ensures target in Get(r, key).value.relations && attribute in Get(r, key).value.attributes
    ensures HasKey(entries, key) ==>
              (Get(r, key).value.entry.(relations := Get(entries, key).value.entry.relations) == Get(entries, key).value.entry)
    ensures !HasKey(entries, key) ==>
              (Get(r, key).value.entry.(relations := Empty())
               == GetAsset(kind.community, kind.domain, kind.assetType, key, kind.displayName.GetOr(key)))
  {
    var t := match Get(entries, key)
      case Some(t) => t
      case None => Tracked(GetAsset(kind.community, kind.domain, kind.assetType, key, kind.displayName.GetOr(key)), [], []);
    var t := if target in t.relations then t
             else Tracked(AddRelations(t.entry, kind.relationType, Source, kind.targetDomain, kind.targetCommunity, target),
                          t.relations + [target], t.attributes);
    var t := if attribute in t.attributes then t else t.(attributes := t.attributes + [attribute]);
    PutKeys(entries, key, t);
    assert forall k :: k != key ==> Get(Put(entries, key, t), k) == Get(entries, k) by {
      forall k | k != key {
        PutGetOther(entries, key, t, k);
      }
    }
    Put(entries, key, t)
  }

  /** The names of relation targets. */
  function TargetNames(ids: seq<Identifier>): (names: seq<Option<string>>)
    ensures |names| == |ids|
    ensures forall i :: 0 <= i < |ids| ==> names[i] == ids[i].name
  {
    seq(|ids|, i requires 0 <= i < |ids| => ids[i].name)
  }

  /** Recorded target names, as identifier names. */
  function Named(targets: seq<string>): (names: seq<Option<string>>)
    ensures |names| == |targets|
    ensures forall i :: 0 <= i < |targets| ==> names[i] == Some(targets[i])
  {
    seq(|targets|, i requires 0 <= i < |targets| => Some(targets[i]))
  }

  /** A tracked entry is in lockstep with its bookkeeping: the targets are
      recorded once each and are exactly, in order, the names in the
      entry's relation list of the tracker's relation type; the attribute
      values are recorded once each and the entry has no attribute. */
  predicate InStep(t: Tracked, relationType: string) {
    Distinct(t.relations) && Distinct(t.attributes)
    && t.entry.attributes == Empty()
    && TargetNames(Get(t.entry.relations, RelationKey(relationType, Source)).GetOr([])) == Named(t.relations)
  }

  /** Every tracked entry of a tracker is in lockstep. */
  predicate AllInStep(entries: Dict<string, Tracked>, relationType: string) {
    forall p :: p in entries.pairs ==> InStep(p.1, relationType)
  }

  lemma FreshInStep(kind: Kind, key: string)
    ensures InStep(Tracked(GetAsset(kind.community, kind.domain, kind.assetType, key, kind.displayName.GetOr(key)), [], []),
                   kind.relationType)
  {
    var e := GetAsset(kind.community, kind.domain, kind.assetType, key, kind.displayName.GetOr(key));
    assert Get(e.relations, RelationKey(kind.relationType, Source)) == None;
  }

  lemma NamesSnoc(ids: seq<Identifier>, targets: seq<string>, id: Identifier, target: string)
    requires TargetNames(ids) == Named(targets) && id.name == Some(target)
    ensures TargetNames(ids + [id]) == Named(targets + [target])
  {
    assert |ids| == |targets|;
    forall i | 0 <= i < |ids| + 1
      ensures TargetNames(ids + [id])[i] == Named(targets + [target])[i]
    {
      if i < |ids| {
        assert TargetNames(ids)[i] == Named(targets)[i];
      }
    }
  }

  /** Recording a new target keeps the lockstep. */
  lemma AddTargetInStep(t: Tracked, kind: Kind, target: string)
    requires InStep(t, kind.relationType) && target !in t.relations
    ensures InStep(Tracked(AddRelations(t.entry, kind.relationType, Source, kind.targetDomain, kind.targetCommunity, target),
                           t.relations + [target], t.attributes), kind.relationType)
  {
    var key := RelationKey(kind.relationType, Source);
    var before := Get(t.entry.relations, key).GetOr([]);
    var id := RelationTarget(kind.targetDomain, kind.targetCommunity, target);
    var e := AddRelations(t.entry, kind.relationType, Source, kind.targetDomain, kind.targetCommunity, target);
    assert Get(e.relations, key).GetOr([]) == before + [id];
    DistinctSnoc(t.relations, target);
    NamesSnoc(before, t.relations, id, target);
  }

  /** Recording a new attribute value keeps the lockstep. */
  lemma AddAttributeInStep(t: Tracked, relationType: string, attribute: string)
    requires InStep(t, relationType) && attribute !in t.attributes
    ensures InStep(t.(attributes := t.attributes + [attribute]), relationType)
  {
    DistinctSnoc(t.attributes, attribute);
  }

  /** Tracking keeps every entry of the tracker in lockstep: a relation
      is added at most once per target and the bookkeeping list and the
      entry's relation list never drift apart. */
  lemma TrackInStep(entries: Dict<string, Tracked>, key: string, kind: Kind, target: string, attribute: string)
    requires AllInStep(entries, kind.relationType)
    ensures AllInStep(Track(entries, key, kind, target, attribute), kind.relationType)
  {
    var t0 := match Get(entries, key)
      case Some(t) => t
      case None => Tracked(GetAsset(kind.community, kind.domain, kind.assetType, key, kind.displayName.GetOr(key)), [], []);
    if HasKey(entries, key) {
      GetPair(entries, key);
    } else {
      FreshInStep(kind, key);
    }
    assert InStep(t0, kind.relationType);
    var t1 := if target in t0.relations then t0
              else Tracked(AddRelations(t0.entry, kind.relationType, Source, kind.targetDomain, kind.targetCommunity, target),
                           t0.relations + [target], t0.attributes);
    if target !in t0.relations {
      AddTargetInStep(t0, kind, target);
    }
    var t2 := if attribute in t1.attributes then t1 else t1.(attributes := t1.attributes + [attribute]);
    if attribute !in t1.attributes {
      AddAttributeInStep(t1, kind.relationType, attribute);
    }
    assert Track(entries, key, kind, target, attribute) == Put(entries, key, t2);
    PutPairs(entries, key, t2);
  }

  /** The bookkeeping under `key` after tracking: `target` and `attribute`
      are recorded, each appended only when new. */
  lemma TrackRecords(entries: Dict<string, Tracked>, key: string, kind: Kind, target: string, attribute: string)
    ensures var before := if HasKey(entries, key) then Get(entries, key).value.relations else [];
            var after := Get(Track(entries, key, kind, target, attribute), key).value.relations;
            after == if target in before then before else before + [target]
    ensures var before := if HasKey(entries, key) then Get(entries, key).value.attributes else [];
            var after := Get(Track(entries, key, kind, target, attribute), key).value.attributes;
            after == if attribute in before then before else before + [attribute]
  {
  }

  /** The relation types the four trackers record. */
  const ClassifierRelation: string := "c0e00000-0000-0000-0000-000000007316"
  const FileStorageRelation: string := "00000000-0000-0000-0000-000000007054"
  const ContainerRelation: string := "00000000-0000-0000-0001-002600000000"
  const DirectoryRelation: string := "00000000-0000-0000-0001-002600000001"

  /** `do_classifier`: a "Data Concept" asset in the business data models,
      related to its data category. */
  function ClassifierKind(): Kind {
    Kind("Data Architects community", "Business Data Models", "Data Concept", None,
         ClassifierRelation, "Data categories", "Privacy and Risk community")
  }

  /** An existing entry is reused: tracking changes only its relations. */
  predicate Reused(entries: Dict<string, Tracked>, r: Dict<string, Tracked>, key: string) {
    HasKey(entries, key) && HasKey(r, key)
    ==> Get(r, key).value.entry.(relations := Get(entries, key).value.entry.relations) == Get(entries, key).value.entry
  }

  function DoClassifier(classifier: string, category: string, severity: string, entries: Dict<string, Tracked>)
    : (r: Dict<string, Tracked>)
    ensures HasKey(r, classifier)
    ensures !HasKey(entries, classifier) ==>
              (Get(r, classifier).value.entry.(relations := Empty())
               == GetAsset("Data Architects community", "Business Data Models", "Data Concept", classifier, classifier))
    ensures Reused(entries, r, classifier)
    ensures category in Get(r, classifier).value.relations && severity in Get(r, classifier).value.attributes
    ensures AllInStep(entries, ClassifierRelation) ==> AllInStep(r, ClassifierRelation)
    ensures forall k :: k != classifier ==> Get(r, k) == Get(entries, k)
  {
    var r := Track(entries, classifier, ClassifierKind(), category, severity);
    assert AllInStep(entries, ClassifierRelation) ==> AllInStep(r, ClassifierRelation) by {
      if AllInStep(entries, ClassifierRelation) {
        TrackInStep(entries, classifier, ClassifierKind(), category, severity);
      }
    }
    r
  }

  /** The three storage trackers share their shape: an asset in the
      subscription's domain, related to the subscription's system. */
  function StorageKind(community: string, domain: string, assetType: string, displayName: Option<string>,
                       relationType: string): Kind {
    Kind(community, domain, assetType, displayName, relationType, domain, community)
  }

  /** `do_filestorage`: an "S3 File System" asset. The creation date is
      not used. */
  function DoFileStorage(bucket: string, region: string, system: string, domain: string, community: string,
                         entries: Dict<string, Tracked>): (r: Dict<string, Tracked>)
    ensures HasKey(r, bucket)
    ensures !HasKey(entries, bucket) ==>
              (Get(r, bucket).value.entry.(relations := Empty()) == GetAsset(community, domain, "S3 File System", bucket, bucket))
    ensures Reused(entries, r, bucket)
    ensures system in Get(r, bucket).value.relations && region in Get(r, bucket).value.attributes
    ensures AllInStep(entries, FileStorageRelation) ==> AllInStep(r, FileStorageRelation)
    ensures forall k :: k != bucket ==> Get(r, k) == Get(entries, k)
  {
    var kind := StorageKind(community, domain, "S3 File System", None, FileStorageRelation);
    var r := Track(entries, bucket, kind, system, region);
    assert AllInStep(entries, FileStorageRelation) ==> AllInStep(r, FileStorageRelation) by {
      if AllInStep(entries, FileStorageRelation) {
        TrackInStep(entries, bucket, kind, system, region);
      }
    }
    r
  }

  /** `do_storagecontainer`: an "S3 Bucket" asset. */
  function DoStorageContainer(bucket: string, region: string, system: string, domain: string, community: string,
                              entries: Dict<string, Tracked>): (r: Dict<string, Tracked>)
    ensures HasKey(r, bucket)
    ensures !HasKey(entries, bucket) ==>
              (Get(r, bucket).value.entry.(relations := Empty()) == GetAsset(community, domain, "S3 Bucket", bucket, bucket))
    ensures Reused(entries, r, bucket)
    ensures system in Get(r, bucket).value.relations && region in Get(r, bucket).value.attributes
    ensures AllInStep(entries, ContainerRelation) ==> AllInStep(r, ContainerRelation)
    ensures forall k :: k != bucket ==> Get(r, k) == Get(entries, k)
  {
    var kind := StorageKind(community, domain, "S3 Bucket", None, ContainerRelation);
    var r := Track(entries, bucket, kind, system, region);
    assert AllInStep(entries, ContainerRelation) ==> AllInStep(r, ContainerRelation) by {
      if AllInStep(entries, ContainerRelation) {
        TrackInStep(entries, bucket, kind, system, region);
      }
    }
    r
  }

  /** `do_directory`: a "Directory" asset displayed as "/". */
  function DoDirectory(bucket: string, region: string, system: string, domain: string, community: string,
                       entries: Dict<string, Tracked>): (r: Dict<string, Tracked>)
    ensures HasKey(r, bucket)
    ensures !HasKey(entries, bucket) ==>
              (Get(r, bucket).value.entry.(relations := Empty()) == GetAsset(community, domain, "Directory", bucket, "/"))
    ensures Reused(entries, r, bucket)
    ensures system in Get(r, bucket).value.relations && region in Get(r, bucket).value.attributes
    ensures AllInStep(entries, DirectoryRelation) ==> AllInStep(r, DirectoryRelation)
    ensures forall k :: k != bucket ==> Get(r, k) == Get(entries, k)
  {
    var kind := StorageKind(community, domain, "Directory", Some("/"), DirectoryRelation);
    var r := Track(entries, bucket, kind, system, region);
    assert AllInStep(entries, DirectoryRelation) ==> AllInStep(r, DirectoryRelation) by {
      if AllInStep(entries, DirectoryRelation) {
        TrackInStep(entries, bucket, kind, system, region);
      }
    }
    r
  }

  // ---------------------------------------------------------------------
  // Directory entries.
  // ---------------------------------------------------------------------

  /** Python's `s[:-1]`: everything but the last character, "" for "". */
  function DropLast(s: string): (r: string)
    ensures |s| > 0 ==> r + [s[|s| - 1]] == s
    ensures |s| == 0 ==> r == ""
  {
    if |s| == 0 then "" else s[..|s| - 1]
  }

  /** The directory entry of bucket `b`: an asset named "s3://b/" in the
      subscription's domain, related to the target named by its own name
      minus the last character, in its own domain. */
  function DirectoryEntry(community: string, domain: string, bucket: string): (e: Entry)
    ensures e.identifier == Some(Identifier(Some("s3://" + bucket + "/"), Some(Domain(Some(domain), Some(Community(Some(community))))), None))
    ensures Get(e.relations, RelationKey(DirectoryRelation, Source))
            == Some([RelationTarget(domain, community, "s3://" + bucket)])
  {
    var a := GetAsset(community, domain, "Directory", "s3://" + bucket + "/", "/");
    var id := a.identifier.value;
    assert DropLast(id.name.value) == "s3://" + bucket;
    assert Get(a.relations, RelationKey(DirectoryRelation, Source)) == None;
    assert id.domain.value.name.value == domain;
    var e := AddRelations(a, DirectoryRelation, Source, id.domain.value.name.value, community, DropLast(id.name.value));
    assert Get(e.relations, RelationKey(DirectoryRelation, Source))
           == Some([] + [RelationTarget(domain, community, "s3://" + bucket)]);
    assert [] + [RelationTarget(domain, community, "s3://" + bucket)] == [RelationTarget(domain, community, "s3://" + bucket)];
    e
  }

  // ---------------------------------------------------------------------
  // The dashboard's import configuration.
  // ---------------------------------------------------------------------

  /** The dashboard's service: run id from the date, one job, 150000
      entries per shard. */
  function DashboardService(date: string): (s: ImportService)
    ensures s.maxJobs == 1 && s.maxEntries == 150000 && s.runId == date
  {
    NewService(date, 1, 150000)
  }

  /** With one job and 150000 entries per shard, a split save writes one
      shard holding every entry exactly when there are at most 150000
      entries. */
  lemma DashboardOneShard<T>(date: string, entries: seq<T>)
    ensures Partition(DashboardService(date).maxJobs, DashboardService(date).maxEntries, entries, true).Ok?
    ensures |entries| <= 150000 <==>
            Partition(DashboardService(date).maxJobs, DashboardService(date).maxEntries, entries, true).value == [entries]
  {
    PartitionProperties(1, 150000, entries, true);
    var parts := Partition(1, 150000, entries, true).value;
    if |entries| <= 150000 {
      assert PlannedFiles(1, 150000, |entries|, true).value == 1 by {
        assert CeilDiv(|entries|, 150000).value <= 1;
      }
      assert |parts| == 1;
      assert parts == [parts[0]];
      assert Flatten(parts) == parts[0] + Flatten(parts[1..]);
    } else {
      assert |parts[0]| <= 150000;
    }
  }
}

=== FILE: dicts.dfy ===
/**
 * Python's `dict`: key/value pairs kept in insertion order. Assigning to a
 * present key replaces its value in place; assigning to an absent key appends
 * the pair; `update` assigns every pair of its argument in turn.
 */
module Dicts {
  import opened Opt

  datatype Dict<K, V> = Dict(pairs: seq<(K, V)>)

  function Empty<K, V>(): Dict<K, V> {
    Dict([])
  }

  /** `list(d)`: the keys in insertion order. */
  function Keys<K, V>(d: Dict<K, V>): (ks: seq<K>)
    ensures |ks| == |d.pairs|
    ensures forall i :: 0 <= i < |ks| ==> ks[i] == d.pairs[i].0
    decreases |d.pairs|
  {
    if |d.pairs| == 0 then [] else [d.pairs[0].0] + Keys(Dict(d.pairs[1..]))
  }

  /** No element occurs twice. */
  predicate Distinct<T(==)>(s: seq<T>) {
    forall i, j :: 0 <= i < j < |s| ==> s[i] != s[j]
  }

  /** Appending a new element keeps a sequence free of duplicates. */
  lemma DistinctSnoc<T>(s: seq<T>, x: T)
    requires Distinct(s) && x !in s
    ensures Distinct(s + [x])
  {
    var xs := s + [x];
    forall i, j | 0 <= i < j < |xs|
      ensures xs[i] != xs[j]
    {
      if j == |xs| - 1 {
        assert xs[i] in s;
      }
    }
  }

  /** No key occurs twice, as in every dict Python can build. */
  predicate Wf<K(==), V>(d: Dict<K, V>) {
    Distinct(Keys(d))
  }

  /** `d.get(k)`: the value stored under `k`, if any. */
  function Get<K(==), V>(d: Dict<K, V>, k: K): (r: Option<V>)
    ensures r.Some? <==> k in Keys(d)
    decreases |d.pairs|
  {
    if |d.pairs| == 0 then None
    else if d.pairs[0].0 == k then Some(d.pairs[0].1)
    else Get(Dict(d.pairs[1..]), k)
  }

  predicate HasKey<K(==), V>(d: Dict<K, V>, k: K) {
    Get(d, k).Some?
  }

  /** `d[k] = v`. */
  function Put<K(==), V>(d: Dict<K, V>, k: K, v: V): (r: Dict<K, V>)
    ensures Get(r, k) == Some(v)
    decreases |d.pairs|
  {
    if |d.pairs| == 0 then Dict([(k, v)])
    else if d.pairs[0].0 == k then Dict([(k, v)] + d.pairs[1..])
    else
      var rest := Put(Dict(d.pairs[1..]), k, v);
      var r := Dict([d.pairs[0]] + rest.pairs);
      assert Get(r, k) == Some(v) by {
        assert r.pairs[1..] == rest.pairs;
      }
      r
  }

  /** Assigning a present key keeps the key order; an absent key goes last. */
  lemma {:induction false} PutKeys<K, V>(d: Dict<K, V>, k: K, v: V)
    ensures Keys(Put(d, k, v)) == if k in Keys(d) then Keys(d) else Keys(d) + [k]
    decreases |d.pairs|
  {
    if |d.pairs| > 0 && d.pairs[0].0 != k {
      var tail := Dict(d.pairs[1..]);
      PutKeys(tail, k, v);
      assert Put(d, k, v).pairs[1..] == Put(tail, k, v).pairs;
    } else if |d.pairs| > 0 {
      assert Keys(d)[0] == k;
    }
  }

  /** Assigning a key keeps a dict free of duplicate keys. */
  lemma PutWf<K, V>(d: Dict<K, V>, k: K, v: V)
    requires Wf(d)
    ensures Wf(Put(d, k, v))
  {
    PutKeys(d, k, v);
    var ks := Keys(Put(d, k, v));
    if k !in Keys(d) {
      forall i, j | 0 <= i < j < |ks|
        ensures ks[i] != ks[j]
      {
        if j == |ks| - 1 {
          assert ks[i] in Keys(d);
        }
      }
    }
  }

  /** A second assignment to the same key overwrites the first in place. */
  lemma {:induction false} PutPut<K, V>(d: Dict<K, V>, k: K, v: V, w: V)
    ensures Put(Put(d, k, v), k, w) == Put(d, k, w)
    decreases |d.pairs|
  {
    if |d.pairs| > 0 && d.pairs[0].0 != k {
      PutPut(Dict(d.pairs[1..]), k, v, w);
    }
  }

  /** Assigning one key leaves every other key's value alone. */
  lemma {:induction false} PutGetOther<K, V>(d: Dict<K, V>, k: K, v: V, k': K)
    requires k' != k
    ensures Get(Put(d, k, v), k') == Get(d, k')
    decreases |d.pairs|
  {
    if |d.pairs| > 0 && d.pairs[0].0 != k {
      PutGetOther(Dict(d.pairs[1..]), k, v, k');
    }
  }

  /** `d.setdefault(k, []).extend(added)`: appends to the list under `k`,
      starting from an empty one when `k` is absent. */
  function Extend<K(==), V>(d: Dict<K, seq<V>>, k: K, added: seq<V>): Dict<K, seq<V>> {
    Put(d, k, Get(d, k).GetOr([]) + added)
  }

  /** Extending a freshly assigned list appends to that list. */
  lemma ExtendPut<K, V>(d: Dict<K, seq<V>>, k: K, v: seq<V>, b: seq<V>)
    ensures Extend(Put(d, k, v), k, b) == Put(d, k, v + b)
  {
    assert Get(Put(d, k, v), k) == Some(v);
    PutPut(d, k, v, v + b);
  }

  /** Extending twice under one key is extending once by both lists. */
  lemma ExtendTwice<K, V>(d: Dict<K, seq<V>>, k: K, a: seq<V>, b: seq<V>)
    ensures Extend(Extend(d, k, a), k, b) == Extend(d, k, a + b)
  {
    var existing := Get(d, k).GetOr([]);
    assert Extend(Extend(d, k, a), k, b) == Put(d, k, existing + a + b) by {
      ExtendPut(d, k, existing + a, b);
    }
    assert existing + a + b == existing + (a + b);
  }

  /** `d.update(o)`: every pair of `o` assigned into `d`, in `o`'s order. */
  function Update<K(==), V>(d: Dict<K, V>, o: Dict<K, V>): (r: Dict<K, V>)
    decreases |o.pairs|
  {
    if |o.pairs| == 0 then d
    else Update(Put(d, o.pairs[0].0, o.pairs[0].1), Dict(o.pairs[1..]))
  }

  /** After `d.update(o)` a key holds `o`'s value when `o` has it (later keys
      win) and `d`'s value otherwise; nothing is removed. */
  lemma {:induction false} UpdateGet<K, V>(d: Dict<K, V>, o: Dict<K, V>, k: K)
    requires Wf(o)
    ensures Get(Update(d, o), k) == if HasKey(o, k) then Get(o, k) else Get(d, k)
    decreases |o.pairs|
  {
    if |o.pairs| > 0 {
      var tail := Dict(o.pairs[1..]);
      assert Wf(tail);
      assert Keys(o) == [o.pairs[0].0] + Keys(tail);
      UpdateGet(Put(d, o.pairs[0].0, o.pairs[0].1), tail, k);
      if k != o.pairs[0].0 {
        PutGetOther(d, o.pairs[0].0, o.pairs[0].1, k);
      }
    }
  }

  /** `update` keeps every key order of `d` and appends `o`'s new keys. */
  lemma {:induction false} UpdateKeepsKeys<K, V>(d: Dict<K, V>, o: Dict<K, V>)
    ensures Keys(d) <= Keys(Update(d, o))
    ensures Wf(d) ==> Wf(Update(d, o))
    decreases |o.pairs|
  {
    if |o.pairs| > 0 {
      var d' := Put(d, o.pairs[0].0, o.pairs[0].1);
      PutKeys(d, o.pairs[0].0, o.pairs[0].1);
      if Wf(d) {
        PutWf(d, o.pairs[0].0, o.pairs[0].1);
      }
      UpdateKeepsKeys(d', Dict(o.pairs[1..]));
    }
  }

  /** A key is in `d.update(o)` exactly when it is in `d` or in `o`. */
  lemma {:induction false} UpdateKeySet<K, V>(d: Dict<K, V>, o: Dict<K, V>, k: K)
    ensures k in Keys(Update(d, o)) <==> k in Keys(d) || k in Keys(o)
    decreases |o.pairs|
  {
    if |o.pairs| > 0 {
      var tail := Dict(o.pairs[1..]);
      assert Keys(o) == [o.pairs[0].0] + Keys(tail);
      PutKeys(d, o.pairs[0].0, o.pairs[0].1);
      UpdateKeySet(Put(d, o.pairs[0].0, o.pairs[0].1), tail, k);
    }
  }

  /** The keys after `update` are the old keys, kept, and `o`'s keys. */
  lemma UpdateKeys<K, V>(d: Dict<K, V>, o: Dict<K, V>)
    ensures Keys(d) <= Keys(Update(d, o))
    ensures forall k :: k in Keys(Update(d, o)) <==> k in Keys(d) || k in Keys(o)
  {
    UpdateKeepsKeys(d, o);
    forall k
      ensures k in Keys(Update(d, o)) <==> k in Keys(d) || k in Keys(o)
    {
      UpdateKeySet(d, o, k);
    }
  }

  /** Looking up in a dict built from two runs of pairs: the first run
      answers when it holds the key, the second otherwise. */
  lemma {:induction false} GetAppend<K, V>(a: seq<(K, V)>, b: seq<(K, V)>, k: K)
    ensures Get(Dict(a + b), k) == if Get(Dict(a), k).Some? then Get(Dict(a), k) else Get(Dict(b), k)
    decreases |a|
  {
    if |a| == 0 {
      assert a + b == b;
    } else {
      assert (a + b)[1..] == a[1..] + b;
      GetAppend(a[1..], b, k);
    }
  }

  /** What `get` returns is stored in the dict under that key. */
  lemma {:induction false} GetPair<K, V>(d: Dict<K, V>, k: K)
    requires HasKey(d, k)
    ensures (k, Get(d, k).value) in d.pairs
    decreases |d.pairs|
  {
    if d.pairs[0].0 != k {
      GetPair(Dict(d.pairs[1..]), k);
    }
  }

  /** After `d[k] = v` every pair is the new one or was already there. */
  lemma {:induction false} PutPairs<K, V>(d: Dict<K, V>, k: K, v: V)
    ensures forall p :: p in Put(d, k, v).pairs ==> p in d.pairs || p == (k, v)
    decreases |d.pairs|
  {
    if |d.pairs| > 0 && d.pairs[0].0 != k {
      var tail := Dict(d.pairs[1..]);
      PutPairs(tail, k, v);
      assert Put(d, k, v).pairs == [d.pairs[0]] + Put(tail, k, v).pairs;
    }
  }

  /** Dropping the first pair keeps a dict free of duplicate keys. */
  lemma WfTail<K, V>(d: Dict<K, V>)
    requires Wf(d) && |d.pairs| > 0
    ensures Wf(Dict(d.pairs[1..]))
  {
    var ks, ts := Keys(d), Keys(Dict(d.pairs[1..]));
    forall a, b | 0 <= a < b < |ts|
      ensures ts[a] != ts[b]
    {
      assert ts[a] == ks[a + 1] && ts[b] == ks[b + 1];
    }
  }

  /** In a dict without duplicate keys, each stored pair is what `get`
      finds under its key. */
  lemma {:induction false} GetAt<K, V>(d: Dict<K, V>, i: nat)
    requires Wf(d) && i < |d.pairs|
    ensures Get(d, d.pairs[i].0) == Some(d.pairs[i].1)
    decreases i
  {
    if i > 0 {
      var tail := Dict(d.pairs[1..]);
      assert Keys(d)[0] != Keys(d)[i];
      WfTail(d);
      GetAt(tail, i - 1);
      assert tail.pairs[i - 1] == d.pairs[i];
    }
  }
}

=== FILE: files.dfy ===
/**
 * The part of the filesystem the pipeline touches: a map from path to
 * content. A file holds a sequence of JSON documents (one per line for
 * Beam's text sink, exactly one for `json.dump`), or bytes that do not
 * parse as JSON.
 */
module Files {
  import opened Opt
  import opened Dicts
  import opened Json

  datatype Content = Docs(docs: seq<Value>) | Garbage

  type Fs = map<string, Content>

  /** The content `json.dump(v, f)` leaves in a file. */
  function Dumped(v: Value): Content {
    Docs([v])
  }

  /** `json.load`: succeeds only on a file holding exactly one document. */
  function Load(c: Content): (r: Option<Value>)
    ensures r.Some? <==> c.Docs? && |c.docs| == 1
    ensures r.Some? ==> c == Dumped(r.value)
  {
    if c.Docs? && |c.docs| == 1 then Some(c.docs[0]) else None
  }

  /** `os.rename(src, dst)`: fails when `src` is missing; an existing `dst`
      is replaced, as POSIX rename does. */
  function Rename(fs: Fs, src: string, dst: string): (r: Option<Fs>)
    ensures r.Some? <==> src in fs
    ensures r.Some? ==> dst in r.value && r.value[dst] == fs[src]
    ensures r.Some? && src != dst ==> src !in r.value
    ensures r.Some? ==> forall p :: p != src && p != dst ==> (p in r.value <==> p in fs)
    ensures r.Some? ==> forall p :: p != src && p != dst && p in fs ==> r.value[p] == fs[p]
  {
    if src in fs then Some((fs - {src})[dst := fs[src]]) else None
  }

  /** Writing `contents[k]` to `paths[k]` for k = 0, 1, ... in turn. */
  function WriteAll(fs: Fs, paths: seq<string>, contents: seq<Content>): Fs
    requires |paths| == |contents|
    decreases |paths|
  {
    if |paths| == 0 then fs
    else
      var last := |paths| - 1;
      WriteAll(fs, paths[..last], contents[..last])[paths[last] := contents[last]]
  }

  /** With distinct paths every written file holds what was written to it,
      and every other file is as it was. */
  lemma {:induction false} WriteAllContent(fs: Fs, paths: seq<string>, contents: seq<Content>)
    requires |paths| == |contents|
    requires Distinct(paths)
    ensures forall k :: 0 <= k < |paths| ==> paths[k] in WriteAll(fs, paths, contents) && WriteAll(fs, paths, contents)[paths[k]] == contents[k]
    ensures forall p :: p !in paths ==> (p in WriteAll(fs, paths, contents) <==> p in fs)
    ensures forall p :: p !in paths && p in fs ==> WriteAll(fs, paths, contents)[p] == fs[p]
    decreases |paths|
  {
    if |paths| > 0 {
      var last := |paths| - 1;
      WriteAllContent(fs, paths[..last], contents[..last]);
      forall p | p in paths[..last]
        ensures p in paths
      {
      }
    }
  }
}

=== FILE: handoff.dfy ===
/**
 * Where the two halves of the import meet. `save` writes the shards and the
 * manifest; the harvester finds the manifest with its glob, rebuilds each
 * shard's path from the step descriptors in it, and files the results under
 * the manifest's step keys.
 */
module Handoff {
  import opened Opt
  import opened Dicts
  import opened Json
  import opened Files
  import opened Models
  import opened Services
  import opened Harvester
  import Text

  // ---------------------------------------------------------------------
  // Paths.
  // ---------------------------------------------------------------------

  lemma CancelSuffix(a: string, b: string, t: string)
    ensures a + t == b + t <==> a == b
  {
    if a + t == b + t {
      assert a == (a + t)[..|a|];
      assert b == (b + t)[..|b|];
    }
  }

  /** `os.path.join(location, runId)` is the plain "location/runId" exactly
      when the location is non-empty, does not end in "/" and the run id is
      not absolute. */
  lemma JoinIsSlash(location: string, runId: string)
    ensures PathJoin(location, runId) == location + "/" + runId
            <==> location != "" && !Text.EndsWith(location, "/") && !Text.StartsWith(runId, "/")
  {
    if Text.StartsWith(runId, "/") || location == "" || Text.EndsWith(location, "/") {
      assert |PathJoin(location, runId)| < |location + "/" + runId|;
    }
  }

  /** The manifest form of a descriptor answers each lookup with its field. */
  lemma DescriptorFields(location: string, runId: string, stepNumber: int, fileName: string, part: int)
    ensures var v := StepDict(Descriptor(location, runId, stepNumber, fileName, part));
            Lookup(v, "resource_location") == Some(Str(PathJoin(location, runId)))
            && Lookup(v, "step_number") == Some(Int(stepNumber))
            && Lookup(v, "file_name") == Some(Str(fileName))
            && Lookup(v, "part_number") == Some(Int(part))
  {
    StepDictRoundTrip(Descriptor(location, runId, stepNumber, fileName, part));
  }

  /** Two directories followed by the same shard name give the same path
      only when they are the same directory. */
  lemma SameShardName(x: string, y: string, n: string, f: string, p: string)
    ensures x + "/" + n + "." + f + "." + p + ".json" == y + "/" + n + "." + f + "." + p + ".json" <==> x == y
  {
    CancelSuffix(x + "/" + n + "." + f + "." + p, y + "/" + n + "." + f + "." + p, ".json");
    CancelSuffix(x + "/" + n + "." + f + ".", y + "/" + n + "." + f + ".", p);
    CancelSuffix(x + "/" + n + "." + f, y + "/" + n + "." + f, ".");
    CancelSuffix(x + "/" + n + ".", y + "/" + n + ".", f);
    CancelSuffix(x + "/" + n, y + "/" + n, ".");
    CancelSuffix(x + "/", y + "/", n);
    CancelSuffix(x, y, "/");
  }

  /** The path the harvester uploads for a descriptor `save` recorded: the
      joined run directory followed by the shard's own name. */
  lemma UploadedPath(location: string, runId: string, stepNumber: int, fileName: string, part: int)
    ensures UploadPath(StepDict(Descriptor(location, runId, stepNumber, fileName, part)))
            == Some(PathJoin(location, runId) + "/" + Text.IntToString(stepNumber) + "." + fileName + "."
                    + Text.IntToString(part) + ".json")
  {
    DescriptorFields(location, runId, stepNumber, fileName, part);
  }

  /** The uploaded path is the one `save` wrote to exactly when the join
      adds a single "/": an empty location, one ending in "/", or an
      absolute run id sends the harvester to another string. */
  lemma RebuiltPath(location: string, runId: string, stepNumber: int, fileName: string, part: int)
    ensures UploadPath(StepDict(Descriptor(location, runId, stepNumber, fileName, part)))
              == Some(ShardPath(location, runId, stepNumber, fileName, part))
            <==> location != "" && !Text.EndsWith(location, "/") && !Text.StartsWith(runId, "/")
  {
    UploadedPath(location, runId, stepNumber, fileName, part);
    SameShardName(PathJoin(location, runId), location + "/" + runId,
                  Text.IntToString(stepNumber), fileName, Text.IntToString(part));
    JoinIsSlash(location, runId);
  }

  /** The harvester's glob over a location finds the manifest `save` wrote
      there exactly when the run id is a non-empty, non-hidden plain file
      name. */
  lemma ManifestFound(location: string, runId: string)
    ensures GlobMatch(location, ManifestPath(location, runId))
            <==> runId != "" && runId[0] != '.' && '/' !in runId
  {
    var p := ManifestPath(location, runId);
    assert p[..|location| + 1] == location + "/";
    var name := p[|location| + 1..];
    assert name == runId + ".json";
    assert name[|name| - 5..] == ".json";
    assert '/' in name <==> '/' in runId by {
      if '/' in name {
        var k :| 0 <= k < |name| && name[k] == '/';
        assert k < |runId|;
        assert runId[k] == '/';
      }
      if '/' in runId {
        var k :| 0 <= k < |runId| && runId[k] == '/';
        assert name[k] == '/';
      }
    }
    if runId == "" {
      assert name[0] == '.';
    } else {
      assert name[0] == runId[0];
    }
  }

  /** No shard is ever taken for a manifest: its name below the location
      holds the "/" after the run id. */
  lemma ShardNotFound(location: string, runId: string, stepNumber: int, fileName: string, part: int)
    ensures !GlobMatch(location, ShardPath(location, runId, stepNumber, fileName, part))
  {
    var p := ShardPath(location, runId, stepNumber, fileName, part);
    assert p[..|location| + 1] == location + "/";
    assert p[|location| + 1..][|runId|] == '/';
  }

  // ---------------------------------------------------------------------
  // The manifest's steps.
  // ---------------------------------------------------------------------

  /** The manifest form of a step list: one object per descriptor. */
  function StepValues(list: seq<Step>): (r: seq<Value>)
    ensures |r| == |list|
    ensures forall j :: 0 <= j < |r| ==> r[j] == StepDict(list[j])
  {
    seq(|list|, j requires 0 <= j < |list| => StepDict(list[j]))
  }

  /** The "steps" object names each step list by its number's decimal string. */
  lemma StepsJsonPairs(steps: Dict<int, seq<Step>>)
    ensures |StepsJson(steps).fields.pairs| == |steps.pairs|
    ensures forall i :: 0 <= i < |steps.pairs| ==>
              StepsJson(steps).fields.pairs[i] == (Text.IntToString(steps.pairs[i].0), Arr(StepValues(steps.pairs[i].1)))
  {
    var pairs := StepsJson(steps).fields.pairs;
    forall i | 0 <= i < |steps.pairs|
      ensures pairs[i] == (Text.IntToString(steps.pairs[i].0), Arr(StepValues(steps.pairs[i].1)))
    {
      assert pairs[i].1.items == StepValues(steps.pairs[i].1);
    }
  }

  /** The manifest's "steps" key holds the steps object. */
  lemma ManifestSteps(s: ImportService)
    ensures Lookup(ManifestJson(s), "steps") == Some(StepsJson(s.steps))
  {
    var fields := ManifestJson(s).fields;
    assert Keys(fields) == ["run_id", "custom_asset_import_maximum_jobs", "custom_asset_import_maximum_entries", "steps"];
    GetAt(fields, 3);
  }

  /** What the harvester reads back from a manifest: the run id, and one
      step per step number in the order `save` first filed them, named by the
      number's decimal string and listing that step's descriptors. */
  lemma ManifestRead(s: ImportService)
    ensures Lookup(ManifestJson(s), "run_id") == Some(Str(s.runId))
    ensures StepPairs(ManifestJson(s)).Some?
    ensures |StepPairs(ManifestJson(s)).value| == |s.steps.pairs|
    ensures forall i :: 0 <= i < |s.steps.pairs| ==>
              StepPairs(ManifestJson(s)).value[i] == (Text.IntToString(s.steps.pairs[i].0), Arr(StepValues(s.steps.pairs[i].1)))
  {
    ManifestSteps(s);
    assert StepPairs(ManifestJson(s)) == Some(StepsJson(s.steps).fields.pairs);
    StepsJsonPairs(s.steps);
  }

  /** The descriptors of a step list carrying step number `k` are objects
      whose step number is `k`, so the list forms a single group. */
  lemma StepValuesKeyed(list: seq<Step>, k: int)
    requires forall st :: st in list ==> st.stepNumber == Some(k)
    ensures forall j :: 0 <= j < |StepValues(list)| ==>
              StepValues(list)[j].Obj? && KeyOf(StepValues(list)[j]) == Some(Int(k))
  {
    forall j | 0 <= j < |list|
      ensures StepValues(list)[j].Obj? && KeyOf(StepValues(list)[j]) == Some(Int(k))
    {
      assert list[j] in list;
    }
  }

  /** A non-empty step list of step `k`, once its imports end, is filed
      under the decimal string of `k`, the imported descriptors in order, and
      its step file is removed. */
  lemma StepListCollected(config: Value, catalog: Catalog, fs: Fs, file: string, k: int, list: seq<Step>,
                          results: Dict<string, Value>, imported: seq<Value>)
    requires list != [] && forall st :: st in list ==> st.stepNumber == Some(k)
    requires ImportAll(config, fs, catalog, StepValues(list)) == Finished(imported)
    ensures Pipeline(config, catalog, fs, file, Text.IntToString(k), Arr(StepValues(list))).Finished?
    ensures Collect(Pipeline(config, catalog, fs, file, Text.IntToString(k), Arr(StepValues(list))).value,
                    file, Text.IntToString(k), results)
            == Some((fs - {StepFile(file, Text.IntToString(k))}, Put(results, Text.IntToString(k), Arr(imported))))
  {
    StepValuesKeyed(list, k);
    CollectedUnder(config, catalog, fs, file, Text.IntToString(k), StepValues(list), Int(k), imported, results);
  }

  /** `OneStepCollected`, with the group's key read under the step's own name. */
  lemma CollectedUnder(config: Value, catalog: Catalog, fs: Fs, file: string, name: string,
                       elements: seq<Value>, k: Value, imported: seq<Value>, results: Dict<string, Value>)
    requires elements != [] && Show(k) == name
    requires forall i :: 0 <= i < |elements| ==> elements[i].Obj? && KeyOf(elements[i]) == Some(k)
    requires ImportAll(config, fs, catalog, elements) == Finished(imported)
    ensures Pipeline(config, catalog, fs, file, name, Arr(elements)).Finished?
    ensures Collect(Pipeline(config, catalog, fs, file, name, Arr(elements)).value, file, name, results)
            == Some((fs - {StepFile(file, name)}, Put(results, name, Arr(imported))))
  {
    OneStepCollected(config, catalog, fs, file, name, elements, k, imported, results);
  }

  /** End to end for one step of a manifest `save` wrote: the manifest
      names step list `i` by its number's decimal string (`ManifestRead`),
      and once that list's imports end the harvester files the imported
      descriptors, in order, under that very name and removes the step
      file. */
  lemma StepCollected(config: Value, catalog: Catalog, fs: Fs, file: string, s: ImportService, i: nat,
                      results: Dict<string, Value>, imported: seq<Value>)
    requires Keyed(s.steps)
    requires i < |s.steps.pairs| && s.steps.pairs[i].1 != []
    requires ImportAll(config, fs, catalog, StepValues(s.steps.pairs[i].1)) == Finished(imported)
    ensures var name := Text.IntToString(s.steps.pairs[i].0);
            var v := Arr(StepValues(s.steps.pairs[i].1));
            Pipeline(config, catalog, fs, file, name, v).Finished?
            && Collect(Pipeline(config, catalog, fs, file, name, v).value, file, name, results)
               == Some((fs - {StepFile(file, name)}, Put(results, name, Arr(imported))))
  {
    var (k, list) := s.steps.pairs[i];
    assert forall st :: st in list ==> st.stepNumber == Some(k) by {
      assert s.steps.pairs[i] in s.steps.pairs;
    }
    StepListCollected(config, catalog, fs, file, k, list, results, imported);
  }
}

=== FILE: harvester.dfy ===
/**
 * The harvester: it picks up run manifests from a directory, uploads every
 * shard a manifest lists to the catalog's JSON import endpoint, waits for
 * each import job to reach a final state, and writes the job results per
 * step next to the manifest. A manifest is locked (renamed to ".lock")
 * while it is processed and renamed to ".done" at the end.
 */
module Harvester {
  import opened Opt
  import opened Dicts
  import opened Json
  import opened Files
  import Text

  // ---------------------------------------------------------------------
  // The catalog's side of one upload.
  // ---------------------------------------------------------------------

  /** One HTTP exchange: the decoded JSON body of the reply, or Failure when
      the request raises or the body is not JSON. */
  datatype Reply = Body(body: Value) | Failure

  /** What the catalog answers for one uploaded file: the reply to the
      upload, then the replies to the successive status requests. Running
      out of status replies means the job never reaches a final state. */
  datatype Job = Job(upload: Reply, polls: seq<Reply>)

  /** The catalog, as the job it runs for each uploaded file path. */
  type Catalog = string -> Job

  /** The job states at which polling stops. */
  predicate Final(state: Value) {
    state == Str("COMPLETED") || state == Str("CANCELED") || state == Str("ERROR")
  }

  /** A status reply after which polling goes on: an object whose "state"
      is present and not final. */
  predicate Continues(reply: Reply) {
    reply.Body? && reply.body.Obj? && HasKey(reply.body.fields, "state")
    && !Final(GetOrNull(reply.body, "state"))
  }

  /** How the polling loop ends: with the reply that carried a final state,
      by raising, or not at all. */
  datatype Polled = Answered(last: Value) | Raised | Unfinished

  /** The polling loop, entered with the reply `last` that set the current
      state. A status reply that fails or has no "state" raises. */
  function Poll(last: Value, polls: seq<Reply>): (r: Polled)
    requires last.Obj?
    ensures r.Answered? ==> r.last.Obj? && Final(GetOrNull(r.last, "state"))
    ensures r.Answered? ==> r.last == last || Body(r.last) in polls
    ensures r.Unfinished? <==>
              !Final(GetOrNull(last, "state")) && forall j :: 0 <= j < |polls| ==> Continues(polls[j])
    decreases |polls|
  {
    if Final(GetOrNull(last, "state")) then Answered(last)
    else if |polls| == 0 then Unfinished
    else
      match polls[0]
      case Failure => Raised
      case Body(v) =>
        match Lookup(v, "state")
        case None => Raised
        case Some(_) =>
          var r := Poll(v, polls[1..]);
          assert r.Unfinished? <==> Continues(polls[0]) && forall j :: 0 <= j < |polls| - 1 ==> Continues(polls[1..][j]);
          assert r.Answered? && r.last != v ==> Body(r.last) in polls[1..];
          r
  }

  /** Polling stops at the first status reply with a final state, whatever
      the replies after it say. */
  lemma {:induction false} PollStopsAtFirstFinal(last: Value, polls: seq<Reply>, k: nat, v: Value)
    requires last.Obj? && !Final(GetOrNull(last, "state"))
    requires k < |polls| && forall j :: 0 <= j < k ==> Continues(polls[j])
    requires polls[k] == Body(v) && v.Obj? && HasKey(v.fields, "state") && Final(GetOrNull(v, "state"))
    ensures Poll(last, polls) == Answered(v)
    decreases k
  {
    if k > 0 {
      var rest := polls[1..];
      assert Continues(polls[0]);
      assert forall j :: 0 <= j < k - 1 ==> Continues(rest[j]) by {
        forall j | 0 <= j < k - 1 ensures Continues(rest[j]) {
          assert rest[j] == polls[j + 1];
        }
      }
      assert rest[k - 1] == polls[k];
      PollStopsAtFirstFinal(polls[0].body, rest, k - 1, v);
    } else {
      assert polls[0] == Body(v);
    }
  }

  // ---------------------------------------------------------------------
  // DoImport: one manifest step element.
  // ---------------------------------------------------------------------

  /** The four configuration keys read before anything else. */
  predicate Configured(config: Value) {
    Lookup(config, "collibra_host").Some? && Lookup(config, "collibra_username").Some?
    && Lookup(config, "collibra_password").Some? && Lookup(config, "collibra_api_endpoint").Some?
  }

  /** The shard path rebuilt from a step element:
      "<resource_location>/<step_number>.<file_name>.<part_number>.json",
      each field rendered as an f-string renders it. */
  function UploadPath(element: Value): Option<string> {
    var l := Lookup(element, "resource_location");
    var s := Lookup(element, "step_number");
    var f := Lookup(element, "file_name");
    var p := Lookup(element, "part_number");
    if l.Some? && s.Some? && f.Some? && p.Some? then
      Some(Show(l.value) + "/" + Show(s.value) + "." + Show(f.value) + "." + Show(p.value) + ".json")
    else None
  }

  /** The value stored under "job": `{"id", "result"}` once the job ends,
      null when anything in the exchange raises, and None when the job never
      reaches a final state. */
  function ImportJob(config: Value, fs: Fs, catalog: Catalog, element: Value): (r: Option<Value>)
    ensures !Configured(config) || UploadPath(element).None? ==> r == Some(Null)
    ensures UploadPath(element).Some? && UploadPath(element).value !in fs ==> r == Some(Null)
    ensures r.Some? && r.value != Null ==>
              r.value.Obj? && Keys(r.value.fields) == ["id", "result"]
              && catalog(UploadPath(element).value).upload.Body?
    ensures r.None? ==>
              var job := catalog(UploadPath(element).value);
              job.upload.Body? && job.upload.body.Obj? && Poll(job.upload.body, job.polls).Unfinished?
  {
    if !Configured(config) then Some(Null)
    else
      match UploadPath(element)
      case None => Some(Null)
      case Some(path) =>
        if path !in fs then Some(Null)
        else
          var job := catalog(path);
          match job.upload
          case Failure => Some(Null)
          case Body(v) =>
            if !v.Obj? then Some(Null)
            else
              match Poll(v, job.polls)
              case Raised => Some(Null)
              case Unfinished => None
              case Answered(last) =>
                match Lookup(last, "result")
                case None => Some(Null)
                case Some(result) => Some(Object([("id", GetOrNull(v, "id")), ("result", result)]))
  }

  /** A successful import: the configuration is complete, the shard exists,
      the upload answers with an object, and the k-th status reply is the
      first with a final state and a "result". The job records the upload's
      "id" and that result. */
  lemma ImportSucceeds(config: Value, fs: Fs, catalog: Catalog, element: Value, k: nat, v: Value, result: Value)
    requires Configured(config) && UploadPath(element).Some? && UploadPath(element).value in fs
    requires var job := catalog(UploadPath(element).value);
             job.upload.Body? && job.upload.body.Obj? && !Final(GetOrNull(job.upload.body, "state"))
             && k < |job.polls| && (forall j :: 0 <= j < k ==> Continues(job.polls[j]))
             && job.polls[k] == Body(v)
    requires v.Obj? && HasKey(v.fields, "state") && Final(GetOrNull(v, "state"))
    requires Lookup(v, "result") == Some(result)
    ensures ImportJob(config, fs, catalog, element)
            == Some(Object([("id", GetOrNull(catalog(UploadPath(element).value).upload.body, "id")), ("result", result)]))
  {
    var job := catalog(UploadPath(element).value);
    PollStopsAtFirstFinal(job.upload.body, job.polls, k, v);
  }

  /** Why a run stops early: an exception nobody catches (or `exit(-1)`),
      or a job that never ends. */
  datatype Halt = Crash | Hang

  datatype Outcome<T> = Finished(value: T) | Halted(halt: Halt)

  /** `DoImport.process`: stores the job under "job" in the element. An
      element that is not an object cannot take the assignment in the
      exception handler, so the exception escapes. */
  function ImportOne(config: Value, fs: Fs, catalog: Catalog, element: Value): (r: Outcome<Value>)
    ensures r == Halted(Crash) <==> !element.Obj?
    ensures r == Halted(Hang) <==> element.Obj? && ImportJob(config, fs, catalog, element).None?
    ensures r.Finished? ==> r.value.Obj? && Get(r.value.fields, "job") == ImportJob(config, fs, catalog, element)
  {
    if !element.Obj? then Halted(Crash)
    else
      match ImportJob(config, fs, catalog, element)
      case None => Halted(Hang)
      case Some(job) => Finished(Obj(Put(element.fields, "job", job)))
  }

  /** The import changes no field of the element other than "job". */
  lemma ImportKeepsFields(config: Value, fs: Fs, catalog: Catalog, element: Value, k: string)
    requires ImportOne(config, fs, catalog, element).Finished? && k != "job"
    ensures Get(ImportOne(config, fs, catalog, element).value.fields, k) == Get(element.fields, k)
  {
    PutGetOther(element.fields, "job", ImportJob(config, fs, catalog, element).value, k);
  }

  /** The import step of the pipeline over all of a step's elements. When
      one element crashes and another hangs, the first in list order
      decides. */
  function ImportAll(config: Value, fs: Fs, catalog: Catalog, elements: seq<Value>): (r: Outcome<seq<Value>>)
    ensures r.Finished? <==> forall i :: 0 <= i < |elements| ==> ImportOne(config, fs, catalog, elements[i]).Finished?
    ensures r.Finished? ==>
              |r.value| == |elements|
              && forall i :: 0 <= i < |elements| ==> ImportOne(config, fs, catalog, elements[i]) == Finished(r.value[i])
    decreases |elements|
  {
    if |elements| == 0 then Finished([])
    else
      match ImportOne(config, fs, catalog, elements[0])
      case Halted(h) => Halted(h)
      case Finished(e) =>
        var rest := ImportAll(config, fs, catalog, elements[1..]);
        assert forall i :: 1 <= i < |elements| ==> elements[i] == elements[1..][i - 1];
        if rest.Finished? then Finished([e] + rest.value) else rest
  }

  // ---------------------------------------------------------------------
  // GroupBy on "step_number", then DoShape.
  // ---------------------------------------------------------------------

  /** The grouping key `s["step_number"]`; None where the lookup raises. */
  function KeyOf(s: Value): Option<Value> {
    Lookup(s, "step_number")
  }

  datatype Group = Group(key: Value, members: seq<Value>)

  function GroupKeys(groups: seq<Group>): (ks: seq<Value>)
    ensures |ks| == |groups| && forall i :: 0 <= i < |groups| ==> ks[i] == groups[i].key
  {
    seq(|groups|, i requires 0 <= i < |groups| => groups[i].key)
  }

  /** The elements whose key is `k`, in their order: the reference
      definition of one group. */
  function Having(elements: seq<Value>, k: Value): (r: seq<Value>)
    decreases |elements|
  {
    if |elements| == 0 then []
    else
      var last := |elements| - 1;
      Having(elements[..last], k) + (if KeyOf(elements[last]) == Some(k) then [elements[last]] else [])
  }

  /** Adds one element to the group of its key, opening a new group at the
      end when the key is new. */
  function AddTo(groups: seq<Group>, k: Value, e: Value): (r: seq<Group>)
    decreases |groups|
  {
    if |groups| == 0 then [Group(k, [e])]
    else if groups[0].key == k then [Group(k, groups[0].members + [e])] + groups[1..]
    else [groups[0]] + AddTo(groups[1..], k, e)
  }

  /** `beam.GroupBy(lambda s: s["step_number"])`: the groups in the order
      their keys first occur; None when an element has no "step_number". */
  function GroupBy(elements: seq<Value>): (r: Option<seq<Group>>)
    decreases |elements|
  {
    if |elements| == 0 then Some([])
    else
      var last := |elements| - 1;
      match GroupBy(elements[..last])
      case None => None
      case Some(groups) =>
        match KeyOf(elements[last])
        case None => None
        case Some(k) => Some(AddTo(groups, k, elements[last]))
  }

  /** What a grouping must satisfy: distinct keys, every element's key among
      them, and each group holding exactly the elements of its key, in
      order. */
  predicate Grouped(elements: seq<Value>, groups: seq<Group>) {
    Distinct(GroupKeys(groups))
    && (forall i :: 0 <= i < |elements| ==> KeyOf(elements[i]).Some? && KeyOf(elements[i]).value in GroupKeys(groups))
    && (forall j :: 0 <= j < |groups| ==> groups[j].members == Having(elements, groups[j].key))
    && (forall j :: 0 <= j < |groups| ==> groups[j].members != [])
  }

  lemma {:induction false} AddToNew(groups: seq<Group>, k: Value, e: Value)
    requires k !in GroupKeys(groups)
    ensures AddTo(groups, k, e) == groups + [Group(k, [e])]
    decreases |groups|
  {
    if |groups| > 0 {
      assert GroupKeys(groups[1..]) == GroupKeys(groups)[1..];
      AddToNew(groups[1..], k, e);
    }
  }

  lemma {:induction false} AddToOld(groups: seq<Group>, k: Value, e: Value)
    requires k in GroupKeys(groups) && Distinct(GroupKeys(groups))
    ensures |AddTo(groups, k, e)| == |groups|
    ensures forall j :: 0 <= j < |groups| ==>
              AddTo(groups, k, e)[j] == if groups[j].key == k then Group(k, groups[j].members + [e]) else groups[j]
    decreases |groups|
  {
    var rest := groups[1..];
    assert GroupKeys(rest) == GroupKeys(groups)[1..];
    if groups[0].key != k {
      assert Distinct(GroupKeys(rest)) && k in GroupKeys(rest);
      AddToOld(rest, k, e);
      var added := AddTo(groups, k, e);
      assert added == [groups[0]] + AddTo(rest, k, e);
      forall j | 0 < j < |groups|
        ensures added[j] == if groups[j].key == k then Group(k, groups[j].members + [e]) else groups[j]
      {
        assert added[j] == AddTo(rest, k, e)[j - 1] && groups[j] == rest[j - 1];
      }
    } else {
      assert forall j :: 0 < j < |groups| ==> groups[j].key != k by {
        assert forall j :: 0 < j < |groups| ==> GroupKeys(groups)[0] != GroupKeys(groups)[j];
      }
    }
  }

  /** No element with key `k`, no group for it. */
  lemma {:induction false} HavingNone(elements: seq<Value>, k: Value)
    requires forall i :: 0 <= i < |elements| ==> KeyOf(elements[i]) != Some(k)
    ensures Having(elements, k) == []
    decreases |elements|
  {
    if |elements| > 0 {
      HavingNone(elements[..|elements| - 1], k);
    }
  }

  lemma HavingSnoc(elements: seq<Value>, e: Value, k: Value)
    ensures Having(elements + [e], k) == Having(elements, k) + (if KeyOf(e) == Some(k) then [e] else [])
  {
    assert (elements + [e])[..|elements|] == elements;
  }

  lemma GroupedStep(elements: seq<Value>, groups: seq<Group>, k: Value, e: Value)
    requires Grouped(elements, groups) && KeyOf(e) == Some(k)
    ensures Grouped(elements + [e], AddTo(groups, k, e))
  {
    if k in GroupKeys(groups) {
      GroupedStepOld(elements, groups, k, e);
    } else {
      GroupedStepNew(elements, groups, k, e);
    }
  }

  lemma GroupedStepOld(elements: seq<Value>, groups: seq<Group>, k: Value, e: Value)
    requires Grouped(elements, groups) && KeyOf(e) == Some(k) && k in GroupKeys(groups)
    ensures Grouped(elements + [e], AddTo(groups, k, e))
  {
    var all := elements + [e];
    var added := AddTo(groups, k, e);
    AddToOld(groups, k, e);
    assert GroupKeys(added) == GroupKeys(groups);
    forall i | 0 <= i < |all|
      ensures KeyOf(all[i]).Some? && KeyOf(all[i]).value in GroupKeys(added)
    {
      if i < |elements| {
        assert all[i] == elements[i];
      }
    }
    forall j | 0 <= j < |added|
      ensures added[j].members == Having(all, added[j].key)
    {
      HavingSnoc(elements, e, groups[j].key);
    }
  }

  lemma GroupedStepNew(elements: seq<Value>, groups: seq<Group>, k: Value, e: Value)
    requires Grouped(elements, groups) && KeyOf(e) == Some(k) && k !in GroupKeys(groups)
    ensures Grouped(elements + [e], AddTo(groups, k, e))
  {
    var all := elements + [e];
    var added := AddTo(groups, k, e);
    AddToNew(groups, k, e);
    assert GroupKeys(added) == GroupKeys(groups) + [k];
    assert Distinct(GroupKeys(added)) by {
      DistinctSnoc(GroupKeys(groups), k);
    }
    assert forall i :: 0 <= i < |all| ==> KeyOf(all[i]).Some? && KeyOf(all[i]).value in GroupKeys(added) by {
      forall i | 0 <= i < |all|
        ensures KeyOf(all[i]).Some? && KeyOf(all[i]).value in GroupKeys(added)
      {
        if i < |elements| {
          assert all[i] == elements[i];
        }
      }
    }
    assert forall j :: 0 <= j < |added| ==> added[j].members == Having(all, added[j].key) by {
      forall j | 0 <= j < |added|
        ensures added[j].members == Having(all, added[j].key)
      {
        HavingSnoc(elements, e, added[j].key);
        if j == |groups| {
          HavingNone(elements, k);
        }
      }
    }
    assert forall j :: 0 <= j < |added| ==> added[j].members != [] by {
      forall j | 0 <= j < |added|
        ensures added[j].members != []
      {
        if j < |groups| {
          assert added[j] == groups[j];
        }
      }
    }
  }

  /** GroupBy fails exactly when some element has no "step_number", and
      otherwise yields a grouping: each key once, each group the elements
      of its key in order. */
  lemma {:induction false} GroupByCorrect(elements: seq<Value>)
    ensures GroupBy(elements).None? <==> exists i :: 0 <= i < |elements| && KeyOf(elements[i]).None?
    ensures GroupBy(elements).Some? ==> Grouped(elements, GroupBy(elements).value)
    decreases |elements|
  {
    if |elements| > 0 {
      var last := |elements| - 1;
      var prefix := elements[..last];
      GroupByCorrect(prefix);
      assert elements == prefix + [elements[last]];
      assert forall i :: 0 <= i < last ==> elements[i] == prefix[i];
      if GroupBy(prefix).Some? && KeyOf(elements[last]).Some? {
        GroupedStep(prefix, GroupBy(prefix).value, KeyOf(elements[last]).value, elements[last]);
      }
    }
  }

  /** `DoShape`: a one-key object from the rendered key to the group. */
  function Shape(g: Group): Value {
    Object([(Show(g.key), Arr(g.members))])
  }

  function ShapeAll(groups: seq<Group>): (r: seq<Value>)
    ensures |r| == |groups|
  {
    seq(|groups|, i requires 0 <= i < |groups| => Shape(groups[i]))
  }

  // ---------------------------------------------------------------------
  // doPipeline and doResults for one step.
  // ---------------------------------------------------------------------

  /** "<file>.step.<step>": where the pipeline of a step writes. */
  function StepFile(file: string, step: string): string {
    file + ".step." + step
  }

  predicate IsStepFile(file: string, p: string) {
    Text.StartsWith(p, file + ".step.")
  }

  /** The two file systems agree on every path that is not a step file of
      `file`. */
  ghost predicate SameOutside(fs: Fs, fs': Fs, file: string) {
    forall p :: !IsStepFile(file, p) ==> (p in fs' <==> p in fs) && (p in fs ==> fs'[p] == fs[p])
  }

  /** The elements `beam.Create(data["steps"][step])` emits: a list's
      items. An empty object emits none; a non-empty object emits its
      (key, value) pairs, on which `DoImport` crashes; any other value makes
      `Create` raise. */
  function Elements(v: Value): Option<seq<Value>> {
    match v
    case Arr(items) => Some(items)
    case Obj(d) => if d.pairs == [] then Some([]) else None
    case _ => None
  }

  /** `doPipeline`: import every element, group by step number, shape each
      group and write one JSON line per group to the step file. Only that
      file changes. */
  function Pipeline(config: Value, catalog: Catalog, fs: Fs, file: string, step: string, v: Value): (r: Outcome<Fs>)
    ensures r.Finished? ==> StepFile(file, step) in r.value && r.value[StepFile(file, step)].Docs?
    ensures r.Finished? ==> forall d :: d in r.value[StepFile(file, step)].docs ==> d.Obj?
    ensures r.Finished? ==> SameOutside(fs, r.value, file)
  {
    match Elements(v)
    case None => Halted(Crash)
    case Some(elements) =>
      match ImportAll(config, fs, catalog, elements)
      case Halted(h) => Halted(h)
      case Finished(imported) =>
        match GroupBy(imported)
        case None => Halted(Crash)
        case Some(groups) =>
          var out := fs[StepFile(file, step) := Docs(ShapeAll(groups))];
          assert Text.StartsWith(StepFile(file, step), file + ".step.") by {
            assert StepFile(file, step)[..|file + ".step."|] == file + ".step.";
          }
          Finished(out)
  }

  /** `doResults`: merges the step file's document into the results when it
      is one object, skips it otherwise, and removes the file. None when the
      step file is missing: `open` raises outside the handler. */
  function Collect(fs: Fs, file: string, step: string, results: Dict<string, Value>): (r: Option<(Fs, Dict<string, Value>)>)
    ensures r.Some? <==> StepFile(file, step) in fs
    ensures r.Some? ==> r.value.0 == fs - {StepFile(file, step)}
    ensures r.Some? ==> Keys(results) <= Keys(r.value.1)
    ensures r.Some? ==> forall k :: k in Keys(r.value.1) <==> k in Keys(results) || InStepFile(fs, file, step, k)
  {
    if StepFile(file, step) !in fs then None
    else
      var merged := (
        match Load(fs[StepFile(file, step)])
        case Some(Obj(o)) => (UpdateKeys(results, o); Update(results, o))
        case _ => results);
      Some((fs - {StepFile(file, step)}, merged))
  }

  /** The step file of `step` holds one object with key `k`. */
  predicate InStepFile(fs: Fs, file: string, step: string, k: string) {
    StepFile(file, step) in fs
    && match Load(fs[StepFile(file, step)])
       case Some(Obj(o)) => k in Keys(o)
       case _ => false
  }

  /** The pipeline's output merged back: a step whose output has exactly one
      group contributes that group under its rendered step number; an empty
      step, or one mixing step numbers (several JSON lines, which
      `json.load` rejects), contributes nothing. The step file is removed
      either way. */
  lemma PipelineCollected(config: Value, catalog: Catalog, fs: Fs, file: string, step: string, v: Value,
                          results: Dict<string, Value>)
    requires Pipeline(config, catalog, fs, file, step, v).Finished?
    ensures var out := Pipeline(config, catalog, fs, file, step, v).value;
            var groups := GroupBy(ImportAll(config, fs, catalog, Elements(v).value).value).value;
            Collect(out, file, step, results)
            == Some((out - {StepFile(file, step)},
                     if |groups| == 1 then Put(results, Show(groups[0].key), Arr(groups[0].members)) else results))
  {
    var groups := GroupBy(ImportAll(config, fs, catalog, Elements(v).value).value).value;
    if |groups| == 1 {
      assert ShapeAll(groups) == [Shape(groups[0])];
      CollectOne(fs, file, step, results, Show(groups[0].key), Arr(groups[0].members));
    }
  }

  /** All elements of a non-empty step carry the same step number `k`: the
      output is that one group, all elements in order. */
  lemma {:induction false} GroupBySingle(elements: seq<Value>, k: Value)
    requires elements != []
    requires forall i :: 0 <= i < |elements| ==> KeyOf(elements[i]) == Some(k)
    ensures GroupBy(elements) == Some([Group(k, elements)])
    decreases |elements|
  {
    var last := |elements| - 1;
    var prefix := elements[..last];
    if last > 0 {
      GroupBySingle(prefix, k);
    }
    var e := elements[last];
    assert KeyOf(e) == Some(k);
    assert prefix + [e] == elements;
    if last == 0 {
      assert GroupBy(prefix) == Some([]);
      assert AddTo([], k, e) == [Group(k, prefix + [e])];
    } else {
      assert AddTo([Group(k, prefix)], k, e) == [Group(k, prefix + [e])];
    }
  }

  /** Two elements with different step numbers: at least two groups, so the
      step's results are skipped. */
  lemma MixedStepNumbers(elements: seq<Value>, i: nat, j: nat)
    requires GroupBy(elements).Some?
    requires i < |elements| && j < |elements| && KeyOf(elements[i]) != KeyOf(elements[j])
    ensures |GroupBy(elements).value| >= 2
  {
    var groups := GroupBy(elements).value;
    assert KeyOf(elements[i]).value in GroupKeys(groups) && KeyOf(elements[j]).value in GroupKeys(groups) by {
      GroupByCorrect(elements);
    }
    TwoMembers(GroupKeys(groups), KeyOf(elements[i]).value, KeyOf(elements[j]).value);
  }

  lemma TwoMembers<T>(s: seq<T>, a: T, b: T)
    requires a in s && b in s && a != b
    ensures |s| >= 2
  {
  }

  /** The usual case end to end: a non-empty step whose elements are objects
      all carrying step number `k`, each import ending. The results gain
      the rendered `k` mapped to the imported elements in order, and the
      step file leaves no trace. */
  lemma OneStepCollected(config: Value, catalog: Catalog, fs: Fs, file: string, step: string,
                         elements: seq<Value>, k: Value, imported: seq<Value>, results: Dict<string, Value>)
    requires elements != []
    requires forall i :: 0 <= i < |elements| ==> elements[i].Obj? && KeyOf(elements[i]) == Some(k)
    requires ImportAll(config, fs, catalog, elements) == Finished(imported)
    ensures Pipeline(config, catalog, fs, file, step, Arr(elements)).Finished?
    ensures Collect(Pipeline(config, catalog, fs, file, step, Arr(elements)).value, file, step, results)
            == Some((fs - {StepFile(file, step)}, Put(results, Show(k), Arr(imported))))
  {
    var sf := StepFile(file, step);
    OneGroupPipeline(config, catalog, fs, file, step, elements, k, imported);
    CollectOne(fs, file, step, results, Show(k), Arr(imported));
    WriteThenRemove(fs, sf, Docs([Shape(Group(k, imported))]));
  }

  lemma WriteThenRemove(fs: Fs, p: string, c: Content)
    ensures fs[p := c] - {p} == fs - {p}
  {
  }

  /** A step file holding one one-key object adds that key to the results. */
  lemma CollectOne(fs: Fs, file: string, step: string, results: Dict<string, Value>, key: string, v: Value)
    ensures var out := fs[StepFile(file, step) := Docs([Object([(key, v)])])];
            Collect(out, file, step, results) == Some((out - {StepFile(file, step)}, Put(results, key, v)))
  {
    assert Update(results, Dict([(key, v)])) == Update(Put(results, key, v), Dict([]));
  }

  lemma OneGroupPipeline(config: Value, catalog: Catalog, fs: Fs, file: string, step: string,
                         elements: seq<Value>, k: Value, imported: seq<Value>)
    requires elements != []
    requires forall i :: 0 <= i < |elements| ==> elements[i].Obj? && KeyOf(elements[i]) == Some(k)
    requires ImportAll(config, fs, catalog, elements) == Finished(imported)
    ensures GroupBy(imported) == Some([Group(k, imported)])
    ensures Pipeline(config, catalog, fs, file, step, Arr(elements))
            == Finished(fs[StepFile(file, step) := Docs([Shape(Group(k, imported))])])
  {
    forall i | 0 <= i < |imported|
      ensures KeyOf(imported[i]) == Some(k)
    {
      ImportKeepsFields(config, fs, catalog, elements[i], "step_number");
    }
    GroupBySingle(imported, k);
    assert ShapeAll([Group(k, imported)]) == [Shape(Group(k, imported))];
  }

  // ---------------------------------------------------------------------
  // doRequest: one manifest from lock to done.
  // ---------------------------------------------------------------------

  function LockPath(file: string): string {
    file + ".lock"
  }

  function DonePath(file: string): string {
    file + ".done"
  }

  function ResultsPath(file: string): string {
    file + ".results"
  }

  /** The manifest itself, its lock, done and results files are not step
      files, so the pipelines leave them alone. */
  lemma NotStepFiles(file: string)
    ensures !IsStepFile(file, file) && !IsStepFile(file, LockPath(file))
    ensures !IsStepFile(file, DonePath(file)) && !IsStepFile(file, ResultsPath(file))
  {
    var r := ResultsPath(file);
    assert r[|file| + 1] == 'r';
    assert (file + ".step.")[|file| + 1] == 's';
  }

  /** The steps `for step in data["steps"]` visits, each with its value.
      An empty list or string visits none; any other value that is not an
      object raises before the first pipeline (see README). */
  function StepPairs(data: Value): Option<seq<(string, Value)>> {
    match Lookup(data, "steps")
    case None => None
    case Some(Obj(d)) => Some(d.pairs)
    case Some(Arr(items)) => if items == [] then Some([]) else None
    case Some(Str(s)) => if s == "" then Some([]) else None
    case Some(_) => None
  }

  /** The file system after the pipelines ran in turn, and why they
      stopped early, if they did. */
  datatype Ran = Ran(fs: Fs, halt: Option<Halt>)

  function RunPipelines(config: Value, catalog: Catalog, fs: Fs, file: string, steps: seq<(string, Value)>): (r: Ran)
    ensures SameOutside(fs, r.fs, file)
    decreases |steps|
  {
    if |steps| == 0 then Ran(fs, None)
    else
      match Pipeline(config, catalog, fs, file, steps[0].0, steps[0].1)
      case Halted(h) => Ran(fs, Some(h))
      case Finished(fs') => RunPipelines(config, catalog, fs', file, steps[1..])
  }

  /** The results collected so far and the file system; `ok` is false when
      a step file was missing. */
  datatype Collected = Collected(fs: Fs, results: Dict<string, Value>, ok: bool)

  function CollectAll(fs: Fs, file: string, steps: seq<string>, results: Dict<string, Value>): (r: Collected)
    ensures SameOutside(fs, r.fs, file) && r.fs.Keys <= fs.Keys
    ensures r.ok ==> forall k :: 0 <= k < |steps| ==> StepFile(file, steps[k]) !in r.fs
    ensures Keys(results) <= Keys(r.results)
    ensures forall k :: k in Keys(r.results) ==>
              k in Keys(results) || exists i :: 0 <= i < |steps| && InStepFile(fs, file, steps[i], k)
    ensures r.ok ==> forall i, k :: 0 <= i < |steps| && InStepFile(fs, file, steps[i], k) ==> k in Keys(r.results)
    decreases |steps|
  {
    if |steps| == 0 then Collected(fs, results, true)
    else
      match Collect(fs, file, steps[0], results)
      case None => Collected(fs, results, false)
      case Some((fs', results')) =>
        var r := CollectAll(fs', file, steps[1..], results');
        assert forall k :: 1 <= k < |steps| ==> steps[k] == steps[1..][k - 1];
        KeysCameFrom(fs, fs', file, steps, results, results', r.results);
        KeysGoTo(fs, fs', file, steps, results', r.results, r.ok);
        r
  }

  /** One turn of `CollectAll`: a key at the end was there before, or
      comes from the first step file or from a later one. */
  lemma KeysCameFrom(fs: Fs, fs': Fs, file: string, steps: seq<string>, results: Dict<string, Value>,
                     results': Dict<string, Value>, final: Dict<string, Value>)
    requires |steps| > 0 && fs' == fs - {StepFile(file, steps[0])}
    requires forall k :: k in Keys(results') ==> k in Keys(results) || InStepFile(fs, file, steps[0], k)
    requires forall k :: k in Keys(final) ==>
               k in Keys(results') || exists i :: 0 <= i < |steps[1..]| && InStepFile(fs', file, steps[1..][i], k)
    ensures forall k :: k in Keys(final) ==>
              k in Keys(results) || exists i :: 0 <= i < |steps| && InStepFile(fs, file, steps[i], k)
  {
    forall k | k in Keys(final)
      ensures k in Keys(results) || exists i :: 0 <= i < |steps| && InStepFile(fs, file, steps[i], k)
    {
      if k !in Keys(results') {
        var i :| 0 <= i < |steps[1..]| && InStepFile(fs', file, steps[1..][i], k);
        StepFileKept(fs, fs', file, steps, i + 1, k);
      } else if k !in Keys(results) {
        assert InStepFile(fs, file, steps[0], k);
      }
    }
  }

  /** One turn of `CollectAll` that gets through: every key of every
      listed step file ends up collected. */
  lemma KeysGoTo(fs: Fs, fs': Fs, file: string, steps: seq<string>, results': Dict<string, Value>,
                 final: Dict<string, Value>, ok: bool)
    requires |steps| > 0 && fs' == fs - {StepFile(file, steps[0])}
    requires forall k :: InStepFile(fs, file, steps[0], k) ==> k in Keys(results')
    requires Keys(results') <= Keys(final)
    requires ok ==> forall i, k :: 0 <= i < |steps[1..]| && InStepFile(fs', file, steps[1..][i], k) ==> k in Keys(final)
    ensures ok ==> forall i, k :: 0 <= i < |steps| && InStepFile(fs, file, steps[i], k) ==> k in Keys(final)
  {
    if ok {
      GoTo(fs, fs', file, steps, results', final);
    }
  }

  lemma GoTo(fs: Fs, fs': Fs, file: string, steps: seq<string>, results': Dict<string, Value>,
             final: Dict<string, Value>)
    requires |steps| > 0 && fs' == fs - {StepFile(file, steps[0])}
    requires forall k :: InStepFile(fs, file, steps[0], k) ==> k in Keys(results')
    requires Keys(results') <= Keys(final)
    requires forall i, k :: 0 <= i < |steps[1..]| && InStepFile(fs', file, steps[1..][i], k) ==> k in Keys(final)
    ensures forall i, k :: 0 <= i < |steps| && InStepFile(fs, file, steps[i], k) ==> k in Keys(final)
  {
    forall i, k | 0 <= i < |steps| && InStepFile(fs, file, steps[i], k)
      ensures k in Keys(final)
    {
      if i > 0 && StepFile(file, steps[i]) != StepFile(file, steps[0]) {
        StepFileKept(fs, fs', file, steps, i, k);
      } else {
        assert InStepFile(fs, file, steps[0], k);
        assert k in Keys(results');
      }
    }
  }

  /** A later step file whose path is not the first one's reads the same
      before and after the first turn. */
  lemma StepFileKept(fs: Fs, fs': Fs, file: string, steps: seq<string>, i: nat, k: string)
    requires 0 < i < |steps| && fs' == fs - {StepFile(file, steps[0])}
    requires StepFile(file, steps[i]) != StepFile(file, steps[0]) || StepFile(file, steps[i]) in fs'
    ensures InStepFile(fs', file, steps[1..][i - 1], k) <==> InStepFile(fs, file, steps[i], k)
  {
    assert steps[1..][i - 1] == steps[i];
  }

  /** The steps object a finish writes: the results collected from the
      step files, after the old results file is removed. */
  function CollectedSteps(fs: Fs, file: string, keys: seq<string>): Dict<string, Value> {
    CollectAll(fs - {ResultsPath(file)}, file, keys, Empty()).results
  }

  /** How one request ends: the manifest renamed to ".done"; an exit or
      uncaught exception, which ends the whole run; or a job that never
      ends. */
  datatype Request = Done(fs: Fs) | Aborted(fs: Fs) | Stuck(fs: Fs)

  /** The results document: the run id and the collected steps. */
  function ResultsJson(runId: Value, steps: Dict<string, Value>): Value {
    Object([("runId", runId), ("steps", Obj(steps))])
  }

  /** `doRequest`: lock the manifest, then process it. A missing manifest
      makes the rename raise, and the handler exits. */
  function DoRequest(config: Value, catalog: Catalog, fs: Fs, file: string): Request {
    match Rename(fs, file, LockPath(file))
    case None => Aborted(fs)
    case Some(locked) => Process(config, catalog, locked, file)
  }

  /** The locked manifest: load it, then run a pipeline per step. */
  function Process(config: Value, catalog: Catalog, locked: Fs, file: string): Request
    requires LockPath(file) in locked
  {
    match Load(locked[LockPath(file)])
    case None => Aborted(locked)
    case Some(data) =>
      match StepPairs(data)
      case None => Aborted(locked)
      case Some(steps) => AfterPipelines(RunPipelines(config, catalog, locked, file, steps), data, file)
  }

  /** The file system once every step's pipeline of the manifest `data` ran. */
  function PipelinesRan(config: Value, catalog: Catalog, locked: Fs, file: string, data: Value): Fs
    requires StepPairs(data).Some?
  {
    RunPipelines(config, catalog, locked, file, StepPairs(data).value).fs
  }

  /** The steps object a request for `file` with manifest `data` collects:
      the pipelines run on the locked file system, then the step files are
      collected. */
  function RequestSteps(config: Value, catalog: Catalog, fs: Fs, file: string, data: Value): Dict<string, Value> {
    if file in fs && StepPairs(data).Some? then
      CollectedSteps(PipelinesRan(config, catalog, Rename(fs, file, LockPath(file)).value, file, data),
                     file, Keys(Dict(StepPairs(data).value)))
    else Empty()
  }

  /** After the pipelines: a hang or a crash ends the request; otherwise
      the run id is read (only now, so a manifest without one fails after
      its jobs ran) and the results are collected. */
  function AfterPipelines(ran: Ran, data: Value, file: string): Request
    requires StepPairs(data).Some?
  {
    if ran.halt == Some(Hang) then Stuck(ran.fs)
    else if ran.halt == Some(Crash) then Aborted(ran.fs)
    else
      match Lookup(data, "run_id")
      case None => Aborted(ran.fs)
      case Some(runId) => Finish(ran.fs, file, runId, Keys(Dict(StepPairs(data).value)))
  }

  /** Remove an old results file, collect every step's output, write the
      results, and rename the lock to the done path. */
  function Finish(fs: Fs, file: string, runId: Value, keys: seq<string>): Request {
    var c := CollectAll(fs - {ResultsPath(file)}, file, keys, Empty());
    if !c.ok then Aborted(c.fs)
    else
      var written := c.fs[ResultsPath(file) := Dumped(ResultsJson(runId, c.results))];
      match Rename(written, LockPath(file), DonePath(file))
      case None => Aborted(written)
      case Some(unlocked) => Done(unlocked)
  }

  /** The manifest, its lock, done and results paths are four different
      paths. */
  lemma CompanionPathsDiffer(file: string)
    ensures file != LockPath(file) && file != DonePath(file) && file != ResultsPath(file)
    ensures LockPath(file) != DonePath(file) && LockPath(file) != ResultsPath(file)
    ensures DonePath(file) != ResultsPath(file)
  {
    assert LockPath(file)[|file| + 1] == 'l';
    assert DonePath(file)[|file| + 1] == 'd';
    assert ResultsPath(file)[|file| + 1] == 'r';
  }

  /** No step file is the results or the done path. */
  lemma StepFileIsNotCompanion(file: string, step: string)
    ensures StepFile(file, step) != ResultsPath(file) && StepFile(file, step) != DonePath(file)
  {
    assert StepFile(file, step)[|file| + 1] == 's';
    assert ResultsPath(file)[|file| + 1] == 'r';
    assert DonePath(file)[|file| + 1] == 'd';
  }

  /** A request in progress: the manifest's content sits under the lock
      path, its own name is free, and the done path is as it was. */
  ghost predicate Locked(x: Fs, file: string, content: Content, doneBefore: bool) {
    file !in x && LockPath(file) in x && x[LockPath(file)] == content && (DonePath(file) in x <==> doneBefore)
  }

  /** A completed request: the content under the done path, no lock, a
      results file holding one document with the run id under "runId" and
      the collected `steps` object under "steps", and no step file of the
      listed steps. */
  ghost predicate Completed(x: Fs, file: string, content: Content, runId: Value, keys: seq<string>,
                            steps: Dict<string, Value>) {
    file !in x && LockPath(file) !in x && DonePath(file) in x && x[DonePath(file)] == content
    && ResultsPath(file) in x && Load(x[ResultsPath(file)]).Some?
    && Lookup(Load(x[ResultsPath(file)]).value, "runId") == Some(runId)
    && Lookup(Load(x[ResultsPath(file)]).value, "steps") == Some(Obj(steps))
    && forall k :: 0 <= k < |keys| ==> StepFile(file, keys[k]) !in x
  }

  lemma LockedOutside(x: Fs, y: Fs, file: string, content: Content, doneBefore: bool)
    requires Locked(x, file, content, doneBefore) && SameOutside(x, y, file)
    ensures Locked(y, file, content, doneBefore)
  {
    NotStepFiles(file);
  }

  lemma FinishLifecycle(fs: Fs, file: string, runId: Value, keys: seq<string>, content: Content, doneBefore: bool)
    requires Locked(fs, file, content, doneBefore)
    ensures var r := Finish(fs, file, runId, keys);
            !r.Stuck?
            && (r.Done? ==> Completed(r.fs, file, content, runId, keys, CollectedSteps(fs, file, keys)))
            && (r.Aborted? ==> Locked(r.fs, file, content, doneBefore))
  {
    CompanionPathsDiffer(file);
    var cleared := fs - {ResultsPath(file)};
    assert Locked(cleared, file, content, doneBefore);
    var c := CollectAll(cleared, file, keys, Empty());
    LockedOutside(cleared, c.fs, file, content, doneBefore);
    if c.ok {
      var doc := ResultsJson(runId, c.results);
      var written := c.fs[ResultsPath(file) := Dumped(doc)];
      assert Locked(written, file, content, doneBefore);
      var r := Rename(written, LockPath(file), DonePath(file)).value;
      assert r[ResultsPath(file)] == Dumped(doc);
      assert Lookup(doc, "runId") == Some(runId);
      assert "runId" != "steps" by { assert "runId"[0] != "steps"[0]; }
      assert doc.fields.pairs[1..] == [("steps", Obj(c.results))];
      assert Get(Dict([("steps", Obj(c.results))]), "steps") == Some(Obj(c.results));
      assert Lookup(doc, "steps") == Some(Obj(c.results));
      forall k | 0 <= k < |keys|
        ensures StepFile(file, keys[k]) !in r
      {
        StepFileIsNotCompanion(file, keys[k]);
      }
    }
  }

  lemma AfterPipelinesLifecycle(ran: Ran, data: Value, file: string, content: Content, doneBefore: bool)
    requires StepPairs(data).Some? && Locked(ran.fs, file, content, doneBefore)
    ensures var r := AfterPipelines(ran, data, file);
            (r.Done? ==> Lookup(data, "run_id").Some?
                         && Completed(r.fs, file, content, Lookup(data, "run_id").value, Keys(Dict(StepPairs(data).value)),
                                      CollectedSteps(ran.fs, file, Keys(Dict(StepPairs(data).value)))))
            && (!r.Done? ==> Locked(r.fs, file, content, doneBefore))
  {
    if ran.halt.None? && Lookup(data, "run_id").Some? {
      var keys := Keys(Dict(StepPairs(data).value));
      assert AfterPipelines(ran, data, file) == Finish(ran.fs, file, Lookup(data, "run_id").value, keys);
      FinishLifecycle(ran.fs, file, Lookup(data, "run_id").value, keys, content, doneBefore);
    } else if ran.halt.Some? {
      assert ran.halt.value == Hang || ran.halt.value == Crash;
    }
  }

  lemma ProcessLifecycle(config: Value, catalog: Catalog, locked: Fs, file: string, content: Content, doneBefore: bool)
    requires Locked(locked, file, content, doneBefore)
    ensures var r := Process(config, catalog, locked, file);
            (r.Done? ==> Load(content).Some? && StepPairs(Load(content).value).Some?
                         && Lookup(Load(content).value, "run_id").Some?
                         && Completed(r.fs, file, content, Lookup(Load(content).value, "run_id").value,
                                      Keys(Dict(StepPairs(Load(content).value).value)),
                                      CollectedSteps(PipelinesRan(config, catalog, locked, file, Load(content).value), file,
                                                     Keys(Dict(StepPairs(Load(content).value).value)))))
            && (!r.Done? ==> Locked(r.fs, file, content, doneBefore))
  {
    var data := Load(content);
    if data.Some? && StepPairs(data.value).Some? {
      var ran := RunPipelines(config, catalog, locked, file, StepPairs(data.value).value);
      LockedOutside(locked, ran.fs, file, content, doneBefore);
      AfterPipelinesLifecycle(ran, data.value, file, content, doneBefore);
    }
  }

  /** The manifest's life in one request. Without the manifest the request
      exits at once and changes nothing. Otherwise the manifest's own name
      is free afterwards; a completed request leaves its content under the
      done path, removes the lock, writes the results file with the
      manifest's run id and leaves no step file behind; any other ending
      leaves the content under the lock path and the done path as it was. */
  lemma RequestLifecycle(config: Value, catalog: Catalog, fs: Fs, file: string)
    ensures file !in fs ==> DoRequest(config, catalog, fs, file) == Aborted(fs)
    ensures file in fs ==>
              var r := DoRequest(config, catalog, fs, file);
              var data := Load(fs[file]);
              (r.Done? ==> data.Some? && StepPairs(data.value).Some? && Lookup(data.value, "run_id").Some?
                           && Completed(r.fs, file, fs[file], Lookup(data.value, "run_id").value,
                                        Keys(Dict(StepPairs(data.value).value)),
                                        RequestSteps(config, catalog, fs, file, data.value)))
              && (!r.Done? ==> Locked(r.fs, file, fs[file], DonePath(file) in fs))
  {
    if file in fs {
      CompanionPathsDiffer(file);
      var locked := Rename(fs, file, LockPath(file)).value;
      assert Locked(locked, file, fs[file], DonePath(file) in fs);
      ProcessLifecycle(config, catalog, locked, file, fs[file], DonePath(file) in fs);
    }
  }

  // ---------------------------------------------------------------------
  // What one request may touch.
  // ---------------------------------------------------------------------

  /** The two file systems agree on every path other than `file` and the
      paths "<file>.<anything>". */
  ghost predicate Untouched(x: Fs, y: Fs, file: string) {
    forall p :: p != file && !Text.StartsWith(p, file + ".") ==> (p in y <==> p in x) && (p in x ==> y[p] == x[p])
  }

  lemma UntouchedTrans(x: Fs, y: Fs, z: Fs, file: string)
    requires Untouched(x, y, file) && Untouched(y, z, file)
    ensures Untouched(x, z, file)
  {
  }

  /** A path under "<file>." */
  lemma Companion(file: string, suffix: string)
    ensures Text.StartsWith(file + "." + suffix, file + ".")
  {
    assert (file + "." + suffix)[..|file| + 1] == file + ".";
  }

  lemma OutsideUntouched(x: Fs, y: Fs, file: string)
    requires SameOutside(x, y, file)
    ensures Untouched(x, y, file)
  {
    forall p | p != file && !Text.StartsWith(p, file + ".")
      ensures !IsStepFile(file, p)
    {
      assert (file + ".step.")[..|file| + 1] == file + ".";
    }
  }

  lemma FinishFrame(fs: Fs, file: string, runId: Value, keys: seq<string>)
    ensures Untouched(fs, Finish(fs, file, runId, keys).fs, file)
  {
    Companion(file, "results");
    Companion(file, "lock");
    Companion(file, "done");
    var cleared := fs - {ResultsPath(file)};
    var c := CollectAll(cleared, file, keys, Empty());
    OutsideUntouched(cleared, c.fs, file);
    UntouchedTrans(fs, cleared, c.fs, file);
  }

  lemma AfterPipelinesFrame(ran: Ran, data: Value, file: string)
    requires StepPairs(data).Some?
    ensures Untouched(ran.fs, AfterPipelines(ran, data, file).fs, file)
  {
    if ran.halt.None? && Lookup(data, "run_id").Some? {
      var keys := Keys(Dict(StepPairs(data).value));
      assert AfterPipelines(ran, data, file) == Finish(ran.fs, file, Lookup(data, "run_id").value, keys);
      FinishFrame(ran.fs, file, Lookup(data, "run_id").value, keys);
    } else if ran.halt.Some? {
      assert ran.halt.value == Hang || ran.halt.value == Crash;
    }
  }

  /** A request changes nothing but the manifest and the paths
      "<manifest>.<anything>": its lock, done, results and step files. */
  lemma DoRequestFrame(config: Value, catalog: Catalog, fs: Fs, file: string)
    ensures Untouched(fs, DoRequest(config, catalog, fs, file).fs, file)
  {
    if file in fs {
      Companion(file, "lock");
      var locked := Rename(fs, file, LockPath(file)).value;
      assert Untouched(fs, locked, file);
      ProcessFrame(config, catalog, locked, file);
      UntouchedTrans(fs, locked, DoRequest(config, catalog, fs, file).fs, file);
    }
  }

  lemma ProcessFrame(config: Value, catalog: Catalog, locked: Fs, file: string)
    requires LockPath(file) in locked
    ensures Untouched(locked, Process(config, catalog, locked, file).fs, file)
  {
    var data := Load(locked[LockPath(file)]);
    if data.Some? && StepPairs(data.value).Some? {
      var ran := RunPipelines(config, catalog, locked, file, StepPairs(data.value).value);
      OutsideUntouched(locked, ran.fs, file);
      AfterPipelinesFrame(ran, data.value, file);
      UntouchedTrans(locked, ran.fs, AfterPipelines(ran, data.value, file).fs, file);
    }
  }

  // ---------------------------------------------------------------------
  // run: every manifest of the input directory.
  // ---------------------------------------------------------------------

  /** A path `glob.glob` reports for the pattern `input + "/" + "*.json"`: directly inside
      `input`, named "<name>.json" with a name that does not start with "."
      (the pattern's "*" skips hidden files). */
  predicate GlobMatch(input: string, p: string) {
    Text.StartsWith(p, input + "/")
    && var name := p[|input| + 1..];
       Text.EndsWith(name, ".json") && '/' !in name && name[0] != '.'
  }

  /** The lock, done and results files never match the pattern again, so a
      later run does not pick them up. */
  lemma CompanionsNotMatched(input: string, file: string)
    ensures !GlobMatch(input, LockPath(file)) && !GlobMatch(input, DonePath(file))
    ensures !GlobMatch(input, ResultsPath(file))
  {
    NotJson(input, file, ".lock");
    NotJson(input, file, ".done");
    NotJson(input, file, ".results");
  }

  lemma NotJson(input: string, file: string, suffix: string)
    requires |suffix| >= 5 && suffix[|suffix| - 5..] != ".json"
    ensures !GlobMatch(input, file + suffix)
  {
    var p := file + suffix;
    assert p[|p| - 5..] == suffix[|suffix| - 5..];
  }

  /** `run`: the request of each listed manifest in turn; an exit, an
      uncaught exception or a hang ends the run there. */
  function Run(config: Value, catalog: Catalog, fs: Fs, listing: seq<string>): Request
    decreases |listing|
  {
    if |listing| == 0 then Done(fs)
    else
      match DoRequest(config, catalog, fs, listing[0])
      case Done(fs') => Run(config, catalog, fs', listing[1..])
      case other => other
  }

  /** The listing `glob` returns, in some order: each match once. */
  ghost predicate Listing(fs: Fs, input: string, listing: seq<string>) {
    Distinct(listing)
    && (forall p :: p in listing ==> p in fs && GlobMatch(input, p))
    && (forall p :: p in fs && GlobMatch(input, p) ==> p in listing)
  }

  /** No listed name extends another by ".<anything>". */
  predicate Separate(listing: seq<string>) {
    forall p, q :: p in listing && q in listing ==> !Text.StartsWith(p, q + ".")
  }

  /** Why listings must be separate: a step named "x.json.done" of the
      manifest "in/a.json" has the done path of the manifest
      "in/a.json.step.x.json" as its step file, which both match `*.json`. */
  lemma DoneCollision()
    ensures StepFile("in/a.json", "x.json.done") == DonePath("in/a.json.step.x.json")
    ensures !Separate(["in/a.json", "in/a.json.step.x.json"])
  {
    var listing := ["in/a.json", "in/a.json.step.x.json"];
    assert listing[1][..|listing[0] + "."|] == listing[0] + ".";
    assert Text.StartsWith(listing[1], listing[0] + ".");
    assert listing[0] in listing && listing[1] in listing;
  }

  /** For two separate manifests, the done path of one is not touched by
      the request of the other. */
  lemma DoneOutside(q: string, p: string)
    requires p != q && !Text.StartsWith(q, p + ".") && !Text.StartsWith(p, q + ".")
    ensures DonePath(q) != p && !Text.StartsWith(DonePath(q), p + ".")
    ensures q != p && !Text.StartsWith(q, p + ".")
  {
    var d := DonePath(q);
    assert d[..|q| + 1] == q + ".";
    if |p| + 1 <= |q| {
      assert d[..|p| + 1] == q[..|p| + 1];
    } else if |p| == |q| {
      assert d[..|p|] == q;
    }
  }

  /** A run that gets through its whole listing has moved every listed
      manifest to its done path, content unchanged, and freed its name. */
  lemma {:induction false} RunMovesAll(config: Value, catalog: Catalog, fs: Fs, listing: seq<string>)
    requires Distinct(listing) && Separate(listing)
    requires forall p :: p in listing ==> p in fs
    ensures var r := Run(config, catalog, fs, listing);
            r.Done? ==> forall p :: p in listing ==> p !in r.fs && DonePath(p) in r.fs && r.fs[DonePath(p)] == fs[p]
    decreases |listing|
  {
    if |listing| > 0 && DoRequest(config, catalog, fs, listing[0]).Done? {
      var q := listing[0];
      var rest := listing[1..];
      var fs1 := DoRequest(config, catalog, fs, q).fs;
      assert q in listing;
      forall p | p in rest
        ensures p in listing && p != q && !Text.StartsWith(q, p + ".") && !Text.StartsWith(p, q + ".")
      {
        var i :| 0 <= i < |rest| && rest[i] == p;
        assert listing[i + 1] == p;
      }
      FirstDone(config, catalog, fs, q, rest);
      RunMovesAll(config, catalog, fs1, rest);
      RunKeeps(config, catalog, fs1, rest, q);
      assert Run(config, catalog, fs, listing) == Run(config, catalog, fs1, rest);
    }
  }

  /** After the first request completed: its manifest is under its done
      path and the other listed manifests are as they were. */
  lemma FirstDone(config: Value, catalog: Catalog, fs: Fs, q: string, rest: seq<string>)
    requires q in fs && DoRequest(config, catalog, fs, q).Done?
    requires forall p :: p in rest ==> p in fs && p != q && !Text.StartsWith(p, q + ".")
    ensures var fs1 := DoRequest(config, catalog, fs, q).fs;
            q !in fs1 && DonePath(q) in fs1 && fs1[DonePath(q)] == fs[q]
            && forall p :: p in rest ==> p in fs1 && fs1[p] == fs[p]
  {
    RequestLifecycle(config, catalog, fs, q);
    DoRequestFrame(config, catalog, fs, q);
  }

  /** A run leaves the done path and the name of a manifest outside its
      listing as they were. */
  lemma {:induction false} RunKeeps(config: Value, catalog: Catalog, fs: Fs, listing: seq<string>, q: string)
    requires forall p :: p in listing ==> p != q && !Text.StartsWith(q, p + ".") && !Text.StartsWith(p, q + ".")
    ensures var r := Run(config, catalog, fs, listing);
            (q in r.fs <==> q in fs) && (DonePath(q) in r.fs <==> DonePath(q) in fs)
            && (DonePath(q) in fs ==> r.fs[DonePath(q)] == fs[DonePath(q)])
    decreases |listing|
  {
    if |listing| > 0 {
      assert listing[0] in listing;
      DoRequestFrame(config, catalog, fs, listing[0]);
      DoneOutside(q, listing[0]);
      var first := DoRequest(config, catalog, fs, listing[0]);
      if first.Done? {
        assert forall p :: p in listing[1..] ==> p in listing;
        RunKeeps(config, catalog, first.fs, listing[1..], q);
      }
    }
  }

  /** A run over the directory listing that gets through it leaves no
      manifest of the directory under its own name: each one found at the
      start now sits under its done path, content unchanged, and none of
      the lock, done or results paths matches the pattern. */
  lemma RunEmptiesDirectory(config: Value, catalog: Catalog, fs: Fs, input: string, listing: seq<string>)
    requires Listing(fs, input, listing) && Separate(listing)
    ensures var r := Run(config, catalog, fs, listing);
            r.Done? ==> forall p :: p in fs && GlobMatch(input, p) ==>
                          p !in r.fs && DonePath(p) in r.fs && r.fs[DonePath(p)] == fs[p]
                          && !GlobMatch(input, DonePath(p)) && !GlobMatch(input, LockPath(p))
                          && !GlobMatch(input, ResultsPath(p))
  {
    RunMovesAll(config, catalog, fs, listing);
    forall p | p in fs && GlobMatch(input, p)
      ensures !GlobMatch(input, DonePath(p)) && !GlobMatch(input, LockPath(p)) && !GlobMatch(input, ResultsPath(p))
    {
      CompanionsNotMatched(input, p);
    }
  }
}

=== FILE: json.dfy ===
/** Decoded JSON documents, as Python's `json` module hands them over. */
module Json {
  import opened Opt
  import opened Dicts
  import Text

  datatype Value =
    | Null
    | Bool(b: bool)
    | Int(i: int)
    | Str(s: string)
    | Arr(items: seq<Value>)
    | Obj(fields: Dict<string, Value>)

  /** Python's truth value of the decoded value. */
  predicate Truthy(v: Value) {
    match v
    case Null => false
    case Bool(b) => b
    case Int(i) => i != 0
    case Str(s) => s != ""
    case Arr(items) => items != []
    case Obj(fields) => fields.pairs != []
  }

  /** `v[k]` where it succeeds: `v` is an object that holds `k`. Indexing
      anything else raises, which callers model as the error path. */
  function Lookup(v: Value, k: string): (r: Option<Value>)
    ensures r.Some? ==> v.Obj? && HasKey(v.fields, k)
  {
    if v.Obj? then Get(v.fields, k) else None
  }

  /** `v.get(k)` on an object: the value or `None`. */
  function GetOrNull(v: Value, k: string): Value
    requires v.Obj?
  {
    Get(v.fields, k).GetOr(Null)
  }

  /** `f"{v}"`: scalars render as Python renders them; containers render as
      a fixed marker (see README). */
  function Show(v: Value): string {
    match v
    case Null => "None"
    case Bool(b) => if b then "True" else "False"
    case Int(i) => Text.IntToString(i)
    case Str(s) => s
    case Arr(_) => "[...]"
    case Obj(_) => "{...}"
  }

  /** An object literal from its key/value pairs. */
  function Object(pairs: seq<(string, Value)>): Value {
    Obj(Dict(pairs))
  }
}

=== FILE: models.dfy ===
/**
 * The catalog naming model and the entry model: the value types of
 * models.py. Every field of the Python dataclasses defaults to `None`, so
 * every scalar field here is an `Option`; `attributes` and `relations`
 * default to fresh empty dicts. Equality is structural, as for the
 * dataclasses' generated `__eq__`.
 */
module Models {
  import opened Opt
  import opened Dicts
  import opened Json

  datatype Community = Community(name: Option<string>)

  datatype Domain = Domain(name: Option<string>, community: Option<Community>)

  /** A name-based address of a catalog node; never a reference to an Entry object. */
  datatype Identifier = Identifier(name: Option<string>, domain: Option<Domain>, community: Option<Community>)

  datatype Type = Type(name: Option<string>)

  /** One catalog node. `relations` keys are "<relationTypeId>:<direction>". */
  datatype Entry = Entry(
    resourceType: Option<string>,
    identifier: Option<Identifier>,
    entryType: Option<Type>,
    displayName: Option<string>,
    attributes: Dict<string, seq<string>>,
    relations: Dict<string, seq<Identifier>>)

  /** One shard file of a step; the field order is the positional order the
      constructor is called with. */
  datatype Step = Step(stepNumber: Option<int>, resourceLocation: Option<string>, fileName: Option<string>, partNumber: Option<int>)

  /** `Entry()`: every field at its default. */
  function DefaultEntry(): Entry {
    Entry(None, None, None, None, Empty(), Empty())
  }

  /** `Step()`: every field at its default. */
  function DefaultStep(): Step {
    Step(None, None, None, None)
  }

  // ---------------------------------------------------------------------
  // Shard serialisation: `json.dump` with a `default` hook that keeps only
  // the truthy attributes of every object. Dicts and lists are written
  // natively, so strings inside attribute lists are kept even when empty.
  // ---------------------------------------------------------------------

  /** A string-valued attribute as the hook keeps it: only when non-empty. */
  function StrField(key: string, s: Option<string>): seq<(string, Value)> {
    if s.Some? && s.value != "" then [(key, Str(s.value))] else []
  }

  function EncodeCommunity(c: Community): Value {
    Object(StrField("name", c.name))
  }

  function CommunityField(c: Option<Community>): seq<(string, Value)> {
    if c.Some? then [("community", EncodeCommunity(c.value))] else []
  }

  function EncodeDomain(d: Domain): Value {
    Object(StrField("name", d.name) + CommunityField(d.community))
  }

  function DomainField(d: Option<Domain>): seq<(string, Value)> {
    if d.Some? then [("domain", EncodeDomain(d.value))] else []
  }

  function EncodeIdentifier(i: Identifier): Value {
    Object(StrField("name", i.name) + DomainField(i.domain) + CommunityField(i.community))
  }

  function EncodeType(t: Type): Value {
    Object(StrField("name", t.name))
  }

  function EncodeStrings(xs: seq<string>): (v: Value)
    ensures v.Arr? && |v.items| == |xs|
  {
    Arr(seq(|xs|, k requires 0 <= k < |xs| => Str(xs[k])))
  }

  function EncodeIdentifiers(xs: seq<Identifier>): (v: Value)
    ensures v.Arr? && |v.items| == |xs|
  {
    Arr(seq(|xs|, k requires 0 <= k < |xs| => EncodeIdentifier(xs[k])))
  }

  function EncodeAttributes(d: Dict<string, seq<string>>): Value {
    Obj(Dict(seq(|d.pairs|, k requires 0 <= k < |d.pairs| => (d.pairs[k].0, EncodeStrings(d.pairs[k].1)))))
  }

  function EncodeRelations(d: Dict<string, seq<Identifier>>): Value {
    Obj(Dict(seq(|d.pairs|, k requires 0 <= k < |d.pairs| => (d.pairs[k].0, EncodeIdentifiers(d.pairs[k].1)))))
  }

  function IdentifierField(i: Option<Identifier>): seq<(string, Value)> {
    if i.Some? then [("identifier", EncodeIdentifier(i.value))] else []
  }

  function TypeField(t: Option<Type>): seq<(string, Value)> {
    if t.Some? then [("type", EncodeType(t.value))] else []
  }

  function AttributesField(d: Dict<string, seq<string>>): seq<(string, Value)> {
    if d.pairs != [] then [("attributes", EncodeAttributes(d))] else []
  }

  function RelationsField(d: Dict<string, seq<Identifier>>): seq<(string, Value)> {
    if d.pairs != [] then [("relations", EncodeRelations(d))] else []
  }

  function EntryFields(e: Entry): seq<(string, Value)> {
    StrField("resourceType", e.resourceType)
    + IdentifierField(e.identifier)
    + TypeField(e.entryType)
    + StrField("displayName", e.displayName)
    + AttributesField(e.attributes)
    + RelationsField(e.relations)
  }

  /** One entry as the shard file holds it. */
  function EncodeEntry(e: Entry): Value {
    Object(EntryFields(e))
  }

  /** A shard file's single document: the slice as a JSON array. */
  function EncodeShard(entries: seq<Entry>): (v: Value)
    ensures v.Arr? && |v.items| == |entries|
    ensures forall k :: 0 <= k < |entries| ==> v.items[k] == EncodeEntry(entries[k])
  {
    Arr(seq(|entries|, k requires 0 <= k < |entries| => EncodeEntry(entries[k])))
  }

  // ---------------------------------------------------------------------
  // Manifest serialisation of a Step: `json.dump` with `o.__dict__`, so the
  // keys are the snake_case attribute names and absent fields are `null`.
  // ---------------------------------------------------------------------

  function OptStr(s: Option<string>): Value {
    if s.Some? then Str(s.value) else Null
  }

  function OptInt(i: Option<int>): Value {
    if i.Some? then Int(i.value) else Null
  }

  function StepDict(s: Step): Value {
    Object([
      ("step_number", OptInt(s.stepNumber)),
      ("resource_location", OptStr(s.resourceLocation)),
      ("file_name", OptStr(s.fileName)),
      ("part_number", OptInt(s.partNumber))])
  }

  /** A step read back from its `__dict__` form. */
  function DecodeStep(v: Value): Step {
    Step(
      match Lookup(v, "step_number") case Some(Int(i)) => Some(i) case _ => None,
      match Lookup(v, "resource_location") case Some(Str(s)) => Some(s) case _ => None,
      match Lookup(v, "file_name") case Some(Str(s)) => Some(s) case _ => None,
      match Lookup(v, "part_number") case Some(Int(i)) => Some(i) case _ => None)
  }

  /** The manifest form of a Step keeps all four fields under their
      snake_case names (not the `json` metadata names), and reads back to
      the same Step. */
  lemma StepDictRoundTrip(s: Step)
    ensures HasKey(StepDict(s).fields, "step_number") && HasKey(StepDict(s).fields, "resource_location")
    ensures HasKey(StepDict(s).fields, "file_name") && HasKey(StepDict(s).fields, "part_number")
    ensures !HasKey(StepDict(s).fields, "stepNumber") && !HasKey(StepDict(s).fields, "partNumber")
    ensures DecodeStep(StepDict(s)) == s
  {
    assert DecodeStep(StepDict(s)) == s by {
      StepDictLookups(s);
    }
    assert !HasKey(StepDict(s).fields, "stepNumber") && !HasKey(StepDict(s).fields, "partNumber") by {
      assert Keys(StepDict(s).fields) == ["step_number", "resource_location", "file_name", "part_number"];
    }
    StepDictLookups(s);
  }

  /** Each snake_case key of the manifest form holds its field. */
  lemma StepDictLookups(s: Step)
    ensures Lookup(StepDict(s), "step_number") == Some(OptInt(s.stepNumber))
    ensures Lookup(StepDict(s), "resource_location") == Some(OptStr(s.resourceLocation))
    ensures Lookup(StepDict(s), "file_name") == Some(OptStr(s.fileName))
    ensures Lookup(StepDict(s), "part_number") == Some(OptInt(s.partNumber))
  {
    var fields := StepDict(s).fields;
    assert Keys(fields) == ["step_number", "resource_location", "file_name", "part_number"];
    GetAt(fields, 0);
    GetAt(fields, 1);
    GetAt(fields, 2);
    GetAt(fields, 3);
  }

  // ---------------------------------------------------------------------
  // Reading a shard entry back, as the catalog does: a missing key means
  // the field's default.
  // ---------------------------------------------------------------------

  function DecodeStr(v: Value, key: string): Option<string> {
    match Lookup(v, key)
    case Some(Str(s)) => Some(s)
    case _ => None
  }

  function DecodeCommunity(v: Value): Community {
    Community(DecodeStr(v, "name"))
  }

  function DecodeCommunityField(v: Value): Option<Community> {
    match Lookup(v, "community")
    case Some(c) => Some(DecodeCommunity(c))
    case None => None
  }

  function DecodeDomain(v: Value): Domain {
    Domain(DecodeStr(v, "name"), DecodeCommunityField(v))
  }

  function DecodeIdentifier(v: Value): Identifier {
    Identifier(
      DecodeStr(v, "name"),
      match Lookup(v, "domain") case Some(d) => Some(DecodeDomain(d)) case None => None,
      DecodeCommunityField(v))
  }

  function DecodeStrings(v: Value): seq<string> {
    match v
    case Arr(items) => seq(|items|, k requires 0 <= k < |items| => if items[k].Str? then items[k].s else "")
    case _ => []
  }

  function DecodeIdentifiers(v: Value): seq<Identifier> {
    match v
    case Arr(items) => seq(|items|, k requires 0 <= k < |items| => DecodeIdentifier(items[k]))
    case _ => []
  }

  function DecodeAttributes(v: Option<Value>): Dict<string, seq<string>> {
    match v
    case Some(Obj(d)) => Dict(seq(|d.pairs|, k requires 0 <= k < |d.pairs| => (d.pairs[k].0, DecodeStrings(d.pairs[k].1))))
    case _ => Empty()
  }

  function DecodeRelations(v: Option<Value>): Dict<string, seq<Identifier>> {
    match v
    case Some(Obj(d)) => Dict(seq(|d.pairs|, k requires 0 <= k < |d.pairs| => (d.pairs[k].0, DecodeIdentifiers(d.pairs[k].1))))
    case _ => Empty()
  }

  function DecodeEntry(v: Value): Entry {
    Entry(
      DecodeStr(v, "resourceType"),
      match Lookup(v, "identifier") case Some(i) => Some(DecodeIdentifier(i)) case None => None,
      match Lookup(v, "type") case Some(t) => Some(Type(DecodeStr(t, "name"))) case None => None,
      DecodeStr(v, "displayName"),
      DecodeAttributes(Lookup(v, "attributes")),
      DecodeRelations(Lookup(v, "relations")))
  }

  // ---------------------------------------------------------------------
  // What the hook loses: an empty string is indistinguishable from None.
  // ---------------------------------------------------------------------

  function NormalStr(s: Option<string>): (r: Option<string>)
    ensures r.Some? <==> s.Some? && s.value != ""
    ensures r.Some? ==> r == s
  {
    if s.Some? && s.value == "" then None else s
  }

  function NormalCommunity(c: Community): Community {
    Community(NormalStr(c.name))
  }

  function NormalCommunityField(c: Option<Community>): Option<Community> {
    if c.Some? then Some(NormalCommunity(c.value)) else None
  }

  function NormalDomain(d: Domain): Domain {
    Domain(NormalStr(d.name), NormalCommunityField(d.community))
  }

  function NormalIdentifier(i: Identifier): Identifier {
    Identifier(NormalStr(i.name),
      if i.domain.Some? then Some(NormalDomain(i.domain.value)) else None,
      NormalCommunityField(i.community))
  }

  function NormalRelations(d: Dict<string, seq<Identifier>>): Dict<string, seq<Identifier>> {
    Dict(seq(|d.pairs|, k requires 0 <= k < |d.pairs| =>
      (d.pairs[k].0, seq(|d.pairs[k].1|, j requires 0 <= j < |d.pairs[k].1| => NormalIdentifier(d.pairs[k].1[j])))))
  }

  /** The entry a reader of the shard sees: empty strings become absent. */
  function NormalEntry(e: Entry): Entry {
    Entry(
      NormalStr(e.resourceType),
      if e.identifier.Some? then Some(NormalIdentifier(e.identifier.value)) else None,
      if e.entryType.Some? then Some(Type(NormalStr(e.entryType.value.name))) else None,
      NormalStr(e.displayName),
      e.attributes,
      NormalRelations(e.relations))
  }

  // ---------------------------------------------------------------------
  // Properties of the serialisation.
  // ---------------------------------------------------------------------

  function OrElse<T>(a: Option<T>, b: Option<T>): Option<T> {
    if a.Some? then a else b
  }

  function Find(fields: seq<(string, Value)>, k: string): Option<Value> {
    Get(Dict(fields), k)
  }

  lemma Find2(a: seq<(string, Value)>, b: seq<(string, Value)>, k: string)
    ensures Find(a + b, k) == OrElse(Find(a, k), Find(b, k))
  {
    GetAppend(a, b, k);
  }

  lemma Find3(a: seq<(string, Value)>, b: seq<(string, Value)>, c: seq<(string, Value)>, k: string)
    ensures Find(a + b + c, k) == OrElse(OrElse(Find(a, k), Find(b, k)), Find(c, k))
  {
    Find2(a + b, c, k);
    Find2(a, b, k);
  }

  /** A lookup in an encoded entry asks its six field groups in order. */
  lemma EntryFind(e: Entry, k: string)
    ensures Find(EntryFields(e), k) ==
      OrElse(OrElse(OrElse(OrElse(OrElse(
        Find(StrField("resourceType", e.resourceType), k),
        Find(IdentifierField(e.identifier), k)),
        Find(TypeField(e.entryType), k)),
        Find(StrField("displayName", e.displayName), k)),
        Find(AttributesField(e.attributes), k)),
        Find(RelationsField(e.relations), k))
  {
    var p1, p2, p3 := StrField("resourceType", e.resourceType), IdentifierField(e.identifier), TypeField(e.entryType);
    var p4, p5, p6 := StrField("displayName", e.displayName), AttributesField(e.attributes), RelationsField(e.relations);
    Find2(p1 + p2 + p3 + p4 + p5, p6, k);
    Find2(p1 + p2 + p3 + p4, p5, k);
    Find2(p1 + p2 + p3, p4, k);
    Find3(p1, p2, p3, k);
  }

  // One lemma per key keeps each lookup small.

  lemma FindResourceType(e: Entry)
    ensures Find(EntryFields(e), "resourceType") == Find(StrField("resourceType", e.resourceType), "resourceType")
  {
    EntryFind(e, "resourceType");
    OtherFieldsLackResourceType(e);
  }

  lemma OtherFieldsLackResourceType(e: Entry)
    ensures Find(IdentifierField(e.identifier), "resourceType") == None
    ensures Find(TypeField(e.entryType), "resourceType") == None
    ensures Find(StrField("displayName", e.displayName), "resourceType") == None
    ensures Find(AttributesField(e.attributes), "resourceType") == None
    ensures Find(RelationsField(e.relations), "resourceType") == None
  {
  }

  lemma FindIdentifier(e: Entry)
    ensures Find(EntryFields(e), "identifier") == Find(IdentifierField(e.identifier), "identifier")
  {
    EntryFind(e, "identifier");
    assert Find(StrField("resourceType", e.resourceType), "identifier") == None;
  }

  lemma FindType(e: Entry)
    ensures Find(EntryFields(e), "type") == Find(TypeField(e.entryType), "type")
  {
    EntryFind(e, "type");
    assert Find(StrField("resourceType", e.resourceType), "type") == None;
    assert Find(IdentifierField(e.identifier), "type") == None;
  }

  lemma FindDisplayName(e: Entry)
    ensures Find(EntryFields(e), "displayName") == Find(StrField("displayName", e.displayName), "displayName")
  {
    EntryFind(e, "displayName");
    assert Find(StrField("resourceType", e.resourceType), "displayName") == None;
    assert Find(IdentifierField(e.identifier), "displayName") == None;
    assert Find(TypeField(e.entryType), "displayName") == None;
  }

  lemma FindAttributes(e: Entry)
    ensures Find(EntryFields(e), "attributes") == Find(AttributesField(e.attributes), "attributes")
  {
    EntryFind(e, "attributes");
    assert Find(StrField("resourceType", e.resourceType), "attributes") == None;
    assert Find(IdentifierField(e.identifier), "attributes") == None;
    assert Find(TypeField(e.entryType), "attributes") == None;
    assert Find(StrField("displayName", e.displayName), "attributes") == None;
  }

  lemma FindRelations(e: Entry)
    ensures Find(EntryFields(e), "relations") == Find(RelationsField(e.relations), "relations")
  {
    EntryFind(e, "relations");
    assert Find(StrField("resourceType", e.resourceType), "relations") == None;
    assert Find(IdentifierField(e.identifier), "relations") == None;
    assert Find(TypeField(e.entryType), "relations") == None;
    assert Find(StrField("displayName", e.displayName), "relations") == None;
    assert Find(AttributesField(e.attributes), "relations") == None;
  }

  lemma FindAll(e: Entry)
    ensures Find(EntryFields(e), "resourceType") == Find(StrField("resourceType", e.resourceType), "resourceType")
    ensures Find(EntryFields(e), "identifier") == Find(IdentifierField(e.identifier), "identifier")
    ensures Find(EntryFields(e), "type") == Find(TypeField(e.entryType), "type")
    ensures Find(EntryFields(e), "displayName") == Find(StrField("displayName", e.displayName), "displayName")
    ensures Find(EntryFields(e), "attributes") == Find(AttributesField(e.attributes), "attributes")
    ensures Find(EntryFields(e), "relations") == Find(RelationsField(e.relations), "relations")
  {
    FindResourceType(e);
    FindIdentifier(e);
    FindType(e);
    FindDisplayName(e);
    FindAttributes(e);
    FindRelations(e);
  }

  /** The hook writes a key exactly when the entry's field is truthy:
      a non-empty string, a present object, a non-empty dict. */
  lemma EncodeEntryKeys(e: Entry)
    ensures HasKey(EncodeEntry(e).fields, "resourceType") <==> e.resourceType.Some? && e.resourceType.value != ""
    ensures HasKey(EncodeEntry(e).fields, "identifier") <==> e.identifier.Some?
    ensures HasKey(EncodeEntry(e).fields, "type") <==> e.entryType.Some?
    ensures HasKey(EncodeEntry(e).fields, "displayName") <==> e.displayName.Some? && e.displayName.value != ""
    ensures HasKey(EncodeEntry(e).fields, "attributes") <==> e.attributes.pairs != []
    ensures HasKey(EncodeEntry(e).fields, "relations") <==> e.relations.pairs != []
  {
    FindAll(e);
  }

  /** The default entry has no truthy field, so it is written as `{}`. */
  lemma DefaultEntryEncodesEmpty()
    ensures EncodeEntry(DefaultEntry()) == Object([])
  {
  }

  lemma {:induction false} CommunityRoundTrip(c: Community)
    ensures DecodeCommunity(EncodeCommunity(c)) == NormalCommunity(c)
  {
  }

  lemma {:induction false} DomainRoundTrip(d: Domain)
    ensures DecodeDomain(EncodeDomain(d)) == NormalDomain(d)
  {
    Find2(StrField("name", d.name), CommunityField(d.community), "name");
    Find2(StrField("name", d.name), CommunityField(d.community), "community");
    if d.community.Some? {
      CommunityRoundTrip(d.community.value);
    }
  }

  lemma {:induction false} IdentifierRoundTrip(i: Identifier)
    ensures DecodeIdentifier(EncodeIdentifier(i)) == NormalIdentifier(i)
  {
    Find3(StrField("name", i.name), DomainField(i.domain), CommunityField(i.community), "name");
    Find3(StrField("name", i.name), DomainField(i.domain), CommunityField(i.community), "domain");
    Find3(StrField("name", i.name), DomainField(i.domain), CommunityField(i.community), "community");
    if i.domain.Some? {
      DomainRoundTrip(i.domain.value);
    }
    if i.community.Some? {
      CommunityRoundTrip(i.community.value);
    }
  }

  lemma AttributesRoundTrip(d: Dict<string, seq<string>>)
    ensures DecodeAttributes(Some(EncodeAttributes(d))) == d
  {
    var r := DecodeAttributes(Some(EncodeAttributes(d)));
    assert |r.pairs| == |d.pairs|;
    forall k | 0 <= k < |d.pairs|
      ensures r.pairs[k] == d.pairs[k]
    {
      assert DecodeStrings(EncodeStrings(d.pairs[k].1)) == d.pairs[k].1;
    }
  }

  lemma RelationsRoundTrip(d: Dict<string, seq<Identifier>>)
    ensures DecodeRelations(Some(EncodeRelations(d))) == NormalRelations(d)
  {
    var r := DecodeRelations(Some(EncodeRelations(d)));
    var n := NormalRelations(d);
    assert |r.pairs| == |n.pairs|;
    forall k | 0 <= k < |d.pairs|
      ensures r.pairs[k] == n.pairs[k]
    {
      var xs := d.pairs[k].1;
      var back := DecodeIdentifiers(EncodeIdentifiers(xs));
      assert |back| == |n.pairs[k].1|;
      forall j | 0 <= j < |xs|
        ensures back[j] == n.pairs[k].1[j]
      {
        IdentifierRoundTrip(xs[j]);
      }
      assert back == n.pairs[k].1;
    }
  }

  lemma DecodedScalars(e: Entry)
    ensures DecodeStr(EncodeEntry(e), "resourceType") == NormalEntry(e).resourceType
    ensures DecodeStr(EncodeEntry(e), "displayName") == NormalEntry(e).displayName
  {
    FindResourceType(e);
    FindDisplayName(e);
  }

  lemma DecodedIdentifier(e: Entry)
    ensures (match Lookup(EncodeEntry(e), "identifier") case Some(i) => Some(DecodeIdentifier(i)) case None => None)
      == NormalEntry(e).identifier
  {
    FindIdentifier(e);
    if e.identifier.Some? {
      IdentifierRoundTrip(e.identifier.value);
    }
  }

  lemma DecodedType(e: Entry)
    ensures (match Lookup(EncodeEntry(e), "type") case Some(t) => Some(Type(DecodeStr(t, "name"))) case None => None)
      == NormalEntry(e).entryType
  {
    FindType(e);
  }

  lemma DecodedMaps(e: Entry)
    ensures DecodeAttributes(Lookup(EncodeEntry(e), "attributes")) == NormalEntry(e).attributes
    ensures DecodeRelations(Lookup(EncodeEntry(e), "relations")) == NormalEntry(e).relations
  {
    FindAttributes(e);
    FindRelations(e);
    if e.attributes.pairs != [] {
      AttributesRoundTrip(e.attributes);
    }
    if e.relations.pairs != [] {
      RelationsRoundTrip(e.relations);
    }
  }

  /** Reading a written entry gives it back, except that empty strings come
      back as absent: the hook drops nothing a reader could tell apart. */
  lemma {:induction false} EntryRoundTrip(e: Entry)
    ensures DecodeEntry(EncodeEntry(e)) == NormalEntry(e)
  {
    DecodedScalars(e);
    DecodedIdentifier(e);
    DecodedType(e);
    DecodedMaps(e);
  }
}

=== FILE: opt.dfy ===
/** Python's "a value or None", and "a value or a raised error", as
    explicit datatypes. */
module Opt {

  datatype Option<+T> = None | Some(value: T) {

    /** The wrapped value, or `default` when there is none. */
    function GetOr(default: T): T {
      match this
      case Some(v) => v
      case None => default
    }
  }

  /** The outcome of an operation that can raise. */
  datatype Result<+T, +E> = Ok(value: T) | Err(error: E)
}

=== FILE: services.dfy ===
/**
 * The import service of services.py: entry factories, attribute and
 * relation accumulation, and `save`, which cuts a step's entries into shard
 * files and records one Step descriptor per shard in the run manifest.
 */
module Services {
  import opened Opt
  import opened Dicts
  import opened Json
  import opened Files
  import opened Models
  import Text

  /** The service's fields: the run id, the two sharding limits and the
      manifest's steps, keyed by step number in first-seen order. */
  datatype ImportService = ImportService(runId: string, maxJobs: int, maxEntries: int, steps: Dict<int, seq<Step>>)

  /** What `save` can raise without any I/O failing. */
  datatype Error = ZeroDivision

  /** A fresh service, as `ImportService(run_id, jobs, entries)` builds it. */
  function NewService(runId: string, maxJobs: int, maxEntries: int): (s: ImportService)
    ensures s.runId == runId && s.maxJobs == maxJobs && s.maxEntries == maxEntries
    ensures Keys(s.steps) == [] && Keyed(s.steps)
  {
    ImportService(runId, maxJobs, maxEntries, Empty())
  }

  /** Every descriptor listed under a step number carries that step number:
      `save` only ever files a step under its own `step_number`. */
  predicate Keyed(steps: Dict<int, seq<Step>>) {
    forall p, st :: p in steps.pairs && st in p.1 ==> st.stepNumber == Some(p.0)
  }

  /** Appending descriptors of step `k` under `k` keeps the steps keyed. */
  lemma ExtendKeyed(steps: Dict<int, seq<Step>>, k: int, added: seq<Step>)
    requires Keyed(steps)
    requires forall st :: st in added ==> st.stepNumber == Some(k)
    ensures Keyed(Extend(steps, k, added))
  {
    var v := Get(steps, k).GetOr([]) + added;
    if HasKey(steps, k) {
      GetPair(steps, k);
    }
    PutPairs(steps, k, v);
  }

  // ---------------------------------------------------------------------
  // Entry factories and accumulation.
  // ---------------------------------------------------------------------

  /** A Domain entry: addressed inside a community, with no domain and no
      display name, and nothing attached yet. */
  function GetDomain(community: string, domainType: string, name: string): (e: Entry)
    ensures e.resourceType == Some("Domain")
    ensures e.identifier == Some(Identifier(Some(name), None, Some(Community(Some(community)))))
    ensures e.entryType == Some(Type(Some(domainType)))
    ensures e.displayName.None?
    ensures e.attributes == Empty() && e.relations == Empty()
  {
    DefaultEntry().(
      resourceType := Some("Domain"),
      identifier := Some(Identifier(Some(name), None, Some(Community(Some(community))))),
      entryType := Some(Type(Some(domainType))))
  }

  /** An Asset entry: addressed inside a domain (which names its community),
      with no community of its own, the given display name, and nothing
      attached yet. */
  function GetAsset(community: string, domain: string, assetType: string, name: string, displayName: string): (e: Entry)
    ensures e.resourceType == Some("Asset")
    ensures e.identifier == Some(Identifier(Some(name), Some(Domain(Some(domain), Some(Community(Some(community))))), None))
    ensures e.entryType == Some(Type(Some(assetType)))
    ensures e.displayName == Some(displayName)
    ensures e.attributes == Empty() && e.relations == Empty()
  {
    DefaultEntry().(
      resourceType := Some("Asset"),
      identifier := Some(Identifier(Some(name), Some(Domain(Some(domain), Some(Community(Some(community))))), None)),
      entryType := Some(Type(Some(assetType))),
      displayName := Some(displayName))
  }

  /** `add_attributes`: the list under `name` is created when missing, then
      one rendering of `value` is appended for the kinds "date", "array" and
      "string"; any other kind appends nothing. `formatDate` and `dumps`
      stand for the locale-dependent timestamp formatting and
      `json.dumps(indent=4)`. The second component is true when `int(value)`
      raised, after the list was created. */
  function AddAttributes(e: Entry, name: string, value: string, kind: string,
                         formatDate: int -> string, dumps: string -> string): (r: (Entry, bool))
    ensures r.0.(attributes := e.attributes) == e
    ensures HasKey(r.0.attributes, name)
    ensures kind == "string" ==> Get(r.0.attributes, name) == Some(Get(e.attributes, name).GetOr([]) + [value])
    ensures kind == "array" ==> Get(r.0.attributes, name) == Some(Get(e.attributes, name).GetOr([]) + [dumps(value)])
    ensures kind == "date" && Text.ParseInt(value).Some? ==>
      Get(r.0.attributes, name) == Some(Get(e.attributes, name).GetOr([]) + [formatDate(Text.ParseInt(value).value)])
    ensures (kind !in {"string", "array"} && !(kind == "date" && Text.ParseInt(value).Some?)) ==>
      Get(r.0.attributes, name) == Some(Get(e.attributes, name).GetOr([]))
    ensures forall k :: k != name ==> Get(r.0.attributes, k) == Get(e.attributes, k)
    ensures r.1 <==> kind == "date" && Text.ParseInt(value).None?
  {
    var current := Get(e.attributes, name).GetOr([]);
    var raised := kind == "date" && Text.ParseInt(value).None?;
    var added :=
      if kind == "date" && !raised then [formatDate(Text.ParseInt(value).value)]
      else if kind == "array" then [dumps(value)]
      else if kind == "string" then [value]
      else [];
    assert added == [] ==> current + added == current;
    var attributes := Put(e.attributes, name, current + added);
    assert forall k :: k != name ==> Get(attributes, k) == Get(e.attributes, k) by {
      forall k | k != name {
        PutGetOther(e.attributes, name, current + added, k);
      }
    }
    (e.(attributes := attributes), raised)
  }

  /** The relations key for a relation type and a direction. */
  function RelationKey(relationType: string, direction: string): string {
    relationType + ":" + direction
  }

  /** The identifier `add_relations` builds for a relation target. */
  function RelationTarget(domain: string, community: string, name: string): Identifier {
    Identifier(Some(name), Some(Domain(Some(domain), Some(Community(Some(community))))), None)
  }

  /** `add_relations`: exactly one target identifier is appended at the end
      of the list under "type:direction" (created when missing); no other
      key and no other field changes. */
  function AddRelations(e: Entry, relationType: string, direction: string,
                        domain: string, community: string, name: string): (r: Entry)
    ensures r.(relations := e.relations) == e
    ensures Get(r.relations, RelationKey(relationType, direction))
      == Some(Get(e.relations, RelationKey(relationType, direction)).GetOr([]) + [RelationTarget(domain, community, name)])
    ensures forall k :: k != RelationKey(relationType, direction) ==> Get(r.relations, k) == Get(e.relations, k)
    ensures Keys(e.relations) <= Keys(r.relations)
  {
    var key := RelationKey(relationType, direction);
    var list := Get(e.relations, key).GetOr([]) + [RelationTarget(domain, community, name)];
    var relations := Extend(e.relations, key, [RelationTarget(domain, community, name)]);
    PutKeys(e.relations, key, list);
    assert forall k :: k != key ==> Get(relations, k) == Get(e.relations, k) by {
      forall k | k != key {
        PutGetOther(e.relations, key, list, k);
      }
    }
    e.(relations := relations)
  }

  // ---------------------------------------------------------------------
  // Shard planning: Python's floor division, written out.
  // ---------------------------------------------------------------------

  /** Python's `a // b`, which rounds toward negative infinity. */
  function FloorDiv(a: int, b: int): (q: int)
    requires b != 0
    ensures b > 0 ==> q * b <= a < q * b + b
    ensures b < 0 ==> q * b + b < a <= q * b
  {
    if b > 0 then a / b else (-a) / (-b)
  }

  /** `-(-n // m)`: the ceiling of n / m; a zero divisor raises. */
  function CeilDiv(n: int, m: int): (r: Result<int, Error>)
    ensures r.Err? <==> m == 0
    ensures m > 0 && r.Ok? ==> (r.value - 1) * m < n <= r.value * m
  {
    if m == 0 then Err(ZeroDivision) else Ok(-FloorDiv(-n, m))
  }

  function Max(a: int, b: int): int {
    if a >= b then a else b
  }

  /** `number_of_files`: 1 without splitting, otherwise enough files for
      `maxEntries` per file but never fewer than `maxJobs`: the least count
      of at least `maxJobs` files that holds `n` entries at `maxEntries`
      each. */
  function PlannedFiles(maxJobs: int, maxEntries: int, n: nat, split: bool): (r: Result<int, Error>)
    ensures r.Err? <==> split && maxEntries == 0
    ensures !split ==> r == Ok(1)
    ensures split && maxEntries > 0 ==>
              r.Ok? && r.value >= maxJobs && n <= r.value * maxEntries
              && (r.value == maxJobs || (r.value - 1) * maxEntries < n)
  {
    if !split then Ok(1)
    else match CeilDiv(n, maxEntries)
      case Err(e) => Err(e)
      case Ok(c) =>
        assert maxEntries > 0 ==> n <= Max(c, maxJobs) * maxEntries by {
          if maxEntries > 0 {
            MulLe(c, Max(c, maxJobs), maxEntries);
          }
        }
        Ok(Max(c, maxJobs))
  }

  lemma MulLe(a: int, b: int, p: int)
    requires a <= b && p >= 0
    ensures a * p <= b * p
  {
  }

  /** With at least one file, each file gets a non-negative share, and
      none only when there is nothing to share. */
  lemma PerFileBounds(n: nat, files: int)
    requires files > 0
    ensures CeilDiv(n, files).Ok?
    ensures CeilDiv(n, files).value >= 0
    ensures CeilDiv(n, files).value == 0 <==> n == 0
  {
    var per := CeilDiv(n, files).value;
    if per < 0 {
      MulLe(per, -1, files);
    }
  }

  /** The reference partition: consecutive slices of `per` entries, the
      last one possibly shorter; an empty list is one empty slice. */
  function Chunks<T>(xs: seq<T>, per: nat): (parts: seq<seq<T>>)
    requires per > 0 || |xs| == 0
    ensures |parts| >= 1
    decreases |xs|
  {
    if |xs| <= per then [xs] else [xs[..per]] + Chunks(xs[per..], per)
  }

  /** The slices `save` writes, in part order: `number_of_files` planned,
      `number_of_entries_per_file` each. A zero file count raises; a
      negative one (a negative `maxJobs` with nothing to split) writes none. */
  function Partition<T>(maxJobs: int, maxEntries: int, xs: seq<T>, split: bool): (r: Result<seq<seq<T>>, Error>)
  {
    match PlannedFiles(maxJobs, maxEntries, |xs|, split)
    case Err(e) => Err(e)
    case Ok(files) =>
      if files == 0 then Err(ZeroDivision)
      else if files < 0 then Ok([])
      else
        var per := CeilDiv(|xs|, files).value;
        PerFileBounds(|xs|, files);
        Ok(Chunks(xs, per as nat))
  }

  /** All slices back to back. */
  function Flatten<T>(parts: seq<seq<T>>): seq<T> {
    if |parts| == 0 then [] else parts[0] + Flatten(parts[1..])
  }

  function Sizes<T>(parts: seq<seq<T>>): (r: seq<nat>)
    ensures |r| == |parts|
    ensures forall k :: 0 <= k < |parts| ==> r[k] == |parts[k]|
  {
    seq(|parts|, k requires 0 <= k < |parts| => |parts[k]|)
  }

  // ---------------------------------------------------------------------
  // What the partition guarantees.
  // ---------------------------------------------------------------------

  /** Slice `k` is the `k`-th window of `per` entries, clipped at the end. */
  lemma {:induction false} ChunkAt<T>(xs: seq<T>, per: nat, k: nat)
    requires per > 0 || |xs| == 0
    requires k < |Chunks(xs, per)|
    ensures k * per <= |xs|
    ensures Chunks(xs, per)[k] == xs[k * per .. if (k + 1) * per < |xs| then (k + 1) * per else |xs|]
    decreases |xs|
  {
    if |xs| > per && k > 0 {
      var rest := xs[per..];
      ChunkAt(rest, per, k - 1);
      var lo, hi := (k - 1) * per, if k * per < |rest| then k * per else |rest|;
      assert lo + per == k * per && k * per + per == (k + 1) * per;
      assert Chunks(xs, per)[k] == Chunks(rest, per)[k - 1] == rest[lo..hi];
      assert rest[lo..hi] == xs[lo + per..hi + per];
    }
  }

  /** The number of slices is the least count whose windows cover the list
      (one for the empty list). */
  lemma {:induction false} ChunkCount<T>(xs: seq<T>, per: nat)
    requires per > 0 || |xs| == 0
    ensures |Chunks(xs, per)| * per >= |xs|
    ensures |xs| > 0 ==> (|Chunks(xs, per)| - 1) * per < |xs|
    ensures |xs| == 0 ==> |Chunks(xs, per)| == 1
    decreases |xs|
  {
    if |xs| > per {
      var c := |Chunks(xs[per..], per)|;
      ChunkCount(xs[per..], per);
      assert (c + 1) * per == c * per + per;
      assert c * per == (c - 1) * per + per;
    }
  }

  /** Concatenating the slices in part order gives back the input: nothing
      lost, nothing repeated, order kept. */
  lemma {:induction false} ChunksFlatten<T>(xs: seq<T>, per: nat)
    requires per > 0 || |xs| == 0
    ensures Flatten(Chunks(xs, per)) == xs
    decreases |xs|
  {
    var parts := Chunks(xs, per);
    if |xs| <= per {
      assert Flatten(parts) == xs + Flatten(parts[1..]);
      assert parts[1..] == [];
    } else {
      ChunksFlatten(xs[per..], per);
      assert parts[1..] == Chunks(xs[per..], per);
      assert xs[..per] + xs[per..] == xs;
    }
  }

  /** Every slice but the last holds exactly `per` entries; the last holds
      between 1 and `per`, unless the whole list is empty. */
  lemma {:induction false} ChunkSizes<T>(xs: seq<T>, per: nat)
    requires per > 0 || |xs| == 0
    ensures forall k :: 0 <= k < |Chunks(xs, per)| - 1 ==> |Chunks(xs, per)[k]| == per
    ensures |xs| > 0 ==> 1 <= |Chunks(xs, per)[|Chunks(xs, per)| - 1]| <= per
    ensures |xs| == 0 ==> Chunks(xs, per) == [[]]
    decreases |xs|
  {
    if |xs| > per {
      ChunkSizes(xs[per..], per);
      var parts := Chunks(xs, per);
      assert parts[1..] == Chunks(xs[per..], per);
      forall k | 0 <= k < |parts| - 1
        ensures |parts[k]| == per
      {
        if k > 0 {
          assert parts[k] == parts[1..][k - 1];
        }
      }
    }
  }

  /** One window of `per` entries per file is enough to cover the list:
      the slices never outnumber the planned files. */
  lemma ChunksFitFiles<T>(xs: seq<T>, files: int)
    requires files > 0
    ensures CeilDiv(|xs|, files).Ok? && CeilDiv(|xs|, files).value >= 0
    ensures |Chunks(xs, CeilDiv(|xs|, files).value as nat)| <= files
  {
    PerFileBounds(|xs|, files);
    var per := CeilDiv(|xs|, files).value as nat;
    ChunkCount(xs, per);
    var c := |Chunks(xs, per)|;
    if |xs| > 0 && c > files {
      MulLe(files, c - 1, per);
    }
  }

  /** A later slice starts where the list is not yet exhausted, and the
      count of slices is the first count whose windows reach the end. */
  lemma ChunkStop<T>(xs: seq<T>, per: nat, j: nat)
    requires per > 0 || |xs| == 0
    requires 1 <= j <= |Chunks(xs, per)|
    ensures j == |Chunks(xs, per)| <==> j * per >= |xs|
  {
    ChunkCount(xs, per);
    var c := |Chunks(xs, per)|;
    if j < c && |xs| > 0 {
      MulLe(j, c - 1, per);
    }
  }

  /** The shape `save` promises: all slices concatenate back to the input,
      there are no more of them than planned files, and with splitting on
      and positive limits no slice exceeds `maxEntries` and there are at
      least `maxJobs` planned. */
  lemma PartitionProperties<T>(maxJobs: int, maxEntries: int, xs: seq<T>, split: bool)
    requires !split || (maxEntries > 0 && maxJobs > 0)
    ensures Partition(maxJobs, maxEntries, xs, split).Ok?
    ensures Flatten(Partition(maxJobs, maxEntries, xs, split).value) == xs
    ensures 1 <= |Partition(maxJobs, maxEntries, xs, split).value| <= PlannedFiles(maxJobs, maxEntries, |xs|, split).value
    ensures split ==> PlannedFiles(maxJobs, maxEntries, |xs|, split).value >= maxJobs
    ensures split ==> forall k :: 0 <= k < |Partition(maxJobs, maxEntries, xs, split).value| ==>
      |Partition(maxJobs, maxEntries, xs, split).value[k]| <= maxEntries
    ensures !split ==> Partition(maxJobs, maxEntries, xs, split).value == [xs]
  {
    var files := PlannedFiles(maxJobs, maxEntries, |xs|, split).value;
    assert files >= 1 by {
      if split {
        assert files >= maxJobs;
      }
    }
    PerFileBounds(|xs|, files);
    var per := CeilDiv(|xs|, files).value as nat;
    ChunksFlatten(xs, per);
    ChunksFitFiles(xs, files);
    ChunkSizes(xs, per);
    if split {
      PerWithinMaxEntries(|xs|, maxJobs, maxEntries);
      var parts := Chunks(xs, per);
      forall k | 0 <= k < |parts|
        ensures |parts[k]| <= maxEntries
      {
        if |xs| > 0 && k == |parts| - 1 {
        }
      }
    } else {
      assert FloorDiv(-|xs|, 1) == -|xs|;
    }
  }

  /** Planning at least ceil(n / maxEntries) files leaves each file at most
      `maxEntries` entries. */
  lemma PerWithinMaxEntries(n: nat, maxJobs: int, maxEntries: int)
    requires maxEntries > 0 && maxJobs > 0
    ensures PlannedFiles(maxJobs, maxEntries, n, true).Ok?
    ensures CeilDiv(n, PlannedFiles(maxJobs, maxEntries, n, true).value).value <= maxEntries
  {
    var c := CeilDiv(n, maxEntries).value;
    var files := PlannedFiles(maxJobs, maxEntries, n, true).value;
    var per := CeilDiv(n, files).value;
    PerFileBounds(n, files);
    if per > maxEntries {
      // (per - 1) * files < n <= c * maxEntries <= files * maxEntries
      MulLe(c, files, maxEntries);
      MulLe(maxEntries, per - 1, files);
    }
  }

  lemma ExampleSizes<T>(xs: seq<T>, per: nat, count: nat, sizes: seq<nat>)
    requires per > 0 && |sizes| == count && |xs| > 0
    requires (count - 1) * per < |xs| <= count * per
    requires forall k :: 0 <= k < count ==> sizes[k] == (if (k + 1) * per < |xs| then (k + 1) * per else |xs|) - k * per
    ensures Sizes(Chunks(xs, per)) == sizes
  {
    ChunkCount(xs, per);
    var c := |Chunks(xs, per)|;
    if c < count {
      MulLe(c, count - 1, per);
    } else if c > count {
      MulLe(count, c - 1, per);
    }
    assert c == count;
    forall k | 0 <= k < count
      ensures |Chunks(xs, per)[k]| == sizes[k]
    {
      ChunkAt(xs, per, k);
    }
  }

  /** The worked examples: 7 entries with at most 3 per job and 1 job give
      slices of 3, 3 and 1; with 4 jobs, 2, 2, 2 and 1; 5 entries with 4
      jobs give 2, 2 and 1 (three shards although four were planned). */
  lemma WorkedExamples<T>(seven: seq<T>, five: seq<T>)
    requires |seven| == 7 && |five| == 5
    ensures Sizes(Partition(1, 3, seven, true).value) == [3, 3, 1]
    ensures Sizes(Partition(4, 3, seven, true).value) == [2, 2, 2, 1]
    ensures Sizes(Partition(4, 3, five, true).value) == [2, 2, 1]
  {
    assert CeilDiv(7, 3) == Ok(3);
    assert CeilDiv(5, 3) == Ok(2);
    assert CeilDiv(7, 4) == Ok(2);
    assert CeilDiv(5, 4) == Ok(2);
    ExampleSizes(seven, 3, 3, [3, 3, 1]);
    ExampleSizes(seven, 2, 4, [2, 2, 2, 1]);
    ExampleSizes(five, 2, 3, [2, 2, 1]);
  }

  // ---------------------------------------------------------------------
  // Paths and the manifest.
  // ---------------------------------------------------------------------

  /** `os.path.join(a, b)` on POSIX: an absolute `b` replaces `a`; no
      separator is added after an empty `a` or one ending in "/". */
  function PathJoin(a: string, b: string): string {
    if Text.StartsWith(b, "/") then b
    else if a == "" || Text.EndsWith(a, "/") then a + b
    else a + "/" + b
  }

  /** Everything of a shard's file name before the part number. */
  function ShardPrefix(location: string, runId: string, stepNumber: int, fileName: string): string {
    location + "/" + runId + "/" + Text.IntToString(stepNumber) + "." + fileName + "."
  }

  /** "<location>/<runId>/<step>.<fileName>.<part>.json". */
  function ShardPath(location: string, runId: string, stepNumber: int, fileName: string, part: int): string {
    ShardPrefix(location, runId, stepNumber, fileName) + Text.IntToString(part) + ".json"
  }

  /** "<location>/<runId>.json". */
  function ManifestPath(location: string, runId: string): string {
    location + "/" + runId + ".json"
  }

  /** The descriptor recorded for part `part`: its directory is the joined
      run directory. */
  function Descriptor(location: string, runId: string, stepNumber: int, fileName: string, part: int): Step {
    Step(Some(stepNumber), Some(PathJoin(location, runId)), Some(fileName), Some(part))
  }

  /** `f(0), f(1), ..., f(count - 1)`. */
  function Table<X>(f: nat -> X, count: nat): (r: seq<X>)
    ensures |r| == count
    ensures forall k :: 0 <= k < count ==> r[k] == f(k)
  {
    seq(count, k requires 0 <= k < count => f(k))
  }

  lemma TableSnoc<X>(f: nat -> X, count: nat)
    ensures Table(f, count) + [f(count)] == Table(f, count + 1)
  {
  }

  function DescriptorOf(location: string, runId: string, stepNumber: int, fileName: string): nat -> Step {
    k => Descriptor(location, runId, stepNumber, fileName, k)
  }

  /** The descriptors of parts 0 .. count-1. */
  function Descriptors(location: string, runId: string, stepNumber: int, fileName: string, count: nat): (r: seq<Step>)
    ensures |r| == count
    ensures forall k :: 0 <= k < count ==> r[k] == Descriptor(location, runId, stepNumber, fileName, k)
  {
    Table(DescriptorOf(location, runId, stepNumber, fileName), count)
  }

  /** The manifest's "steps" object: `json.dump` turns the integer keys
      into their decimal strings. */
  function StepsJson(steps: Dict<int, seq<Step>>): Value {
    Obj(Dict(seq(|steps.pairs|, i requires 0 <= i < |steps.pairs| =>
      (Text.IntToString(steps.pairs[i].0),
       Arr(seq(|steps.pairs[i].1|, j requires 0 <= j < |steps.pairs[i].1| => StepDict(steps.pairs[i].1[j])))))))
  }

  /** The manifest document: the service's `__dict__`. */
  function ManifestJson(s: ImportService): Value {
    Object([
      ("run_id", Str(s.runId)),
      ("custom_asset_import_maximum_jobs", Int(s.maxJobs)),
      ("custom_asset_import_maximum_entries", Int(s.maxEntries)),
      ("steps", StepsJson(s.steps))])
  }

  function ShardPathOf(location: string, runId: string, stepNumber: int, fileName: string): nat -> string {
    k => ShardPath(location, runId, stepNumber, fileName, k)
  }

  /** The shard paths of parts 0 .. count-1. */
  function ShardPaths(location: string, runId: string, stepNumber: int, fileName: string, count: nat): (r: seq<string>)
    ensures |r| == count
    ensures forall k :: 0 <= k < count ==> r[k] == ShardPath(location, runId, stepNumber, fileName, k)
  {
    Table(ShardPathOf(location, runId, stepNumber, fileName), count)
  }

  /** What each shard file holds: its slice dumped as one JSON document;
      `save` encodes a slice with `EncodeShard`. */
  function ShardContents<T>(parts: seq<seq<T>>, encode: seq<T> -> Value): (r: seq<Content>)
    ensures |r| == |parts|
    ensures forall k :: 0 <= k < |parts| ==> r[k] == Dumped(encode(parts[k]))
  {
    seq(|parts|, k requires 0 <= k < |parts| => Dumped(encode(parts[k])))
  }

  /** The filesystem after writing `parts` as shards 0 .. |parts|-1. */
  function WriteShards<T>(fs: Fs, location: string, runId: string, stepNumber: int, fileName: string,
                          parts: seq<seq<T>>, encode: seq<T> -> Value): Fs
  {
    WriteAll(fs, ShardPaths(location, runId, stepNumber, fileName, |parts|), ShardContents(parts, encode))
  }

  lemma ShardPathInjective(location: string, runId: string, stepNumber: int, fileName: string, i: int, j: int)
    ensures ShardPath(location, runId, stepNumber, fileName, i) == ShardPath(location, runId, stepNumber, fileName, j) <==> i == j
  {
    var pre := ShardPrefix(location, runId, stepNumber, fileName);
    var a, b := Text.IntToString(i), Text.IntToString(j);
    if pre + a + ".json" == pre + b + ".json" {
      assert |a| == |b|;
      assert a == (pre + a + ".json")[|pre|..|pre| + |a|];
      assert b == (pre + b + ".json")[|pre|..|pre| + |b|];
    }
    Text.IntToStringInjective(i, j);
  }

  /** The manifest never shares a path with a shard of its own run: at the
      character after the run id one has '.', the other '/'. */
  lemma ManifestIsNotShard(location: string, runId: string, stepNumber: int, fileName: string, part: int)
    ensures ManifestPath(location, runId) != ShardPath(location, runId, stepNumber, fileName, part)
  {
    var at := |location + "/" + runId|;
    assert ManifestPath(location, runId)[at] == '.';
    assert ShardPath(location, runId, stepNumber, fileName, part)[at] == '/';
  }

  /** A step's shard paths are pairwise distinct. */
  lemma ShardPathsDistinct(location: string, runId: string, stepNumber: int, fileName: string, count: nat)
    ensures Distinct(ShardPaths(location, runId, stepNumber, fileName, count))
  {
    var ps := ShardPaths(location, runId, stepNumber, fileName, count);
    forall i, j | 0 <= i < j < count
      ensures ps[i] != ps[j]
    {
      ShardPathInjective(location, runId, stepNumber, fileName, i, j);
    }
  }

  /** Shard `k` holds the `k`-th slice; every other path is untouched. */
  lemma WriteShardsContent<T>(fs: Fs, location: string, runId: string, stepNumber: int, fileName: string,
                              parts: seq<seq<T>>, encode: seq<T> -> Value)
    ensures forall k :: 0 <= k < |parts| ==>
      ShardPath(location, runId, stepNumber, fileName, k) in WriteShards(fs, location, runId, stepNumber, fileName, parts, encode)
      && WriteShards(fs, location, runId, stepNumber, fileName, parts, encode)[ShardPath(location, runId, stepNumber, fileName, k)]
         == Dumped(encode(parts[k]))
    ensures forall p :: p !in ShardPaths(location, runId, stepNumber, fileName, |parts|) ==>
      (p in WriteShards(fs, location, runId, stepNumber, fileName, parts, encode) <==> p in fs)
      && (p in fs ==> WriteShards(fs, location, runId, stepNumber, fileName, parts, encode)[p] == fs[p])
  {
    ShardPathsDistinct(location, runId, stepNumber, fileName, |parts|);
    WriteAllContent(fs, ShardPaths(location, runId, stepNumber, fileName, |parts|), ShardContents(parts, encode));
  }

  // ---------------------------------------------------------------------
  // `save`.
  // ---------------------------------------------------------------------

  function Min(a: int, b: int): int {
    if a <= b then a else b
  }

  /** The loop's slice `entries[from : min(from + per, len)]` heads the
      slices of what is left from `from`; the rest of them start at
      `from + per`, and there are none left exactly when that reaches the
      end. */
  lemma NextChunk<T>(xs: seq<T>, per: nat, from: nat)
    requires per > 0 || |xs| == 0
    requires from <= |xs|
    ensures from <= Min(from + per, |xs|) <= |xs|
    ensures Chunks(xs[from..], per)[0] == xs[from..Min(from + per, |xs|)]
    ensures from + per >= |xs| <==> |Chunks(xs[from..], per)| == 1
    ensures from + per < |xs| ==> Chunks(xs[from..], per)[1..] == Chunks(xs[from + per..], per)
  {
    var rest := xs[from..];
    if |rest| > per {
      assert rest[..per] == xs[from..from + per];
      assert rest[per..] == xs[from + per..];
      assert |Chunks(rest[per..], per)| >= 1;
    }
  }

  /** Where the loop of `save` stands: either it has stopped with every
      slice written, or `parts` are written and the slices of what is left
      from `from` are still to come. */
  ghost predicate Remaining<T>(xs: seq<T>, per: nat, from: int, parts: seq<seq<T>>, done: bool)
    requires per > 0 || |xs| == 0
  {
    if done then parts == Chunks(xs, per)
    else 0 <= from <= |xs| && Chunks(xs, per) == parts + Chunks(xs[from..], per)
  }

  /** One turn of the loop: the slice it takes next is the next slice, and
      afterwards the loop stands at `from + per`, stopped exactly when that
      reaches the end. */
  lemma AdvanceChunk<T>(xs: seq<T>, per: nat, from: int, parts: seq<seq<T>>)
    requires per > 0 || |xs| == 0
    requires Remaining(xs, per, from, parts, false)
    ensures 0 <= from <= Min(from + per, |xs|) <= |xs|
    ensures Remaining(xs, per, from + per, parts + [xs[from..Min(from + per, |xs|)]], from + per >= |xs|)
    ensures from + per < |xs| ==> |parts| + 1 < |Chunks(xs, per)|
  {
    NextChunk(xs, per, from);
    var rest := Chunks(xs[from..], per);
    assert rest == [rest[0]] + rest[1..];
    var x := xs[from..Min(from + per, |xs|)];
    if from + per < |xs| {
      assert Chunks(xs, per) == parts + [x] + Chunks(xs[from + per..], per);
    }
  }

  /** Writing one more file extends the writes by that one file. */
  lemma WriteAllSnoc<T>(fs: Fs, path: nat -> string, parts: seq<seq<T>>, x: seq<T>, encode: seq<T> -> Value)
    ensures WriteAll(fs, Table(path, |parts| + 1), ShardContents(parts + [x], encode))
      == WriteAll(fs, Table(path, |parts|), ShardContents(parts, encode))[path(|parts|) := Dumped(encode(x))]
  {
    var paths := Table(path, |parts| + 1);
    var contents := ShardContents(parts + [x], encode);
    assert paths[..|parts|] == Table(path, |parts|);
    assert contents[..|parts|] == ShardContents(parts, encode);
  }

  /** Appending descriptor `i` after descriptors 0 .. i-1 gives
      descriptors 0 .. i. */
  lemma AppendDescriptor(steps: Dict<int, seq<Step>>, location: string, runId: string, stepNumber: int,
                         fileName: string, i: nat)
    ensures Extend(
              if i == 0 then steps else Extend(steps, stepNumber, Descriptors(location, runId, stepNumber, fileName, i)),
              stepNumber, [Descriptor(location, runId, stepNumber, fileName, i)])
      == Extend(steps, stepNumber, Descriptors(location, runId, stepNumber, fileName, i + 1))
  {
    var before := Descriptors(location, runId, stepNumber, fileName, i);
    var step := Descriptor(location, runId, stepNumber, fileName, i);
    var after := Descriptors(location, runId, stepNumber, fileName, i + 1);
    assert before + [step] == after;
    if i > 0 {
      ExtendTwice(steps, stepNumber, before, [step]);
    } else {
      assert [step] == after;
    }
  }

  /** The service and filesystem after a `save`, and the slices it wrote. */
  datatype Saved = Saved(service: ImportService, fs: Fs, parts: seq<seq<Entry>>)

  /** `save`: plans the files, writes each slice as a shard under the run
      directory, appends one descriptor per written shard under the step
      number (stopping once every entry is placed), then rewrites the
      manifest. A zero divisor raises before anything is written. */
  method Save(s: ImportService, fs: Fs, entries: seq<Entry>, location: string, fileName: string, stepNumber: int, split: bool)
    returns (r: Result<Saved, Error>)
    ensures r.Err? <==> Partition(s.maxJobs, s.maxEntries, entries, split).Err?
    ensures r.Ok? ==> r.value.parts == Partition(s.maxJobs, s.maxEntries, entries, split).value
    ensures r.Ok? ==> (r.value.service.runId == s.runId && r.value.service.maxJobs == s.maxJobs
      && r.value.service.maxEntries == s.maxEntries)
    ensures r.Ok? && r.value.parts == [] ==> r.value.service.steps == s.steps
    ensures r.Ok? && r.value.parts != [] ==>
      r.value.service.steps == Extend(s.steps, stepNumber, Descriptors(location, s.runId, stepNumber, fileName, |r.value.parts|))
    ensures r.Ok? ==> (r.value.fs ==
      WriteShards(fs, location, s.runId, stepNumber, fileName, r.value.parts, EncodeShard)
        [ManifestPath(location, s.runId) := Dumped(ManifestJson(r.value.service))])
    ensures r.Ok? && Keyed(s.steps) ==> Keyed(r.value.service.steps)
  {
    var n := |entries|;
    var files := 1;
    if split {
      if s.maxEntries == 0 {
        return Err(ZeroDivision);
      }
      files := Max(-FloorDiv(-n, s.maxEntries), s.maxJobs);
    }
    assert PlannedFiles(s.maxJobs, s.maxEntries, n, split) == Ok(files);
    if files == 0 {
      return Err(ZeroDivision);
    }
    var steps := s.steps;
    var out := fs;
    var parts: seq<seq<Entry>> := [];
    if files > 0 {
      var per := -FloorDiv(-n, files);
      PerFileBounds(n, files);
      ChunksFitFiles(entries, files);
      assert Partition(s.maxJobs, s.maxEntries, entries, split) == Ok(Chunks(entries, per as nat)) by {
        assert per == CeilDiv(n, files).value;
      }
      out, steps, parts := WriteParts(fs, s.steps, entries, per as nat, files, stepNumber,
        ShardPathOf(location, s.runId, stepNumber, fileName), DescriptorOf(location, s.runId, stepNumber, fileName), EncodeShard);
      assert steps == Extend(s.steps, stepNumber, Descriptors(location, s.runId, stepNumber, fileName, |parts|));
      assert out == WriteShards(fs, location, s.runId, stepNumber, fileName, parts, EncodeShard);
      assert Keyed(s.steps) ==> Keyed(steps) by {
        if Keyed(s.steps) {
          ExtendKeyed(s.steps, stepNumber, Descriptors(location, s.runId, stepNumber, fileName, |parts|));
        }
      }
    }
    var service := s.(steps := steps);
    out := out[ManifestPath(location, s.runId) := Dumped(ManifestJson(service))];
    return Ok(Saved(service, out, parts));
  }

  /** The loop of `save`: slice `i` covers entries `i * per` up to
      `(i + 1) * per`, clipped at the end; it is written as shard `i` and its
      descriptor recorded. The loop stops after `files` slices or as soon as
      the slices reach the end of the list. The recorded descriptors are
      then appended under the step number; appending them one at a time, as
      the loop of `save` does, gives the same lists (`AppendDescriptor`). */
  method WriteParts<T>(fs: Fs, steps0: Dict<int, seq<Step>>, entries: seq<T>, per: nat, files: int, stepNumber: int,
                       path: nat -> string, descriptor: nat -> Step, encode: seq<T> -> Value)
    returns (out: Fs, steps: Dict<int, seq<Step>>, parts: seq<seq<T>>)
    requires per > 0 || |entries| == 0
    requires files > 0 && |Chunks(entries, per)| <= files
    ensures parts == Chunks(entries, per)
    ensures out == WriteAll(fs, Table(path, |parts|), ShardContents(parts, encode))
    ensures steps == Extend(steps0, stepNumber, Table(descriptor, |parts|))
  {
    var n := |entries|;
    var added: seq<Step> := [];
    out, parts := fs, [];
    var from := 0;
    var i := 0;
    var done := false;
    assert entries[0..] == entries;
    while i < files && !done
      invariant i == |parts|
      invariant Remaining(entries, per, from, parts, done)
      invariant !done ==> i < |Chunks(entries, per)|
      invariant out == WriteAll(fs, Table(path, i), ShardContents(parts, encode))
      invariant added == Table(descriptor, i)
      decreases files - i
    {
      AdvanceChunk(entries, per, from, parts);
      var x := entries[from..Min(from + per, n)];
      WriteAllSnoc(fs, path, parts, x, encode);
      out := out[path(i) := Dumped(encode(x))];
      TableSnoc(descriptor, i);
      added := added + [descriptor(i)];
      parts := parts + [x];
      from := from + per;
      i := i + 1;
      done := from >= n;
    }
    steps := Extend(steps0, stepNumber, added);
  }
}

=== FILE: similarity.dfy ===
/**
 * The pure part of similarity.py: table names that follow the "c>d>s>t"
 * edge naming convention (exactly three '>') are prefixed with their domain
 * id and split on '>', giving [domainId, c, d, s, t]; the upper-cased third
 * and fourth parts (the name's d and s) are gathered per database key
 * "domainId>c", and two database keys are compared by the Jaccard
 * cardinalities of their character sets.
 */
module Similarity {
  import opened Opt
  import opened Dicts
  import Text

  // ---------------------------------------------------------------------
  // Selecting and splitting table names.
  // ---------------------------------------------------------------------

  /** A catalog table: the id of its domain and its name. */
  datatype Table = Table(domainId: string, name: string)

  /** Only names with exactly three '>' follow the naming convention. */
  predicate Conventional(t: Table) {
    Text.Count(t.name, '>') == 3
  }

  /** "<domainId>><name>" split on '>'. */
  function Parts(t: Table): seq<string> {
    Text.Split(t.domainId + ">" + t.name, '>')
  }

  /** The conventional tables, in order, each split into its parts. */
  function AllTableNames(tables: seq<Table>): (r: seq<seq<string>>)
    ensures |r| <= |tables|
    ensures forall t :: t in tables && Conventional(t) ==> Parts(t) in r
    ensures forall names :: names in r ==> exists t :: t in tables && Conventional(t) && names == Parts(t)
  {
    if |tables| == 0 then []
    else
      var rest := AllTableNames(tables[1..]);
      assert forall t :: t in tables ==> t == tables[0] || t in tables[1..];
      if Conventional(tables[0]) then [Parts(tables[0])] + rest else rest
  }

  /** A conventional name under a domain id without '>' splits into exactly
      five parts: the domain id, then the name's four parts. */
  lemma {:induction false} ConventionalParts(t: Table)
    requires Conventional(t) && '>' !in t.domainId
    ensures |Parts(t)| == 5 && Parts(t)[0] == t.domainId
  {
    Text.SplitCount(t.domainId + ">" + t.name, '>');
    Text.CountAppend(t.domainId + ">", t.name, '>');
    Text.CountAppend(t.domainId, ">", '>');
    Text.SplitJoin(t.domainId, t.name, '>');
  }

  /** Whatever its domain id, a conventional name splits into at least five
      parts: one more than the '>'s of the domain id, plus the name's four. */
  lemma {:induction false} ConventionalPartsCount(t: Table)
    requires Conventional(t)
    ensures |Parts(t)| == Text.Count(t.domainId, '>') + 5
  {
    Text.SplitCount(t.domainId + ">" + t.name, '>');
    Text.CountAppend(t.domainId + ">", t.name, '>');
    Text.CountAppend(t.domainId, ">", '>');
  }

  // ---------------------------------------------------------------------
  // Names per database.
  // ---------------------------------------------------------------------

  /** The database key: "<first part>><second part>". */
  function DatabaseKey(names: seq<string>): string
    requires |names| >= 2
  {
    names[0] + ">" + names[1]
  }

  /** `xs.append(x)` unless `x in xs`. */
  function AddIfAbsent(xs: seq<string>, x: string): (r: seq<string>)
    ensures x in r
    ensures xs <= r
    ensures x in xs ==> r == xs
    ensures forall y :: y in r ==> y in xs || y == x
    ensures Distinct(xs) ==> Distinct(r)
  {
    if x in xs then xs
    else
      assert Distinct(xs) ==> Distinct(xs + [x]) by {
        if Distinct(xs) {
          DistinctSnoc(xs, x);
        }
      }
      xs + [x]
  }

  /** `get_names_per_database`: the list under the database key, created
      empty on the first sight of the key, gains the upper-cased third and
      fourth parts, each only when not already listed. None when `names`
      has fewer than four parts: a subscript raises `IndexError`. */
  function NamesPerDatabase(d: Dict<string, seq<string>>, names: seq<string>): (r: Option<Dict<string, seq<string>>>)
    ensures r.None? <==> |names| < 4
    ensures r.Some? ==> Keys(r.value) == if HasKey(d, DatabaseKey(names)) then Keys(d) else Keys(d) + [DatabaseKey(names)]
    ensures r.Some? ==> forall k :: k != DatabaseKey(names) ==> Get(r.value, k) == Get(d, k)
    ensures r.Some? ==> HasKey(r.value, DatabaseKey(names))
    ensures r.Some? ==> var before := Get(d, DatabaseKey(names)).GetOr([]);
                        var after := Get(r.value, DatabaseKey(names)).value;
                        before <= after && Text.Upper(names[2]) in after && Text.Upper(names[3]) in after
                        && forall x :: x in after ==> x in before || x == Text.Upper(names[2]) || x == Text.Upper(names[3])
  {
    if |names| < 4 then None
    else
      var key := DatabaseKey(names);
      var list := AddIfAbsent(AddIfAbsent(Get(d, key).GetOr([]), Text.Upper(names[2])), Text.Upper(names[3]));
      PutKeys(d, key, list);
      assert forall k :: k != key ==> Get(Put(d, key, list), k) == Get(d, k) by {
        forall k | k != key {
          PutGetOther(d, key, list, k);
        }
      }
      Some(Put(d, key, list))
  }

  /** Every list of names is free of duplicates. */
  predicate ListsDistinct(d: Dict<string, seq<string>>) {
    forall p :: p in d.pairs ==> Distinct(p.1)
  }

  /** Gathering keeps every list free of duplicates. */
  lemma NamesStayDistinct(d: Dict<string, seq<string>>, names: seq<string>)
    requires ListsDistinct(d) && |names| >= 4
    ensures ListsDistinct(NamesPerDatabase(d, names).value)
  {
    var key := DatabaseKey(names);
    var before := Get(d, key).GetOr([]);
    if HasKey(d, key) {
      GetPair(d, key);
    }
    var list := AddIfAbsent(AddIfAbsent(before, Text.Upper(names[2])), Text.Upper(names[3]));
    PutPairs(d, key, list);
  }

  /** The loop of `main` over all split table names; None as soon as one
      has fewer than four parts. */
  function GatherAll(d: Dict<string, seq<string>>, all: seq<seq<string>>): (r: Option<Dict<string, seq<string>>>)
    ensures r.None? <==> exists i :: 0 <= i < |all| && |all[i]| < 4
    decreases |all|
  {
    if |all| == 0 then Some(d)
    else match NamesPerDatabase(d, all[0])
      case None => None
      case Some(d') =>
        var r := GatherAll(d', all[1..]);
        assert r.None? <==> exists i :: 0 <= i < |all| && |all[i]| < 4 by {
          if r.None? {
            var i :| 0 <= i < |all[1..]| && |all[1..][i]| < 4;
            assert |all[i + 1]| < 4;
          } else {
            forall i | 0 <= i < |all|
              ensures |all[i]| >= 4
            {
              if i > 0 {
                assert all[i] == all[1..][i - 1];
              }
            }
          }
        }
        r
  }

  /** After gathering, every database key seen has a list, every list is
      free of duplicates, no key is lost, and no other key appears. */
  lemma {:induction false} GatherAllProperties(d: Dict<string, seq<string>>, all: seq<seq<string>>)
    requires ListsDistinct(d)
    requires forall i :: 0 <= i < |all| ==> |all[i]| >= 4
    ensures GatherAll(d, all).Some?
    ensures ListsDistinct(GatherAll(d, all).value)
    ensures Keys(d) <= Keys(GatherAll(d, all).value)
    ensures forall i :: 0 <= i < |all| ==> DatabaseKey(all[i]) in Keys(GatherAll(d, all).value)
    ensures forall k :: k in Keys(GatherAll(d, all).value) ==>
              k in Keys(d) || exists i :: 0 <= i < |all| && k == DatabaseKey(all[i])
    decreases |all|
  {
    if |all| > 0 {
      var d' := NamesPerDatabase(d, all[0]).value;
      NamesStayDistinct(d, all[0]);
      GatherAllProperties(d', all[1..]);
      assert GatherAll(d, all) == GatherAll(d', all[1..]);
      var r := GatherAll(d, all).value;
      assert Keys(d) <= Keys(r) by {
        assert Keys(d) <= Keys(d') && Keys(d') <= Keys(r);
      }
      assert DatabaseKey(all[0]) in Keys(r) by {
        assert DatabaseKey(all[0]) in Keys(d');
        PrefixMember(Keys(d'), Keys(r), DatabaseKey(all[0]));
      }
      forall i | 1 <= i < |all|
        ensures DatabaseKey(all[i]) in Keys(r)
      {
        assert all[i] == all[1..][i - 1];
      }
    }
    GatheredKeys(d, all);
  }

  /** Gathering adds no key other than the database keys of the names. */
  lemma {:induction false} GatheredKeys(d: Dict<string, seq<string>>, all: seq<seq<string>>)
    requires forall i :: 0 <= i < |all| ==> |all[i]| >= 4
    requires GatherAll(d, all).Some?
    ensures forall k :: k in Keys(GatherAll(d, all).value) ==>
              k in Keys(d) || exists i :: 0 <= i < |all| && k == DatabaseKey(all[i])
    decreases |all|
  {
    if |all| > 0 {
      var d' := NamesPerDatabase(d, all[0]).value;
      assert GatherAll(d, all) == GatherAll(d', all[1..]);
      GatheredKeys(d', all[1..]);
      var r := GatherAll(d, all).value;
      forall k | k in Keys(r)
        ensures k in Keys(d) || exists i :: 0 <= i < |all| && k == DatabaseKey(all[i])
      {
        if k !in Keys(d') {
          var i :| 0 <= i < |all[1..]| && k == DatabaseKey(all[1..][i]);
          assert all[1..][i] == all[i + 1];
        } else if k !in Keys(d) {
          assert k == DatabaseKey(all[0]);
        }
      }
    }
  }

  lemma PrefixMember<T>(a: seq<T>, b: seq<T>, x: T)
    requires a <= b && x in a
    ensures x in b
  {
    var i :| 0 <= i < |a| && a[i] == x;
    assert b[i] == x;
  }

  /** The conventional tables always gather: each splits into at least
      five parts, so the four subscripts never fail. */
  lemma TablesGather(tables: seq<Table>)
    ensures GatherAll(Dict([]), AllTableNames(tables)).Some?
    ensures ListsDistinct(GatherAll(Dict([]), AllTableNames(tables)).value)
  {
    var all := AllTableNames(tables);
    forall i | 0 <= i < |all|
      ensures |all[i]| >= 4
    {
      assert all[i] in all;
      var t :| t in tables && Conventional(t) && all[i] == Parts(t);
      ConventionalPartsCount(t);
    }
    GatherAllProperties(Dict([]), all);
  }

  // ---------------------------------------------------------------------
  // Jaccard cardinalities.
  // ---------------------------------------------------------------------

  /** `set(s)` of a string: its characters. */
  function Chars(s: string): set<char> {
    set c | c in s
  }

  lemma CharsEmpty(s: string)
    ensures Chars(s) == {} <==> s == []
  {
    if s != [] {
      assert s[0] in Chars(s);
    }
  }

  datatype Error = ZeroDivision

  /** `jaccard_similarity` as the pair (intersection, union) of the two
      character sets, whose quotient is the similarity; dividing by an
      empty union raises. */
  function Jaccard(x: string, y: string): (r: Result<(nat, nat), Error>)
    ensures r.Err? <==> x == [] && y == []
  {
    CharsEmpty(x);
    CharsEmpty(y);
    var union := |Chars(x) + Chars(y)|;
    if union == 0 then Err(ZeroDivision)
    else Ok((|Chars(x) * Chars(y)|, union))
  }

  lemma SubsetCard(a: set<char>, b: set<char>)
    requires a <= b
    ensures |a| <= |b|
  {
    assert b == a + (b - a);
  }

  /** The intersection never exceeds the union, so the similarity lies
      between 0 and 1, and both counts are symmetric. */
  lemma JaccardBounds(x: string, y: string)
    ensures Jaccard(x, y).Ok? ==> 0 <= Jaccard(x, y).value.0 <= Jaccard(x, y).value.1
    ensures Jaccard(x, y) == Jaccard(y, x)
  {
    SubsetCard(Chars(x) * Chars(y), Chars(x) + Chars(y));
    assert Chars(x) * Chars(y) == Chars(y) * Chars(x);
    assert Chars(x) + Chars(y) == Chars(y) + Chars(x);
  }

  /** The similarity is 1 exactly when both strings use the same
      characters (and are not both empty). */
  lemma JaccardOne(x: string, y: string)
    requires x != [] || y != []
    ensures Jaccard(x, y).Ok?
    ensures Jaccard(x, y).value.0 == Jaccard(x, y).value.1 <==> Chars(x) == Chars(y)
  {
    var i, u := Chars(x) * Chars(y), Chars(x) + Chars(y);
    CharsEmpty(x);
    CharsEmpty(y);
    assert Jaccard(x, y) == Ok((|i|, |u|));
    assert Chars(x) == Chars(y) ==> i == u;
    if |i| == |u| {
      assert u - i == {} by {
        assert u == i + (u - i);
      }
      assert Chars(x) <= i && Chars(y) <= i;
    }
  }

  /** Two database keys always compare: every key holds a '>', so the
      union is never empty, and a key compared with itself scores 1. */
  lemma KeysCompare(a: seq<string>, b: seq<string>)
    requires |a| >= 2 && |b| >= 2
    ensures Jaccard(DatabaseKey(a), DatabaseKey(b)).Ok?
    ensures Jaccard(DatabaseKey(a), DatabaseKey(a)).value.0 == Jaccard(DatabaseKey(a), DatabaseKey(a)).value.1
  {
    assert DatabaseKey(a) != [];
    JaccardOne(DatabaseKey(a), DatabaseKey(a));
  }
}

=== FILE: text.dfy ===
/**
 * The few string operations the import pipeline relies on: Python's `str()`
 * of an integer, `startswith`/`endswith`, `count`, `split` on one separator
 * character and `upper()`.
 */
module Text {
  import opened Opt

  function Digit(d: nat): (c: char)
    requires d < 10
  {
    "0123456789"[d]
  }

  function DigitValue(c: char): (r: Option<nat>)
    ensures r.Some? ==> r.value < 10 && Digit(r.value) == c
    ensures r.None? <==> !('0' <= c <= '9')
  {
    if '0' <= c <= '9' then Some((c as int - '0' as int) as nat) else None
  }

  /** Decimal rendering of a natural number, most significant digit first. */
  function NatToString(n: nat): (s: string)
    ensures |s| > 0
    ensures forall i :: 0 <= i < |s| ==> '0' <= s[i] <= '9'
  {
    if n < 10 then [Digit(n)] else NatToString(n / 10) + [Digit(n % 10)]
  }

  /** Python's `str(i)` for an `int`: a leading '-' for negatives. */
  function IntToString(i: int): (s: string)
    ensures |s| > 0
  {
    if i < 0 then "-" + NatToString(-i) else NatToString(i)
  }

  /** Reads back a run of decimal digits. */
  function ParseNat(s: string): (r: Option<nat>)
    decreases |s|
  {
    if |s| == 0 then None
    else
      match DigitValue(s[|s| - 1])
      case None => None
      case Some(d) =>
        if |s| == 1 then Some(d)
        else match ParseNat(s[..|s| - 1])
          case None => None
          case Some(p) => Some(p * 10 + d)
  }

  /** Python's `int(s)` on an optional '-' followed by ASCII digits;
      leading zeros and "-0" are accepted, as Python does. */
  function ParseInt(s: string): Option<int> {
    if |s| > 0 && s[0] == '-' then
      match ParseNat(s[1..])
      case None => None
      case Some(n) => Some(0 - n as int)
    else
      match ParseNat(s)
      case None => None
      case Some(n) => Some(n)
  }

  lemma {:induction false} ParseNatToString(n: nat)
    ensures ParseNat(NatToString(n)) == Some(n)
    decreases n
  {
    var s := NatToString(n);
    if n < 10 {
      assert DigitValue(Digit(n)) == Some(n);
    } else {
      ParseNatToString(n / 10);
      assert s[..|s| - 1] == NatToString(n / 10);
      assert DigitValue(s[|s| - 1]) == Some(n % 10);
    }
  }

  /** `int(str(i)) == i`: the decimal rendering loses nothing. */
  lemma ParseIntToString(i: int)
    ensures ParseInt(IntToString(i)) == Some(i)
  {
    if i < 0 {
      ParseNegative(-i);
      assert IntToString(i) == "-" + NatToString(-i);
    } else {
      ParseNonNegative(i);
      assert IntToString(i) == NatToString(i);
    }
  }

  lemma ParseNonNegative(n: nat)
    ensures ParseInt(NatToString(n)) == Some(n as int)
  {
    ParseNatToString(n);
    var s := NatToString(n);
    assert '0' <= s[0] <= '9';
  }

  lemma ParseNegative(n: nat)
    requires n > 0
    ensures ParseInt("-" + NatToString(n)) == Some(0 - n)
  {
    var s := "-" + NatToString(n);
    ParseNatToString(n);
    assert s[1..] == NatToString(n);
  }

  /** A leading zero does not change the value read. */
  lemma {:induction false} ParseNatLeadingZero(s: string)
    requires |s| > 0
    ensures ParseNat("0" + s) == ParseNat(s)
    decreases |s|
  {
    var t := "0" + s;
    assert t[|t| - 1] == s[|s| - 1];
    if |s| == 1 {
      assert t[..|t| - 1] == "0";
    } else {
      assert t[..|t| - 1] == "0" + s[..|s| - 1];
      ParseNatLeadingZero(s[..|s| - 1]);
    }
  }

  /** `int` accepts leading zeros and "-0", as Python does: "0" before the
      digits of `n` reads back as `n`, and "-0" as zero. */
  lemma ParseIntLeadingZero(n: nat)
    ensures ParseInt("0" + NatToString(n)) == Some(n as int)
    ensures ParseInt("-0") == Some(0)
  {
    ParseNatToString(n);
    ParseNatLeadingZero(NatToString(n));
    assert ("0" + NatToString(n))[0] == '0';
    assert "-0"[1..] == "0";
    assert ParseNat("0") == Some(0) by {
      assert DigitValue('0') == Some(0);
    }
  }

  /** Distinct integers render as distinct strings. */
  lemma IntToStringInjective(i: int, j: int)
    ensures IntToString(i) == IntToString(j) <==> i == j
  {
    ParseIntToString(i);
    ParseIntToString(j);
  }

  predicate StartsWith(s: string, prefix: string) {
    |prefix| <= |s| && s[..|prefix|] == prefix
  }

  predicate EndsWith(s: string, suffix: string) {
    |suffix| <= |s| && s[|s| - |suffix|..] == suffix
  }

  /** Python's `s.count(c)` for a one-character `c`. */
  function Count(s: string, c: char): (n: nat)
    ensures n <= |s|
    ensures n == 0 <==> c !in s
  {
    if |s| == 0 then 0
    else (if s[0] == c then 1 else 0) + Count(s[1..], c)
  }

  /** Python's `s.split(c)` for a one-character separator `c`. */
  function Split(s: string, c: char): (parts: seq<string>)
    ensures |parts| > 0
    ensures forall i :: 0 <= i < |parts| ==> c !in parts[i]
  {
    if |s| == 0 then [""]
    else
      var rest := Split(s[1..], c);
      if s[0] == c then [""] + rest else [[s[0]] + rest[0]] + rest[1..]
  }

  /** Splitting on `c` yields one more piece than there are `c`s. */
  lemma {:induction false} SplitCount(s: string, c: char)
    ensures |Split(s, c)| == Count(s, c) + 1
  {
    if |s| > 0 {
      SplitCount(s[1..], c);
    }
  }

  lemma {:induction false} CountAppend(a: string, b: string, c: char)
    ensures Count(a + b, c) == Count(a, c) + Count(b, c)
  {
    if |a| > 0 {
      assert (a + b)[1..] == a[1..] + b;
      CountAppend(a[1..], b, c);
    } else {
      assert a + b == b;
    }
  }

  /** Joining pieces with `c` and splitting again gives the pieces back. */
  lemma {:induction false} SplitJoin(a: string, b: string, c: char)
    requires c !in a
    ensures Split(a + [c] + b, c) == [a] + Split(b, c)
  {
    if |a| == 0 {
      assert a + [c] + b == [c] + b;
      assert ([c] + b)[1..] == b;
    } else {
      assert (a + [c] + b)[1..] == a[1..] + [c] + b;
      SplitJoin(a[1..], b, c);
      assert [a[0]] + a[1..] == a;
    }
  }

  function UpperChar(c: char): char {
    if 'a' <= c <= 'z' then (c as int - 32) as char else c
  }

  /** `str.upper()` on the ASCII letters; every other character is kept. */
  function Upper(s: string): (u: string)
    ensures |u| == |s|
    ensures forall i :: 0 <= i < |s| ==> u[i] == UpperChar(s[i])
  {
    seq(|s|, i requires 0 <= i < |s| => UpperChar(s[i]))
  }
}
